=== FILE: README.md ===
# Company directory backend: access control, accounts and paging

This project is a Dafny model of the request-handling core of a small
Express/Mongoose service and its Angular client. The service keeps two
kinds of account:

- users, at `/api/users`;
- companies, at `/api/company`.

Each kind registers and logs in with a bcrypt-hashed password and
receives a JWT. Every other route is guarded by the role-checking
`authorize` middleware and, for the writes, by an express-validator rule
set. The model covers:

- **Authorization**: the `authorize(roles)` middleware's decision
  (module `Authorize`), the Bearer header, and the two route tables
  (`UserRoutes`, `CompanyRoutes`). The tables are run by a small model
  of Express routing (`Router`): the first matching route wins, and its
  middleware runs in order.
- **Schemas**: the Mongoose schemas and their `pre('save')` hooks
  (`UserModel`, `CompanyModel`, with shared field rules in `Schema`).
  Each hook is a function on the document and also a method on a
  `UserDocument`/`CompanyDocument` object that overwrites `password` in
  place.
- **Controllers**: `UserController` and `CompanyController`. The handlers
  that write to a collection are methods of `UserStore`/`CompanyStore`,
  each proved against a function giving the response and the new
  collection. The read-only handlers (`authenticate`, `findAll`,
  `findOne`) are functions of the collection. Paging arithmetic lives in
  `Pagination`.
- **Validation**: the express-validator rule sets and the `validate`
  middleware (`RequestValidation`, `UserValidator`, `CompanyValidator`).
- **Errors and client**: the error handler (`ErrorHandler`) and the
  paging state of the Angular company list (`CompanyList`).

Some outside libraries are modelled symbolically:

- **bcrypt** (`Bcrypt`): a digest records what it was computed from, so
  `compare(p, h)` holds exactly when `h` is a digest of the plain text
  `p`.
- **JWT** (`Jwt`): a token records its claims, its key and its
  issue/expiry times.

Salts, the clock, the signing secret, the email pattern, the
express-validator `isEmail` test, the company search `RegExp` and
`jwt.verify` are all parameters.

Three points of the code a reader might not expect:

- A company's `companyName` is neither unique nor lower-cased.
- `update` never touches a password.
- The company token's role claim is always `company`.

## Model

| member | source | states |
|---|---|---|
| Authorize.Check | backend/middlewares/authorize.js:9-27 | No header gives 401 "No Token Provided" and nothing else does. A header whose token fails verification gives 403 "Invalid Token". A verified token whose role the non-empty list lacks gives 401 "Insufficient Privileges". Otherwise the request passes with `req.user` equal to the verified claims. Each of these is stated in both directions. |
| Authorize.OneRoleIsList | backend/middlewares/authorize.js:3-6 | A single role string behaves exactly like the one-element list. |
| Authorize.InvalidTokenIgnoresRoles | backend/middlewares/authorize.js:16-19 | A token that fails verification gets 403 whatever the role list is. |
| Authorize.EmptyAllowListAdmitsAll | backend/middlewares/authorize.js:21-26 | With no roles, or the empty list, every verified token passes with its claims. |
| Authorize.BearerHeaderToken | backend/middlewares/authorize.js:15 | The second space-separated field of `Bearer <t>` is `t` when `t` has no space. |
| JsString.Split | backend/middlewares/authorize.js:15 | `split(' ')` returns at least one part, and no part contains the separator. There is exactly one part iff the separator does not occur. |
| JsString.JoinSplit | backend/middlewares/authorize.js:15 | Joining the parts of a split gives back the original string. |
| JsString.SplitJoin | backend/middlewares/authorize.js:15 | Splitting the join of separator-free parts gives back those parts. |
| JsString.SplitAfterPrefix | backend/middlewares/authorize.js:15 | A separator-free prefix followed by the separator becomes the first part of the split. |
| JsString.Trim | backend/models/user.model.js:47 | `trim: true` keeps a middle part `s[i..j]` of the string: everything cut before `i` and after `j` is white space, and no white space is left at either end. |
| JsString.TrimOfTrimmed | backend/models/user.model.js:47 | Trimming a string that is already trimmed changes nothing. |
| JsString.ToLowerAt | backend/models/user.model.js:48 | `lowercase: true` maps each character to its lower-case form, position by position. |
| JsString.ToLowerIdempotent | backend/models/user.model.js:48 | Lower-casing twice is the same as lower-casing once. |
| JsString.NormalizeIdempotent | backend/models/user.model.js:42-48 | The trim-then-lowercase setters are idempotent, so a stored username looked up again finds itself. |
| QueryString.BeforeFragment | frontend/src/app/api.service.ts:122 | What is sent of a URL's query is a prefix of it with no `#`: all of it when it has no `#`, and otherwise it stops right at the first `#`. |
| QueryString.BeforeFragmentAt | frontend/src/app/api.service.ts:122 | Everything from the first `#` on is dropped. |
| QueryString.PlusAsSpace | backend/controllers/company.controller.js:50 | Decoding a key or value keeps its length, leaves no `+`, and changes nothing when there was none. |
| QueryString.KeyLength | backend/controllers/company.controller.js:50 | The key of a parameter ends at its first `=`, or runs to the end when there is none. |
| QueryString.ParamOf | backend/controllers/company.controller.js:50 | `k=v`, for a key without `=` or `+`, is the parameter `k` with the value `v` decoded; any later `=` belongs to the value. |
| QueryString.Params | backend/controllers/company.controller.js:50 | The parameters are the `&`-separated fields of the part before `#`, in order, each read as key and value. |
| QueryString.OneParam | backend/controllers/company.controller.js:50 | A field with no `&` or `#` is a query of exactly that one parameter. |
| QueryString.ParamsAfterField | backend/controllers/company.controller.js:50 | A field with no `&` or `#` followed by `&` is the first parameter, and the rest of the query gives the others. |
| QueryString.OneParamOf | frontend/src/app/api.service.ts:122 | `k=v` with no `&` or `#` is exactly the one parameter `(k, v)`, with `+` in `v` read as a space. |
| QueryString.TwoParamsOf | frontend/src/app/api.service.ts:128 | `k1=v1&k2=v2` with no further `&` or `#` is exactly the two parameters `(k1, v1)` and `(k2, v2)`, in that order. |
| QueryString.Lookup | backend/controllers/company.controller.js:50 | A parameter is found iff some parameter has that key, and the value found is the value of such a parameter. |
| QueryString.Digits | frontend/src/app/api.service.ts:128 | The decimal digits of a number are non-empty, all digits, and without a leading zero. |
| QueryString.DigitsValueOfDigits | frontend/src/app/api.service.ts:128 | Reading the digits of `n` back gives `n`. |
| QueryString.Decimal | frontend/src/app/api.service.ts:128 | `${i}` holds no `&`, `#`, `=` or `+`, so a number never splits or renames a parameter. |
| QueryString.DecimalRoundTrip | frontend/src/app/api.service.ts:128 | `${i}` is the text of an integer, and reading it back gives `i`, negative numbers included. |
| Bcrypt.Hash | backend/models/user.model.js:84-85 | A digest is never the value it was computed from and is 60 characters long. |
| Bcrypt.CompareHash | backend/controllers/user.controller.js:34 | `bcrypt.compare(q, hash(p))` holds iff `q == p`. |
| Bcrypt.DoubleHashMatchesNothing | backend/controllers/company.controller.js:96-97 | No plaintext password compares equal to a digest of a digest. The text of the inner digest is not a password the model can offer (see "## Left out"). |
| Jwt.Sign | backend/controllers/user.controller.js:39-44 | Signing succeeds iff the secret is set and non-empty. The token carries the claims and the secret as key, and expires 2 h (7200 s) after issue. A missing secret gives the error message. |
| Jwt.SignThenVerify | backend/middlewares/authorize.js:16 | A token verifies under its own secret to its claims until it expires, and after that is reported expired. |
| Jwt.OtherKeyRejected | backend/middlewares/authorize.js:16-19 | A token never verifies under another secret. |
| Schema.LengthCheck | backend/models/user.model.js:50-55 | A path passes iff it is present or not required, it is non-empty when required, and its length is within maxLength/minLength. |
| Schema.Collect | backend/models/user.model.js:41-70 | Validation reports an error for every failing path and for nothing else. There are no errors iff every path passes. |
| Schema.Normalized | backend/models/user.model.js:58-63 | The setters keep presence, and the stored value is the trimmed, lower-cased input, which is itself trimmed. |
| Schema.Overwrite | backend/controllers/user.controller.js:114-118 | An update field that is given replaces the stored value, and an absent one leaves it. |
| Schema.OverwriteOptional | backend/controllers/user.controller.js:114-118 | The same rule for an optional stored field. |
| Pagination.PageOf | backend/controllers/user.controller.js:59-62 | `.limit(l).skip((p-1)*l)` returns at most `l` documents. They are exactly the documents from position (p-1)·l on, in order, and there are none when the skip passes the end. |
| Pagination.TotalPagesIsCeiling | backend/controllers/user.controller.js:67 | `Math.ceil(count/limit)` is the least page count whose pages hold every document. It is 0 iff there are no documents. |
| Pagination.EveryDocumentOnAPage | backend/controllers/user.controller.js:59-67 | Document `i` appears on page `i/l + 1`, at offset `i % l`, and that page is within the page count. |
| Pagination.PageWithinTotal | backend/controllers/user.controller.js:67 | A page whose first position precedes the count is within the page count. |
| Pagination.PageAt | backend/controllers/user.controller.js:59-62 | Position `m` of page `p` holds document (p-1)·l + m whenever that exists. |
| Pagination.PastLastPageIsEmpty | backend/controllers/user.controller.js:59-62 | A page beyond the page count is empty. |
| Pagination.NonEmptyPage | backend/controllers/user.controller.js:59-67 | A page within the page count starts before the end of the documents. |
| Pagination.PageResponse | backend/controllers/user.controller.js:59-69 | The answer is 200. Its documents are exactly `PageOf`: the matches after skipping `(page - 1) * limit`, at most `limit` of them, in order. `totalPages` is `TotalPages`, the ceiling of the count over `limit`, and the page number is echoed. The page is non-empty iff it is within `totalPages`. |
| UserModel.SchemaErrors | backend/models/user.model.js:41-76 | There are no validation errors iff the draft is admissible. An admissible draft has a unique username of at most 20 characters, a password of 6–60 characters, a unique email matching the pattern, and a role in {user, admin}. Errors name only those paths. |
| UserModel.PreSave | backend/models/user.model.js:78-90 | An unmodified password leaves the document as it is. A modified one is replaced by its bcrypt digest with the salt. A salt failure is passed on as the error. No other field changes. |
| UserModel.Save | backend/models/user.model.js:41-90 | Saving succeeds iff the draft is admissible and the salt was obtained. An inadmissible draft fails with exactly its schema errors. The saved user keeps the draft's fields and gets the digest of a modified password. Its username and email are new to the collection, and its role is allowed. |
| UserModel.SavedPasswordVerifies | backend/models/user.model.js:78-90 | After a successful save, the stored password is a digest, differs from the plain text, and compares true with it. |
| UserModel.UserDocument.constructor | backend/controllers/user.controller.js:14 | `new User(fields)` holds the cast fields and marks the password modified iff one was given. |
| UserModel.UserDocument.PreSaveHook | backend/models/user.model.js:78-90 | The hook changes the document in place exactly as `PreSave` says, and leaves it untouched on error. |
| CompanyModel.SchemaErrors | backend/models/company.model.js:61-89 | There are no validation errors iff the draft is admissible. An admissible draft has a non-empty name (not required to be unique), a password of 6–60 characters, a unique email matching the pattern, and the role `company`. Any other role is reported as outside the enum. |
| CompanyModel.PreSave | backend/models/company.model.js:91-103 | The password is rehashed only when modified, and a salt failure is passed on. No other field changes. |
| CompanyModel.Save | backend/models/company.model.js:61-103 | Saving succeeds iff the draft is admissible and the salt was obtained. A saved company always has role `company`, a fresh email and a non-empty name, and keeps the draft's address and phone list. |
| CompanyModel.CompanyDocument.constructor | backend/controllers/company.controller.js:14 | `new Company(fields)` holds the cast fields and marks the password modified iff one was given. |
| CompanyModel.CompanyDocument.PreSaveHook | backend/models/company.model.js:91-103 | The hook changes `password` in place exactly as `PreSave` says, and leaves the document untouched on error. |
| UserController.Find | backend/controllers/user.controller.js:29 | `User.findOne({ username })` finds the first user whose username equals the trimmed, lower-cased key, and finds none iff no user has it. |
| UserController.RegisterEffect | backend/controllers/user.controller.js:6-23 | A role outside {user, admin}, or no role, gives 400 "Invalid role" and saves nothing. Otherwise the answer is 201 with the saved user appended iff the schema admits the document and the salt was obtained. A schema failure gives 400 with its errors and leaves the collection unchanged. |
| UserController.Authenticate | backend/controllers/user.controller.js:25-50 | 401 "User not found" iff the username is unknown. 401 "Wrong password" iff the user exists and a given password does not match. A missing password makes `bcrypt.compare` throw: 500 with its message. A matching password without a secret gives 500 with the missing-secret message. 200 iff the user exists, the password matches and the secret is set and non-empty; the token is then over {id, stored role, username}, keyed by the secret, issued now and expiring 2 h later. |
| UserController.Filter | backend/controllers/user.controller.js:55-56 | With a non-empty role, exactly the users holding it are selected; otherwise all users are. |
| UserController.FilterOne | backend/controllers/user.controller.js:56 | One user is kept iff no role is asked for or it holds the role. |
| UserController.FilterAppend | backend/controllers/user.controller.js:59 | `find` keeps collection order: the selection from `a + b` is the selection from `a` followed by the selection from `b`. |
| UserController.FindAll | backend/controllers/user.controller.js:52-77 | The listed users are exactly page `page` of the filtered users in collection order, after the skip of `(page - 1) * limit`. `totalPages` is the ceiling of their count over `limit`. page and limit default to 1 and 10. Every listed user is in the collection and has the requested role. |
| UserController.EveryUserListed | backend/controllers/user.controller.js:59-67 | The `i`-th user with the role is entry `i % limit` of page `i / limit + 1`, and that page is within the reported `totalPages`. |
| UserController.FindAllDefaults | backend/controllers/user.controller.js:55 | Omitting page and limit is the same as asking for page 1 with limit 10. |
| UserController.FindOne | backend/controllers/user.controller.js:79-88 | Always 200. The data is null iff no user has the normalised username; otherwise it is that user. |
| UserController.UpdateEffect | backend/controllers/user.controller.js:109-130 | An unknown username gives 404 and changes nothing. An email held by another user gives 400 (duplicate key) and changes nothing. Otherwise only that user changes: name, surname and email are taken where given, and id, username, password and role are kept. |
| UserController.DeleteEffect | backend/controllers/user.controller.js:132-148 | An unknown username gives 404 and changes nothing. Otherwise the answer is 200 with the user, which is removed from its position. |
| UserController.RegisterThenAuthenticate | backend/controllers/user.controller.js:6-50 | After a successful registration, logging in with the same username and password gives 200 and a token for the new id, the given role and the normalised username. |
| UserController.DuplicateUsernameRejected | backend/models/user.model.js:46 | Registering a username that is already taken, after normalisation, gives 400 with a "not unique" error on `username`, and the collection is unchanged. |
| UserController.LoginFailuresDistinguishable | backend/controllers/user.controller.js:29-37 | An unknown username and a wrong password both give 401, with different bodies. |
| UserController.DeleteRemovesUser | backend/controllers/user.controller.js:132-148 | When usernames are unique, a successful delete leaves no user with that name and one user fewer. |
| UserController.ReplaceKeepsValid | backend/controllers/user.controller.js:114-118 | Replacing a user by one with the same id, username, role and password and an email no other user holds keeps the collection valid. Valid means unique usernames, emails and ids, ids below the next id, allowed roles, usernames of 1–20 characters and digested passwords. |
| UserController.RemoveKeepsValid | backend/controllers/user.controller.js:136 | Removing a user keeps the collection valid. |
| UserController.UserStore.Save | backend/controllers/user.controller.js:14-16 | `save` runs the hook on the document and appends what `UserModel.Save` returns, keeping the collection valid. The id counter advances iff the save succeeds. |
| UserController.UserStore.Register | backend/controllers/user.controller.js:6-23 | `register` gives the response and collection `RegisterEffect` describes, and keeps the collection valid. The id counter advances iff the answer is 201. |
| UserController.UserStore.Create | backend/controllers/user.controller.js:90-107 | `create` behaves exactly like `register`, role check included. The id counter advances iff the answer is 201. |
| UserController.UserStore.Update | backend/controllers/user.controller.js:109-130 | `update` gives the response and collection `UpdateEffect` describes, and keeps the collection valid. The id counter is unchanged. |
| UserController.UserStore.Delete | backend/controllers/user.controller.js:132-148 | `delete` gives the response and collection `DeleteEffect` describes, and keeps the collection valid. The id counter is unchanged. |
| CompanyController.Find | backend/controllers/company.controller.js:29 | `Company.findOne({ companyName })` finds the first company with exactly that name, and finds none iff no company has it. |
| CompanyController.SaveEffect | backend/controllers/company.controller.js:13-22 | A successful save gives 201 with the company appended. A failed save gives 400, with the schema errors when validation failed, and leaves the collection unchanged. |
| CompanyController.RegisterEffect | backend/controllers/company.controller.js:6-23 | A role outside {company, admin}, or no role, gives 400 "Invalid role" and saves nothing. Otherwise the answer is 201 with the company appended iff the schema admits it and the salt was obtained; a schema failure gives 400 with its errors. |
| CompanyController.Authenticate | backend/controllers/company.controller.js:25-45 | 401 "Company not found" iff the name is unknown. 401 "Wrong password" iff the company exists and a given password does not match. A missing password makes `bcrypt.compare` throw: 500 with its message. A matching password without a secret makes `jwt.sign` throw: 500 with its message. 200 iff the company exists, the password matches and the secret is set and non-empty; the token's role claim is then always `company`, and it expires 2 h after now. |
| CompanyController.Filter | backend/controllers/company.controller.js:50-51 | With a non-empty name, exactly the companies the case-insensitive `RegExp` of the name matches are selected; otherwise all companies are. |
| CompanyController.FilterOne | backend/controllers/company.controller.js:51 | One company is kept iff no name is given or the pattern matches its name. |
| CompanyController.FilterAppend | backend/controllers/company.controller.js:54 | `find` keeps collection order: the selection from `a + b` is the selection from `a` followed by the selection from `b`. |
| CompanyController.ReadQuery | backend/controllers/company.controller.js:50 | `page`, `limit` and `companyName` are each the first parameter of that name. The query cannot be read iff a given page or limit is not the text of an integer. An absent page or limit stays absent. |
| CompanyController.Listing | backend/controllers/company.controller.js:53-66 | The listed companies are exactly page `page` of the matching companies in collection order, after the skip of `(page - 1) * limit`. `totalPages` is the ceiling of their count over `limit`. page and limit default to 1 and 10. Every listed company is in the collection and matches the search. |
| CompanyController.FindAll | backend/controllers/company.controller.js:47-72 | As written: no response at all iff the name is non-empty and `new RegExp` rejects it, because the filter is built at line 51, before the `try`. Every other query is answered with the listing. |
| CompanyController.UnclosedGroupUnanswered | backend/controllers/company.controller.js:51 | A search for `(`, which `new RegExp` rejects, is never answered. |
| CompanyController.FindAllCaught | backend/controllers/company.controller.js:47-72 | With the filter built inside the `try`: the answer is 200 or 500. It is 500 iff `new RegExp` rejects the name, and then the body is the error's message. Every 200 is the answer `FindAll` gives. |
| CompanyController.EveryCompanyListed | backend/controllers/company.controller.js:54-62 | In the listing, the `i`-th matching company is entry `i % limit` of page `i / limit + 1`, and that page is within the reported `totalPages`. |
| CompanyController.FindOne | backend/controllers/company.controller.js:74-88 | 404 "Company not found" iff no company has the name; otherwise 200 with that company. |
| CompanyController.CreateFields | backend/controllers/company.controller.js:93-97 | `create` passes the body's fields on with the password replaced by its digest and no role. |
| CompanyController.CreateSkipsPasswordLength | backend/controllers/company.controller.js:96-97 | On `create` the schema's 6–60 password rule always passes, because it sees the 60-character digest; on the plain text it would pass iff the length were 6–60. Only the `create` validation rules bound the password. |
| CompanyController.CreateEffect | backend/controllers/company.controller.js:90-106 | A missing password gives 400. On success (iff the schema admits the pre-hashed document) the company is appended with role `company` and password hash(hash(p)). Any failure leaves the collection unchanged. |
| CompanyController.CreateOnceEffect | backend/controllers/company.controller.js:90-106 | The corrected `create`: the same outcome, except that the stored password is the single digest hash(p). |
| CompanyController.UpdateEffect | backend/controllers/company.controller.js:108-130 | An unknown name gives 404 and changes nothing. An email held by another company gives 400 and changes nothing. Otherwise only that company changes: email, address and phone are taken where given, and id, name, password and role are kept. |
| CompanyController.DeleteEffect | backend/controllers/company.controller.js:132-148 | An unknown name gives 404. Otherwise the answer is 200, and the first company with that name is removed and returned. |
| CompanyController.AdminRegistrationRejected | backend/models/company.model.js:79-83 | Registering with role `admin` passes the controller's check but fails the schema enum: the answer is 400 with a role error, and nothing is saved. |
| CompanyController.RegisterThenAuthenticate | backend/controllers/company.controller.js:6-45 | After registering a new name, logging in with that name and password gives 200 and a token for the new id with role `company`. |
| CompanyController.CreatedCompanyCannotLogIn | backend/controllers/company.controller.js:96-99 | A company added through `create` answers 401 "Wrong password" to every password the model can offer, the one it was created with included. |
| CompanyController.CreatedOnceCompanyCanLogIn | backend/controllers/company.controller.js:90-106 | With the corrected `create`, the new company logs in with its password. |
| CompanyController.NamesakeInvisible | backend/controllers/company.controller.js:29 | Of two companies with the same name, login only ever sees the earlier one: removing the later one changes no login answer. |
| CompanyController.RemoveKeepsValid | backend/controllers/company.controller.js:138 | Removing a company keeps the collection valid. Valid means unique emails and ids, ids below the next id, non-empty names, role `company` and digested passwords. |
| CompanyController.CompanyStore.Save | backend/controllers/company.controller.js:14-16 | `save` runs the hook and appends what `CompanyModel.Save` returns, keeping the collection valid. The id counter advances iff the save succeeds. |
| CompanyController.CompanyStore.Respond | backend/controllers/company.controller.js:16-21 | The response to a save result is the one `SaveEffect` describes, and the store is left as it is. |
| CompanyController.CompanyStore.Register | backend/controllers/company.controller.js:6-23 | `register` gives the response and collection `RegisterEffect` describes, and keeps the collection valid. The id counter advances iff the answer is 201. |
| CompanyController.CompanyStore.Create | backend/controllers/company.controller.js:90-106 | `create` as written gives what `CreateEffect` describes, and keeps the collection valid. The id counter advances iff the answer is 201. |
| CompanyController.CompanyStore.CreateOnce | backend/controllers/company.controller.js:90-106 | The corrected `create` gives what `CreateOnceEffect` describes. The id counter advances iff the answer is 201. |
| CompanyController.CompanyStore.Update | backend/controllers/company.controller.js:108-130 | `update` gives what `UpdateEffect` describes, and keeps the collection valid. The id counter is unchanged. |
| CompanyController.CompanyStore.Delete | backend/controllers/company.controller.js:132-148 | `delete` gives what `DeleteEffect` describes, and keeps the collection valid. The id counter is unchanged. |
| RequestValidation.Texts | backend/validators/userValidator.js:19-23 | A value is checked as its string form, and an array as each of its elements. |
| RequestValidation.StepErrors | backend/validators/userValidator.js:7-12 | Every failing validator of a chain reports its own message (or the default one), and a passing one reports nothing. |
| RequestValidation.ChainErrors | backend/validators/userValidator.js:27-31 | An `optional()` chain reports nothing when the field is absent; otherwise it reports its validators' errors. |
| RequestValidation.Errors | backend/validators/userValidator.js:53-56 | `validationResult` collects the errors of every chain, and is empty iff every chain passes. |
| RequestValidation.Validate | backend/validators/userValidator.js:53-59 | `validate` calls `next` iff there are no errors, and otherwise answers 422 with all of them. |
| RequestValidation.StringSteps | backend/validators/userValidator.js:7-12 | `isString().isLength(..).notEmpty()` passes iff the field is a string whose length is within the bounds, and non-empty. |
| RequestValidation.OptionalStringSteps | backend/validators/userValidator.js:27-31 | The optional form passes iff an absent field, or a string within the bounds. |
| RequestValidation.EmailSteps | backend/validators/userValidator.js:19-23 | `isEmail().notEmpty()` passes iff every string form of the field is a non-empty valid address. An absent field counts as the empty string and fails. |
| RequestValidation.NonEmptyStringSteps | backend/validators/companyValidator.js:7-10 | `isString().notEmpty()` passes iff the value is a non-empty string. |
| RequestValidation.OptionalSingleStep | backend/validators/companyValidator.js:22-23 | An optional one-validator chain passes iff the field is absent or the validator accepts it. |
| UserValidator.CreateUserAccepts | backend/validators/userValidator.js:5-24 | `createUser` accepts a request iff the username is a string of 1–20 characters, the password a string of 6–20 characters, and the email a non-empty valid address. |
| UserValidator.UpdateUserAccepts | backend/validators/userValidator.js:25-47 | `updateUser` accepts a request iff each field that is present meets its bound: username at most 20, password 6–20, email valid, and name and surname strings. |
| UserValidator.OtherMethodsCheckNothing | backend/validators/userValidator.js:48-49 | Any other rule-set name has no rules and accepts everything. |
| UserValidator.MissingUsernameMessages | backend/validators/userValidator.js:7-12 | A request without a username is reported with "Invalid value" (from `isString`) and "Username is required", and without the length message. |
| UserValidator.ValidatedPasswordMeetsSchema | backend/validators/userValidator.js:13-18 | A password that `createUser` accepts also meets the schema's 6–60 length rule. |
| UserValidator.ValidatorStricterThanSchema | backend/validators/userValidator.js:13-18 | A 21-character password is refused by `createUser` though the schema would take it. |
| CompanyValidator.ShapeChains | backend/validators/companyValidator.js:22-23 | The address and phone chains pass iff an address, if present, is an object and a phone, if present, is an array. |
| CompanyValidator.CreateAccepts | backend/validators/companyValidator.js:5-24 | `create` accepts a request iff the name is a non-empty string, the password a string of 6–60 characters, the email a non-empty valid address, and the address and phone have the right shapes. |
| CompanyValidator.UpdateAccepts | backend/validators/companyValidator.js:25-39 | `update` accepts a request iff the URL name is a non-empty string and each optional field present meets its rule. |
| CompanyValidator.OtherMethodsCheckNothing | backend/validators/companyValidator.js:40-41 | Any other rule-set name accepts everything. |
| Router.Match | backend/routes/user.route.js:106 | A pattern matches a path only of the same length, with equal literal segments and non-empty segments for the `:name` parameters. |
| Router.Dispatch | backend/routes/user.route.js:8-9 | The route chosen is the first whose verb and pattern match. There is none iff no route matches. |
| Router.Serve | backend/routes/user.route.js:8-9 | A request gets no answer from the table iff no route serves it. |
| Router.Shadowed | backend/routes/user.route.js:38 | A route repeating the verb and pattern of an earlier one is never chosen. |
| Router.PublicRoute | backend/routes/user.route.js:8 | A route made of the handler alone reaches it with no user, whatever the header. |
| Router.GuardFirst | backend/routes/user.route.js:130 | A route that starts with `authorize` answers with the middleware's denial, or runs the rest with the verified user. |
| Router.Guarded | backend/routes/user.route.js:81 | An authorize-then-handler route reaches the handler iff the middleware passes, with the verified user and the path parameters. |
| Router.GuardedRoute | backend/routes/user.route.js:182 | Running `[authorize, handler]` gives what `Guarded` describes. |
| Router.ValidatedRoute | backend/routes/user.route.js:130 | Running `[authorize, rules, validate, handler]` gives the denial first, then 422 with every rule error, and only then the handler. |
| UserRoutes.PublicEndpoints | backend/routes/user.route.js:8-9 | `/register` and `/authenticate` reach their handlers with no authorization, whatever the header. |
| UserRoutes.DuplicatesUnreachable | backend/routes/user.route.js:38-61 | The second registrations of `/register` and `/authenticate` never serve a request. |
| UserRoutes.ListUsers | backend/routes/user.route.js:81 | `GET /` is guarded by the list [admin, user]. |
| UserRoutes.CompanyTokenCannotListUsers | backend/routes/user.route.js:81 | A verified company token is refused on `GET /` with 401 "Insufficient Privileges". |
| UserRoutes.ReadUser | backend/routes/user.route.js:106 | `GET /:username` is guarded by [admin, user, company] and passes the username on. |
| UserRoutes.CreateUserOrder | backend/routes/user.route.js:130 | `POST /`: only admin passes the guard; then the `createUser` rules give 422; only then is `create` reached. |
| UserRoutes.UpdateUserOrder | backend/routes/user.route.js:161 | `PUT /:username`: the [admin, user] guard, then the `updateUser` rules, then `update`. |
| UserRoutes.WritersAdmitUser | backend/routes/user.route.js:161 | A verified user token passes the [admin, user] guard with its claims. |
| UserRoutes.UpdateAnyUser | backend/routes/user.route.js:161 | Any verified user token with a valid body reaches `update` for any username: no ownership check. |
| UserRoutes.DeleteUserRoute | backend/routes/user.route.js:182 | `DELETE /:username` is guarded by [admin, user] and has no validation. |
| UserRoutes.DeleteAnyUser | backend/routes/user.route.js:182 | Any verified user token reaches `delete` for any username. |
| CompanyRoutes.PublicEndpoints | backend/routes/company.route.js:8-9 | `/register` and `/authenticate` reach their handlers with no authorization. |
| CompanyRoutes.DuplicateUnreachable | backend/routes/company.route.js:160 | The later `/authenticate` registration never serves a request. |
| CompanyRoutes.ListCompanies | backend/routes/company.route.js:36 | `GET /` is guarded by [admin, user, company]. |
| CompanyRoutes.ReadCompany | backend/routes/company.route.js:61 | `GET /:companyName` is guarded by [admin, user, company] and passes the name on. |
| CompanyRoutes.CreateCompanyOrder | backend/routes/company.route.js:85 | `POST /`: the [admin, company] guard, then the `create` rules with 422, then `create`. |
| CompanyRoutes.UpdateParamPasses | backend/validators/companyValidator.js:27-30 | The `param('companyName')` chain always passes on a routed request. |
| CompanyRoutes.UpdateCompanyOrder | backend/routes/company.route.js:116 | `PUT /:companyName`: the [admin, company] guard, then the `update` rules, then `update` for the named company, whoever holds the token. |
| CompanyRoutes.DeleteAnyCompany | backend/routes/company.route.js:137 | Any verified company token reaches `delete` for any company name. |
| CompanyRoutes.WritersRefuseUser | backend/routes/company.route.js:85 | The [admin, company] guard refuses a verified user token with 401. |
| CompanyRoutes.UserTokenCannotWrite | backend/routes/company.route.js:85-137 | A verified user token gets 401 "Insufficient Privileges" on POST, PUT and DELETE, before any validation. |
| CompanyRoutes.DeniedCannotCreate | backend/routes/company.route.js:85 | Any token the `['admin', 'company']` guard refuses for its role gets 401 "Insufficient Privileges" on `POST /`, before the body is validated. |
| CompanyRoutes.DeniedCannotUpdate | backend/routes/company.route.js:116 | Any such token gets 401 "Insufficient Privileges" on `PUT /:companyName`, before the body is validated. |
| CompanyRoutes.DeniedCannotDelete | backend/routes/company.route.js:137 | Any such token gets 401 "Insufficient Privileges" on `DELETE /:companyName`. |
| ErrorHandler.Or | backend/middlewares/errorHandler.js:6 | `v \|\| fallback` is `v` when truthy and the fallback otherwise. |
| ErrorHandler.Handle | backend/middlewares/errorHandler.js:3-15 | The status is `err.status` if truthy, else 500. The message is `err.message` if truthy, else "Internal Server Error". The details are `err.details` if truthy, else null (null iff not truthy). The body is always `{error: {message, details}}`. |
| ErrorHandler.HandleStable | backend/middlewares/errorHandler.js:6-14 | Throwing the answered status, message and details again gives the same answer. |
| ErrorHandler.HandleDependsOnlyOnFallbacks | backend/middlewares/errorHandler.js:6-12 | Two errors get the same answer iff their status, message and details agree after the fallbacks. |
| ErrorHandler.PlainErrorIs500 | backend/middlewares/errorHandler.js:6-12 | An error with only a message gives 500 with that message and null details. |
| CompanyList.PageNumbers | frontend/src/app/company-list/company-list.component.ts:37 | `Array.from({length: n}, (_, i) => i + 1)` is exactly 1..n in increasing order, and empty for n ≤ 0. |
| CompanyList.CompanyListComponent.constructor | frontend/src/app/company-list/company-list.component.ts:14-18 | The component starts with no companies, page 1 of 1, and no page buttons. |
| CompanyList.CompanyListComponent.NgOnInit | frontend/src/app/company-list/company-list.component.ts:26-28 | Initialisation requests the current page with the default page size. |
| CompanyList.CompanyListComponent.LoadCompanies | frontend/src/app/company-list/company-list.component.ts:30-31 | The request is for that page with page size 10. The backend reads the page, no limit and no name. |
| CompanyList.CompanyListComponent.ReceivePage | frontend/src/app/company-list/company-list.component.ts:32-37 | The companies, page count and current page mirror the response, and the page buttons are exactly 1..totalPages. |
| CompanyList.CompanyListComponent.SearchCompaniesRequest | frontend/src/app/company-list/company-list.component.ts:44-46 | A search requests the term as typed. A term without `&` or `#` reaches the backend as the name, with `+` read as a space, and with no page or limit; a term without `+` either reaches it unchanged. |
| CompanyList.CompanyListComponent.ReceiveSearch | frontend/src/app/company-list/company-list.component.ts:47-51 | After a search: the results are shown, on page 1 of 1, with buttons [1]. |
| CompanyList.CompanyListComponent.GoToPage | frontend/src/app/company-list/company-list.component.ts:58-65 | A page below 1 or above totalPages requests nothing; any other page requests exactly that page. With consistent state, a request is made iff the page has a button. |
| CompanyList.EffectivePageSizeIsTen | frontend/src/app/api.service.ts:127-128 | Whatever `pageSize` the client sends, the backend reads a page request, and answers with the page for limit 10. |
| CompanyList.SearchShowsFirstTen | frontend/src/app/company-list/company-list.component.ts:44-51 | Whatever the term, when the name the backend reads carries no page or limit: no answer iff `new RegExp` rejects the name; otherwise page 1 of at most 10 matches, so with more than 10 matches some can never be shown. |
| CompanyList.PlainSearchShowsFirstTen | frontend/src/app/company-list/company-list.component.ts:44-51 | For a term without `&` or `#`: the backend searches for the term with `+` as space, gives no answer iff the term is non-empty and `new RegExp` rejects it, and otherwise answers page 1 of at most 10 matches. |
| CompanyList.PlainKeys | frontend/src/app/api.service.ts:122-128 | The keys `companyName`, `page` and `pageSize` hold no `=`, `+`, `&` or `#`. |
| CompanyList.ReadPageParams | backend/controllers/company.controller.js:50 | The parameters `page=d1&pageSize=d2` are read as page `d1` with no limit and no name. |
| CompanyList.ReadNameQuery | backend/controllers/company.controller.js:50 | A query that is the one parameter `companyName=v` is read as the name `v`, with no page or limit. |
| CompanyList.ReadNamePageQuery | backend/controllers/company.controller.js:50 | A query that is `companyName=v&page=d` is read as the name `v` and page `d`. |
| CompanyList.SearchParams | frontend/src/app/api.service.ts:122 | A search URL whose term has no `&` or `#` has the one parameter `companyName`. |
| CompanyList.SearchPageParams | frontend/src/app/api.service.ts:122 | A search URL for the term `t&page=d` has the two parameters `companyName=t` and `page=d`. |
| CompanyList.SearchPageUrl | frontend/src/app/api.service.ts:122 | The URL of a search for `t&page=d` is `companyName=t&page=d`. |
| CompanyList.SearchPageQuery | frontend/src/app/api.service.ts:122 | The backend reads a search for `t&page=d`, with `d` an integer, as the name `t` and page `d`. |
| CompanyList.PageRequestRead | frontend/src/app/api.service.ts:128 | A page request for page `p` reaches the backend as page `p`, with no limit and no name, for every integer `p` and page size. |
| CompanyList.SearchTermRead | frontend/src/app/api.service.ts:122 | A term without `&` or `#` reaches the backend as the name, `+` read as a space, with no page or limit. |
| CompanyList.FragmentDropped | frontend/src/app/api.service.ts:122 | Whatever follows a `#` in the term never reaches the backend. |
| CompanyList.TermCanSetPage | frontend/src/app/api.service.ts:122 | The term `t&page=n` asks for page `n` of the companies matching `t`. |
| CompanyList.AmpersandTermSetsPage | frontend/src/app/api.service.ts:122 | The term `a&page=3` lists page 3 of the companies matching `a`. |

## Left out

- bcrypt and JWT are symbolic. The model does not cover real hashing, bcrypt's 72-byte input limit, timing behaviour, the token encoding, or the link between a header string and the token it encodes. The middleware receives `jwt.verify` as a function.
- The email `match` pattern in the schemas, express-validator's `isEmail`, and the case-insensitive `RegExp` built for the company search are parameters (predicates), not regular expressions. Whether `new RegExp` throws, and with what message, is a parameter (`syntaxError`) too.
- String setters and comparisons are modelled on ASCII only: `trim` removes ASCII white space, and `lowercase` folds A–Z. There is no Unicode case folding.
- `validators/validate.js` is not part of this model. The routes' `validate` is taken to behave like `validate` in `backend/validators/userValidator.js:53-59`.
- UserController.FindAll: requires page ≥ 1 and limit ≥ 1. JavaScript's coercion of query strings (`limit * 1`, a text `page` echoed back) and zero, negative or non-numeric values are not modelled.
- CompanyController.FindAll: the same paging precondition as `UserController.FindAll`. A query that `ReadQuery` cannot read (a page or limit that is not the text of an integer) is not served.
- CompanyController.FindAll: after a request is left unanswered, whether it hangs until the client times out or the rejected promise ends the process is not modelled.
- CompanyController.ReadQuery: a parameter given twice, which the query parser turns into an array, and bracket keys such as `page[a]` are not modelled; the first parameter of a name is taken.
- QueryString.Params: percent-escapes such as `%26` are not decoded, and a URL's other characters are taken as sent. The client never writes an escape, so a search term holding `%` is outside the model.
- CompanyList.CompanyListComponent.SearchCompaniesRequest: the backend query is stated only for terms without `&` or `#`. `FragmentDropped`, `TermCanSetPage` and `AmpersandTermSetsPage` cover those characters. A term holding `%` is not decoded (see `QueryString.Params`).
- CompanyList.SearchShowsFirstTen: says nothing when the term carries its own page or limit, as in `a&page=3`, which `TermCanSetPage` covers, or when such a page is not an integer.
- Pagination.PageOf: the same paging precondition.
- A failed save's `err.message` is modelled as the list of failing paths and their rules (`Rejected`), not as Mongoose's message text.
- A failure of the database itself (the 500 and 400 `catch` branches of `findAll`, `findOne`, `update` and `delete`) is not modelled. Only the duplicate-email update error is.
- Mongoose behaviour the handlers do not rely on is not modelled: the `timestamps` fields, the `_id` format, and casting of values of the wrong type.
- Express routing is reduced to what the two tables use. It does not model case-insensitive paths, trailing slashes, URL decoding, the `/api` mount prefix, the Swagger comments, or `app.js`.
- JSON numbers are integers here: a body with a non-integer number, such as a password of 1.5, cannot be expressed.
- A request body is checked with the value of each field taken once. Nested field paths in validators are not modelled.
- The Angular template, the search form, the asynchronous `Observable` plumbing, the `error` callbacks (which only log), the `+` number coercion of the response, and the other components and services are not modelled. The guard in `auth.guard.ts` is also left out.
- UserController.Authenticate: the username is always a string. A body without one queries Mongoose with an undefined filter value, which is not modelled. A password of another JSON type than string is not modelled either; it makes `bcrypt.compare` throw like a missing one.
- CompanyController.Authenticate: the same limits on the company name and the password.
- Bcrypt.DoubleHashMatchesNothing: holds for the symbolic digest only. In bcrypt, `compare(t, hash(h))` is true when `t` is the 60-character text of the digest `h`. A symbolic digest has no text a client could send, so that one candidate is not covered.
- CompanyController.CreatedCompanyCannotLogIn: for the same reason, the model does not cover a login with the text of the inner digest, which would succeed. The client never receives that text, and the password it chose always fails.
- Logging (`logger`, `console.log`) and concurrency between requests are not modelled.

## Findings

| source | as written | input that shows it | evidently intended | confidence | as-written member | corrected member |
|---|---|---|---|---|---|---|
| backend/controllers/company.controller.js:96-97 | `create` hashes the password, and the model's `pre('save')` hook (backend/models/company.model.js:91-98) hashes the digest again, so the stored value is hash(hash(p)) | `POST /api/company` by an admin or company token with any valid body, e.g. password "secret1"; then `POST /api/company/authenticate` with the same name and "secret1" answers 401 "Wrong password" | hash once (leave hashing to the hook), so the created company can log in | not executed | CompanyController.CreatedCompanyCannotLogIn | CompanyController.CreatedOnceCompanyCanLogIn |
| backend/controllers/company.controller.js:51 | `findAll` builds `new RegExp(companyName, 'i')` before the `try` that starts at line 53, so a name the `RegExp` constructor rejects throws outside it and the request is never answered | `GET /api/company?companyName=(`, which the search box sends for the term `(` | build the filter inside the `try`, so that the `catch` answers 500 with the error's message | not executed | CompanyController.UnclosedGroupUnanswered | CompanyController.FindAllCaught |

=== FILE: authorize.dfy ===
/**
 * The `authorize(roles)` middleware: the request must carry an Authorization
 * header, the token in it must verify, and the verified role must be in the
 * allow-list (an empty allow-list admits every verified token).
 */
module Authorize {
  import opened Wrappers
  import JsString
  import opened Jwt

  /** What `authorize` was called with: nothing, a single role name, or a list of them. */
  datatype RoleArg = NoArg | OneRole(role: string) | RoleList(roles: seq<string>)

  /** The allow-list after normalisation: a single string becomes a one-element list. */
  function AllowList(arg: RoleArg): seq<string>
  {
    match arg
    case NoArg => []
    case OneRole(r) => [r]
    case RoleList(rs) => rs
  }

  /** Whether the allow-list admits a verified role. */
  predicate Admits(roles: seq<string>, role: string)
  {
    |roles| == 0 || role in roles
  }

  /** How the middleware ends: a response it writes, or `next()` with `req.user` set. */
  datatype Decision = Deny(status: nat, message: string) | Pass(user: Claims)

  const NoTokenMessage: string := "Access Denied: No Token Provided!"
  const InvalidTokenMessage: string := "Access Denied: Invalid Token!"
  const InsufficientMessage: string := "Access Denied: Insufficient Privileges!"

  /** `authHeader.split(' ')[1]`, absent when the header has no space. */
  function BearerToken(header: string): Option<string>
  {
    var fields := JsString.Split(header, ' ');
    if |fields| >= 2 then Some(fields[1]) else None
  }

  /** JavaScript truthiness of the header value: absent and "" are both falsy. */
  predicate HasHeader(header: Option<string>)
  {
    header.Some? && header.value != ""
  }

  /**
   * The claims `jwt.verify` yields for the header's token; `verify` stands for
   * the library under the process secret and the current time. A header
   * without a second field hands `undefined` to `jwt.verify`, which fails.
   */
  function Verified(header: string, verify: string -> Option<Claims>): Option<Claims>
  {
    match BearerToken(header)
    case None => None
    case Some(t) => verify(t)
  }

  /** The middleware returned by `authorize(arg)`, applied to one request. */
  function Check(arg: RoleArg, header: Option<string>, verify: string -> Option<Claims>): (d: Decision)
    ensures !HasHeader(header) <==> d == Deny(401, NoTokenMessage)
    ensures d.Deny? && d.status == 403 <==> HasHeader(header) && Verified(header.value, verify).None?
    ensures d.Deny? ==> d.status in {401, 403}
    ensures d.Deny? && d.message == InsufficientMessage <==>
      HasHeader(header) && Verified(header.value, verify).Some? && !Admits(AllowList(arg), Verified(header.value, verify).value.role)
    ensures d.Pass? <==>
      HasHeader(header) && Verified(header.value, verify).Some? && Admits(AllowList(arg), Verified(header.value, verify).value.role)
    ensures d.Pass? ==> Verified(header.value, verify) == Some(d.user)
  {
    if !HasHeader(header) then Deny(401, NoTokenMessage)
    else
      match Verified(header.value, verify)
      case None => Deny(403, InvalidTokenMessage)
      case Some(user) =>
        var roles := AllowList(arg);
        if |roles| > 0 && user.role !in roles then Deny(401, InsufficientMessage)
        else Pass(user)
  }

  /** `authorize('admin')` behaves exactly as `authorize(['admin'])`. */
  lemma OneRoleIsList(r: string, header: Option<string>, verify: string -> Option<Claims>)
    ensures Check(OneRole(r), header, verify) == Check(RoleList([r]), header, verify)
  {
  }

  /** A failed verification is a 403 whatever the allow-list. */
  lemma InvalidTokenIgnoresRoles(a: RoleArg, b: RoleArg, header: Option<string>, verify: string -> Option<Claims>)
    requires HasHeader(header) && Verified(header.value, verify).None?
    ensures Check(a, header, verify) == Check(b, header, verify) == Deny(403, InvalidTokenMessage)
  {
  }

  /** With an empty allow-list every verified token passes, carrying exactly its claims. */
  lemma EmptyAllowListAdmitsAll(header: Option<string>, verify: string -> Option<Claims>)
    requires HasHeader(header) && Verified(header.value, verify).Some?
    ensures Check(NoArg, header, verify) == Check(RoleList([]), header, verify) == Pass(Verified(header.value, verify).value)
  {
  }

  /**
   * The client sends `Bearer <token>`; for a token without spaces the
   * middleware hands exactly that token to `jwt.verify`.
   */
  lemma {:induction false} BearerHeaderToken(t: string)
    requires ' ' !in t
    ensures BearerToken("Bearer " + t) == Some(t)
  {
    JsString.SplitAfterPrefix("Bearer", ' ', t);
    assert "Bearer " + t == "Bearer" + [' '] + t;
    assert |JsString.Split(t, ' ')| == 1;
    JsString.JoinSplit(t, ' ');
  }
}

=== FILE: bcrypt.dfy ===
/**
 * Password hashing, kept symbolic. A digest records what was hashed, the
 * salt and the cost instead of computing bytes, so the model is an ideal
 * one-way hash: a digest never equals a plaintext, and `Compare` accepts
 * exactly the plaintext that was hashed, whatever the salt.
 */
module Bcrypt {

  /** A password value as stored in a document: still plaintext, or a bcrypt digest of some value. */
  datatype Secret = Plain(text: string) | Digest(of: Secret, salt: nat, cost: nat)

  /** The cost factor both `bcrypt.hash(password, 10)` and `bcrypt.genSalt(10)` use. */
  const SaltRounds: nat := 10

  /** Every bcrypt digest string is 60 characters long. */
  const DigestLength: nat := 60

  /** The string length a schema length validator sees for this value. */
  function Length(s: Secret): nat
  {
    match s
    case Plain(t) => |t|
    case Digest(_, _, _) => DigestLength
  }

  /** `bcrypt.hash(s, salt)` at cost 10; the salt stands for the random bytes bcrypt draws. */
  function Hash(s: Secret, salt: nat): (h: Secret)
    ensures h.Digest? && h != s
    ensures Length(h) == DigestLength
  {
    var h := Digest(s, salt, SaltRounds);
    assert s < h;
    h
  }

  /** `bcrypt.compare(candidate, stored)`: false for anything that is not a digest of the candidate. */
  function Compare(candidate: string, stored: Secret): bool
  {
    stored.Digest? && stored.of == Plain(candidate)
  }

  /** A digest verifies against the plaintext it was made from, and against no other. */
  lemma CompareHash(p: string, q: string, salt: nat)
    ensures Compare(q, Hash(Plain(p), salt)) <==> q == p
  {
  }

  /**
   * Hashing a digest again gives a value that no plaintext verifies against.
   * A real digest of a digest would accept the inner digest's own text; a
   * symbolic digest has none.
   */
  lemma {:induction false} DoubleHashMatchesNothing(p: string, s1: nat, s2: nat)
    ensures forall q :: !Compare(q, Hash(Hash(Plain(p), s1), s2))
  {
    forall q ensures !Compare(q, Hash(Hash(Plain(p), s1), s2)) {
      assert Hash(Hash(Plain(p), s1), s2).of.Digest?;
    }
  }
}

=== FILE: company_controller.dfy ===
/**
 * The handlers behind `/api/company`. `register`, `create`, `update` and
 * `delete` change the companies collection and are methods of
 * `CompanyStore`; `authenticate`, `findAll` and `findOne` only read it and are
 * functions of its contents. Company names are not unique: every lookup by
 * name takes the first company, in natural order, with that exact name.
 */
module CompanyController {
  import opened Wrappers
  import JsString
  import Bcrypt
  import Jwt
  import opened Http
  import opened CompanyModel
  import opened Schema
  import Pagination
  import QueryString

  const InvalidRoleMessage: string := "Invalid role"
  const UnknownCompanyMessage: string := "Authentication failed. Company not found."
  const WrongPasswordMessage: string := "Authentication failed. Wrong password."
  const AuthErrorMessage: string := "An error occurred during authentication"
  const AuthenticatedMessage: string := "Authentication successful"
  /** What bcryptjs throws for `bcrypt.compare(undefined, hash)`. */
  const CompareUndefinedMessage: string := "Illegal arguments: undefined, string"
  const NotFoundMessage: string := "Company not found"
  /**
   * Stands for the message of the E11000 error MongoDB's unique index raises
   * on an update: only its start is fixed; the collection, index and key
   * that follow are not modelled.
   */
  const DuplicateKeyMessage: string := "E11000 duplicate key error"
  /** What bcryptjs throws for `bcrypt.hash(undefined, 10)`. */
  const HashUndefinedMessage: string := "Illegal arguments: undefined, number"
  /** The role every company token carries, whatever the stored role. */
  const TokenRole: string := "company"

  /** `['company', 'admin'].includes(role)`: an absent role is rejected too. */
  predicate RoleAccepted(role: Option<string>)
  {
    role.Some? && role.value in ["company", "admin"]
  }

  predicate NameTaken(companies: seq<Company>, name: string)
  {
    exists i :: 0 <= i < |companies| && companies[i].companyName == name
  }

  /** `Company.findOne({ companyName })`: the first company with exactly that name (no setters on the path). */
  function Find(companies: seq<Company>, name: string): (r: Option<nat>)
    ensures r.None? <==> !NameTaken(companies, name)
    ensures r.Some? ==> r.value < |companies| && companies[r.value].companyName == name
    ensures r.Some? ==> forall j :: 0 <= j < r.value ==> companies[j].companyName != name
  {
    if companies == [] then None
    else if companies[0].companyName == name then Some(0)
    else
      var rest := Find(companies[1..], name);
      assert forall j :: 1 <= j < |companies| ==> companies[j] == companies[1..][j - 1];
      if rest.None? then None else Some(rest.value + 1)
  }

  /** The response to a failed or successful `save()`, and the collection afterwards. */
  function SaveEffect(companies: seq<Company>, r: Result<Company, SaveError>): (e: Effect<Company>)
    ensures r.Ok? <==> e.response.status == 201
    ensures r.Ok? ==> e == Effect(Response(201, Data(Some(r.value))), companies + [r.value])
    ensures r.Err? ==> e.response.status == 400 && e.docs == companies
    ensures r.Err? && r.error.Invalid? ==> e.response.body == Rejected(r.error.errors)
  {
    match r
    case Ok(c) => Effect(Response(201, Data(Some(c))), companies + [c])
    case Err(Invalid(errs)) => Effect(Response(400, Rejected(errs)), companies)
    case Err(HookFailed(msg)) => Effect(Response(400, Message(msg)), companies)
  }

  /** `register`: reject a role outside `{company, admin}`, otherwise build the document and save it. */
  function RegisterEffect(companies: seq<Company>, nextId: nat, f: CompanyFields, salt: Result<nat, string>, emailPattern: string -> bool): (e: Effect<Company>)
    ensures !RoleAccepted(f.role) ==> e == Effect(Response(400, Message(InvalidRoleMessage)), companies)
    ensures e.response.status in {201, 400}
    ensures e.response.status == 201 <==>
      RoleAccepted(f.role) && Admissible(companies, Cast(f), emailPattern) && salt.Ok?
    ensures e.response.status == 201 ==>
      && e.response.body == Data(Some(Save(companies, nextId, Cast(f), true, salt, emailPattern).value))
      && e.docs == companies + [e.response.body.data.value]
    ensures e.response.status == 400 ==> e.docs == companies
    ensures RoleAccepted(f.role) && !Admissible(companies, Cast(f), emailPattern) ==>
      e.response == Response(400, Rejected(SchemaErrors(companies, Cast(f), emailPattern)))
  {
    if !RoleAccepted(f.role) then Effect(Response(400, Message(InvalidRoleMessage)), companies)
    else SaveEffect(companies, Save(companies, nextId, Cast(f), f.password.Some?, salt, emailPattern))
  }

  /**
   * `authenticate`: unknown name and wrong password are both 401, with
   * different messages. A body without a password makes `bcrypt.compare`
   * throw, and the catch answers 500. There is no check for a missing
   * signing secret: `jwt.sign` throws, and the catch answers 500 with the
   * library's message. The token's role is always "company".
   */
  function Authenticate(companies: seq<Company>, name: string, password: Option<string>, secret: Option<string>, now: int): (r: Response<Company>)
    ensures r.status in {200, 401, 500}
    ensures r == Response(401, Message(UnknownCompanyMessage)) <==> Find(companies, name).None?
    ensures r == Response(401, Message(WrongPasswordMessage)) <==>
      Find(companies, name).Some? && password.Some? && !Bcrypt.Compare(password.value, companies[Find(companies, name).value].password)
    ensures Find(companies, name).Some? && password.None? ==>
      r == Response(500, Failure(AuthErrorMessage, CompareUndefinedMessage))
    ensures
      && Find(companies, name).Some? && password.Some?
      && Bcrypt.Compare(password.value, companies[Find(companies, name).value].password)
      && (secret.None? || secret.value == "")
      ==>
      r == Response(500, Failure(AuthErrorMessage, Jwt.MissingKeyMessage))
    ensures r.status == 200 <==>
      && Find(companies, name).Some? && password.Some?
      && Bcrypt.Compare(password.value, companies[Find(companies, name).value].password)
      && secret.Some? && secret.value != ""
    ensures r.status == 200 ==>
      && r.body.Authenticated? && r.body.message == AuthenticatedMessage
      && var c := companies[Find(companies, name).value];
         && r.body.token.claims == Jwt.Claims(c.id, TokenRole, Jwt.CompanyName(c.companyName))
         && r.body.token.key == secret.value
         && r.body.token.iat == now
         && r.body.token.exp == now + Jwt.ExpiresIn
  {
    match Find(companies, name)
    case None => Response(401, Message(UnknownCompanyMessage))
    case Some(i) =>
      var c := companies[i];
      if password.None? then Response(500, Failure(AuthErrorMessage, CompareUndefinedMessage))
      else if !Bcrypt.Compare(password.value, c.password) then Response(401, Message(WrongPasswordMessage))
      else
        match Jwt.Sign(Jwt.Claims(c.id, TokenRole, Jwt.CompanyName(c.companyName)), secret, now)
        case Ok(token) => Response(200, Authenticated(AuthenticatedMessage, token))
        case Err(msg) => Response(500, Failure(AuthErrorMessage, msg))
  }

  /** The query string of `GET /api/company`. */
  datatype Query = Query(page: Option<int>, limit: Option<int>, companyName: Option<string>)

  /**
   * `companyName ? { companyName: new RegExp(companyName, 'i') } : {}`;
   * `matches(pattern, name)` stands for the case-insensitive regular expression test.
   */
  function Filter(companies: seq<Company>, pattern: Option<string>, matches: (string, string) -> bool): (r: seq<Company>)
    ensures |r| <= |companies|
    ensures forall c :: c in r <==> c in companies && (pattern.None? || pattern.value == "" || matches(pattern.value, c.companyName))
  {
    if companies == [] then []
    else
      var rest := Filter(companies[1..], pattern, matches);
      assert forall c :: c in companies <==> c == companies[0] || c in companies[1..];
      if pattern.None? || pattern.value == "" || matches(pattern.value, companies[0].companyName)
      then [companies[0]] + rest
      else rest
  }

  /** One company is kept exactly when its name matches, or when no pattern is given. */
  lemma FilterOne(c: Company, pattern: Option<string>, matches: (string, string) -> bool)
    ensures Filter([c], pattern, matches) ==
      if pattern.None? || pattern.value == "" || matches(pattern.value, c.companyName) then [c] else []
  {
    assert [c][1..] == [];
  }

  /** `find` keeps collection order: filtering a concatenation filters each part in turn. */
  lemma {:induction false} FilterAppend(a: seq<Company>, b: seq<Company>, pattern: Option<string>, matches: (string, string) -> bool)
    ensures Filter(a + b, pattern, matches) == Filter(a, pattern, matches) + Filter(b, pattern, matches)
  {
    if a == [] {
      assert a + b == b;
    } else {
      assert (a + b)[0] == a[0];
      assert (a + b)[1..] == a[1..] + b;
      FilterAppend(a[1..], b, pattern, matches);
    }
  }

  /** Both query numbers, when given, are positive. */
  predicate PagingOk(q: Query)
  {
    (q.page.None? || q.page.value >= 1) && (q.limit.None? || q.limit.value >= 1)
  }

  /**
   * `req.query` as `findAll` reads it from the parsed parameters: `page`,
   * `limit` and `companyName` each come from the first parameter with that
   * name. `None` when `page` or `limit` is not the text of an integer.
   */
  function ReadQuery(ps: seq<(string, string)>): (r: Option<Query>)
    ensures r.None? <==>
      || (QueryString.Lookup(ps, "page").Some? && !QueryString.IsInteger(QueryString.Lookup(ps, "page").value))
      || (QueryString.Lookup(ps, "limit").Some? && !QueryString.IsInteger(QueryString.Lookup(ps, "limit").value))
    ensures r.Some? ==> r.value.companyName == QueryString.Lookup(ps, "companyName")
    ensures r.Some? ==> (r.value.page.None? <==> QueryString.Lookup(ps, "page").None?)
    ensures r.Some? ==> (r.value.limit.None? <==> QueryString.Lookup(ps, "limit").None?)
  {
    var page := QueryString.Lookup(ps, "page");
    var limit := QueryString.Lookup(ps, "limit");
    if (page.Some? && !QueryString.IsInteger(page.value)) || (limit.Some? && !QueryString.IsInteger(limit.value)) then None
    else
      Some(Query(
        if page.Some? then Some(QueryString.IntegerValue(page.value)) else None,
        if limit.Some? then Some(QueryString.IntegerValue(limit.value)) else None,
        QueryString.Lookup(ps, "companyName")))
  }

  /** `req.query` of a request whose URL has the query string `query`. */
  function QueryOf(query: string): Option<Query>
  {
    ReadQuery(QueryString.Params(query))
  }

  /** The 200 answer of `findAll`: one page of the companies whose name matches, the page count, and the page asked for. */
  function Listing(companies: seq<Company>, q: Query, matches: (string, string) -> bool): (r: Response<Company>)
    requires PagingOk(q)
    ensures r == Pagination.PageResponse(Filter(companies, q.companyName, matches),
      if q.page.Some? then q.page.value else Pagination.DefaultPage,
      if q.limit.Some? then q.limit.value else Pagination.DefaultLimit)
    ensures
      var limit := if q.limit.Some? then q.limit.value else Pagination.DefaultLimit;
      && r.body.docs == Pagination.PageOf(Filter(companies, q.companyName, matches), if q.page.Some? then q.page.value else Pagination.DefaultPage, limit)
      && r.body.totalPages == Pagination.TotalPages(|Filter(companies, q.companyName, matches)|, limit)
    ensures forall c :: c in r.body.docs ==> c in companies
    ensures q.companyName.Some? && q.companyName.value != "" ==>
      forall c :: c in r.body.docs ==> matches(q.companyName.value, c.companyName)
  {
    var page := if q.page.Some? then q.page.value else Pagination.DefaultPage;
    var limit := if q.limit.Some? then q.limit.value else Pagination.DefaultLimit;
    Pagination.PageResponse(Filter(companies, q.companyName, matches), page, limit)
  }

  /**
   * Whether building the filter throws: `new RegExp(companyName, 'i')` runs
   * only for a non-empty name, and `syntaxError(t)` is the message of the
   * `SyntaxError` it throws for a pattern `t` it rejects (`None` when it accepts `t`).
   */
  predicate PatternThrows(q: Query, syntaxError: string -> Option<string>)
  {
    q.companyName.Some? && q.companyName.value != "" && syntaxError(q.companyName.value).Some?
  }

  /**
   * `findAll` as written. The filter is built before the `try`, so when
   * `new RegExp` throws, the handler's promise rejects, the `catch` never
   * runs and no response is sent (`None`). Otherwise the answer is the listing.
   */
  function FindAll(companies: seq<Company>, q: Query, matches: (string, string) -> bool, syntaxError: string -> Option<string>): (r: Option<Response<Company>>)
    requires PagingOk(q)
    ensures r.None? <==> PatternThrows(q, syntaxError)
    ensures r.Some? ==> r.value == Listing(companies, q, matches)
  {
    if PatternThrows(q, syntaxError) then None else Some(Listing(companies, q, matches))
  }

  /** A search for `(`, an unterminated group, is never answered. */
  lemma UnclosedGroupUnanswered(companies: seq<Company>, matches: (string, string) -> bool, syntaxError: string -> Option<string>, page: Option<int>)
    requires page.None? || page.value >= 1
    requires syntaxError("(").Some?
    ensures FindAll(companies, Query(page, None, Some("(")), matches, syntaxError) == None
  {
  }

  /**
   * `findAll` with the filter built inside the `try`: a pattern `new RegExp`
   * rejects is answered by the `catch`, 500 with the error's message, and
   * every other query gets the answer `findAll` gives.
   */
  function FindAllCaught(companies: seq<Company>, q: Query, matches: (string, string) -> bool, syntaxError: string -> Option<string>): (r: Response<Company>)
    requires PagingOk(q)
    ensures r.status in {200, 500}
    ensures r.status == 500 <==> PatternThrows(q, syntaxError)
    ensures r.status == 500 ==> r.body == Message(syntaxError(q.companyName.value).value)
    ensures r.status == 200 ==> FindAll(companies, q, matches, syntaxError) == Some(r)
  {
    if PatternThrows(q, syntaxError) then Response(500, Message(syntaxError(q.companyName.value).value))
    else Listing(companies, q, matches)
  }

  /**
   * No matching company is out of reach: the `i`-th of them, in collection
   * order, is entry `i % limit` of page `i / limit + 1`, and that page is
   * within the page count the response reports.
   */
  lemma EveryCompanyListed(companies: seq<Company>, pattern: Option<string>, matches: (string, string) -> bool, limit: int, i: nat)
    requires limit >= 1 && i < |Filter(companies, pattern, matches)|
    ensures var r := Listing(companies, Query(Some(i / limit + 1), Some(limit), pattern), matches);
      && i / limit + 1 <= r.body.totalPages
      && i % limit < |r.body.docs|
      && r.body.docs[i % limit] == Filter(companies, pattern, matches)[i]
  {
    Pagination.EveryDocumentOnAPage(Filter(companies, pattern, matches), limit, i);
  }

  /** `findOne`: the first company with that name, or 404. */
  function FindOne(companies: seq<Company>, name: string): (r: Response<Company>)
    ensures r.status in {200, 404}
    ensures r == Response(404, Message(NotFoundMessage)) <==> !NameTaken(companies, name)
    ensures r.status == 200 ==> r.body.Data? && r.body.data.Some? && r.body.data.value in companies && r.body.data.value.companyName == name
  {
    match Find(companies, name)
    case None => Response(404, Message(NotFoundMessage))
    case Some(i) => Response(200, Data(Some(companies[i])))
  }

  /**
   * The fields `create` builds its document from: the request's password
   * replaced by the digest `bcrypt.hash(password, 10)` made with `salt`, and
   * no role, so the schema default applies.
   */
  function CreateFields(f: CompanyFields, salt: nat): (g: CompanyFields)
    requires f.password.Some?
    ensures g.password == Some(Bcrypt.Hash(f.password.value, salt)) && g.role.None?
    ensures g.(password := f.password, role := f.role) == f
  {
    f.(password := Some(Bcrypt.Hash(f.password.value, salt)), role := None)
  }

  /**
   * On `create` the schema's 6..60 length rule on `password` is idle: it
   * sees the 60-character digest, whatever the plain text was, though on
   * the plain text it would have applied. Only the `create` validation
   * rules bound the length of a created company's password.
   */
  lemma CreateSkipsPasswordLength(f: CompanyFields, hashSalt: nat)
    requires f.password.Some?
    ensures CompanyModel.PasswordCheck(Cast(CreateFields(f, hashSalt)).password) == None
    ensures CompanyModel.PasswordCheck(f.password) == None <==>
      PasswordMinLength <= Bcrypt.Length(f.password.value) <= PasswordMaxLength
  {
  }

  /**
   * `create` as written: the controller hashes the password (with `hashSalt`)
   * and the `pre('save')` hook hashes that digest again (with `salt`). A
   * missing password makes `bcrypt.hash` throw before anything is saved.
   */
  function CreateEffect(companies: seq<Company>, nextId: nat, f: CompanyFields, hashSalt: nat, salt: Result<nat, string>, emailPattern: string -> bool): (e: Effect<Company>)
    ensures f.password.None? ==> e == Effect(Response(400, Message(HashUndefinedMessage)), companies)
    ensures e.response.status in {201, 400}
    ensures e.response.status == 400 ==> e.docs == companies
    ensures e.response.status == 201 <==>
      f.password.Some? && Admissible(companies, Cast(CreateFields(f, hashSalt)), emailPattern) && salt.Ok?
    ensures e.response.status == 201 ==>
      && e.response.body.Data? && e.response.body.data.Some?
      && e.docs == companies + [e.response.body.data.value]
      && e.response.body.data.value.role == DefaultRole
      && e.response.body.data.value.password == Bcrypt.Hash(Bcrypt.Hash(f.password.value, hashSalt), salt.value)
  {
    if f.password.None? then Effect(Response(400, Message(HashUndefinedMessage)), companies)
    else
      var d := Cast(CreateFields(f, hashSalt));
      var r := Save(companies, nextId, d, true, salt, emailPattern);
      SaveEffect(companies, r)
  }

  /**
   * `create` as intended: the plaintext goes to the document and the hook
   * hashes it once, as in `register`; the role is still left to the default.
   */
  function CreateOnceEffect(companies: seq<Company>, nextId: nat, f: CompanyFields, salt: Result<nat, string>, emailPattern: string -> bool): (e: Effect<Company>)
    ensures e.response.status in {201, 400}
    ensures e.response.status == 400 ==> e.docs == companies
    ensures e.response.status == 201 <==> Admissible(companies, Cast(f.(role := None)), emailPattern) && salt.Ok?
    ensures e.response.status == 201 ==>
      && e.response.body.Data? && e.response.body.data.Some?
      && e.docs == companies + [e.response.body.data.value]
      && e.response.body.data.value.role == DefaultRole
      && e.response.body.data.value.password == Bcrypt.Hash(f.password.value, salt.value)
  {
    var d := Cast(f.(role := None));
    var r := Save(companies, nextId, d, f.password.Some?, salt, emailPattern);
    SaveEffect(companies, r)
  }

  /**
   * `update`: `findOneAndUpdate` on email, address and phone of the first
   * company with that name; 404 when there is none. No schema validators run,
   * but the unique index on email refuses an address another company holds.
   */
  function UpdateEffect(companies: seq<Company>, name: string, email: Option<string>, address: Option<Address>, phone: Option<seq<Phone>>): (e: Effect<Company>)
    ensures e.response.status in {200, 400, 404}
    ensures Find(companies, name).None? <==> e == Effect(Response(404, Message(NotFoundMessage)), companies)
    ensures e.response.status != 200 ==> e.docs == companies
    ensures e.response.status == 400 <==>
      && Find(companies, name).Some?
      && exists j :: 0 <= j < |companies| && j != Find(companies, name).value &&
           companies[j].email == Overwrite(Normalized(email), companies[Find(companies, name).value].email)
    ensures e.response.status == 400 ==> e.response.body == Message(DuplicateKeyMessage)
    ensures e.response.status == 200 ==>
      var i := Find(companies, name).value;
      && |e.docs| == |companies|
      && e.response.body == Data(Some(e.docs[i]))
      && (forall j :: 0 <= j < |companies| && j != i ==> e.docs[j] == companies[j])
      && e.docs[i].id == companies[i].id && e.docs[i].companyName == companies[i].companyName
      && e.docs[i].password == companies[i].password && e.docs[i].role == companies[i].role
      && e.docs[i].email == Overwrite(Normalized(email), companies[i].email)
      && e.docs[i].address == OverwriteOptional(address, companies[i].address)
      && e.docs[i].phone == Overwrite(phone, companies[i].phone)
  {
    match Find(companies, name)
    case None => Effect(Response(404, Message(NotFoundMessage)), companies)
    case Some(i) =>
      var newEmail := Overwrite(Normalized(email), companies[i].email);
      if exists j :: 0 <= j < |companies| && j != i && companies[j].email == newEmail then
        Effect(Response(400, Message(DuplicateKeyMessage)), companies)
      else
        var c := companies[i].(email := newEmail, address := OverwriteOptional(address, companies[i].address), phone := Overwrite(phone, companies[i].phone));
        Effect(Response(200, Data(Some(c))), companies[i := c])
  }

  /** `delete`: `findOneAndDelete` removes only the first company with that name; 404 when there is none. */
  function DeleteEffect(companies: seq<Company>, name: string): (e: Effect<Company>)
    ensures Find(companies, name).None? <==> e == Effect(Response(404, Message(NotFoundMessage)), companies)
    ensures e.response.status in {200, 404}
    ensures e.response.status == 200 ==>
      var i := Find(companies, name).value;
      e.response.body == Data(Some(companies[i])) && e.docs == companies[..i] + companies[i + 1..]
  {
    match Find(companies, name)
    case None => Effect(Response(404, Message(NotFoundMessage)), companies)
    case Some(i) => Effect(Response(200, Data(Some(companies[i]))), companies[..i] + companies[i + 1..])
  }

  /** A company registered with role "admin" passes the controller's check but never the schema's enum. */
  lemma AdminRegistrationRejected(companies: seq<Company>, nextId: nat, f: CompanyFields, salt: Result<nat, string>, emailPattern: string -> bool)
    requires f.role == Some("admin")
    ensures var e := RegisterEffect(companies, nextId, f, salt, emailPattern);
      && e.response.status == 400 && e.docs == companies
      && e.response.body.Rejected? && Schema.PathError("role", Schema.NotInEnum) in e.response.body.errors
  {
    assert Cast(f).role !in Roles;
  }

  /**
   * A company that registered can log in under its name with the same
   * password, as long as no earlier company has that name; its token says
   * role "company".
   */
  lemma RegisterThenAuthenticate(companies: seq<Company>, nextId: nat, f: CompanyFields, salt: nat, emailPattern: string -> bool, secret: string, now: int)
    requires RegisterEffect(companies, nextId, f, Ok(salt), emailPattern).response.status == 201
    requires f.companyName.Some? && !NameTaken(companies, f.companyName.value)
    requires f.password.Some? && f.password.value.Plain?
    requires secret != ""
    ensures var after := RegisterEffect(companies, nextId, f, Ok(salt), emailPattern).docs;
      var r := Authenticate(after, f.companyName.value, Some(f.password.value.text), Some(secret), now);
      && r.status == 200
      && r.body.token.claims == Jwt.Claims(nextId, TokenRole, Jwt.CompanyName(f.companyName.value))
  {
    var after := RegisterEffect(companies, nextId, f, Ok(salt), emailPattern).docs;
    var c := Save(companies, nextId, Cast(f), true, Ok(salt), emailPattern).value;
    assert after == companies + [c];
    assert after[|companies|] == c;
    assert Find(after, f.companyName.value) == Some(|companies|);
    Bcrypt.CompareHash(f.password.value.text, f.password.value.text, salt);
  }

  /**
   * A company made by `create` as written cannot log in with its password:
   * the stored value is a digest of a digest, which no plaintext matches.
   */
  lemma CreatedCompanyCannotLogIn(companies: seq<Company>, nextId: nat, f: CompanyFields, hashSalt: nat, salt: Result<nat, string>, emailPattern: string -> bool, password: string, secret: Option<string>, now: int)
    requires CreateEffect(companies, nextId, f, hashSalt, salt, emailPattern).response.status == 201
    requires f.companyName.Some? && !NameTaken(companies, f.companyName.value)
    requires f.password.Some? && f.password.value.Plain?
    ensures var after := CreateEffect(companies, nextId, f, hashSalt, salt, emailPattern).docs;
      Authenticate(after, f.companyName.value, Some(password), secret, now) == Response(401, Message(WrongPasswordMessage))
  {
    var e := CreateEffect(companies, nextId, f, hashSalt, salt, emailPattern);
    var c := e.response.body.data.value;
    assert e.docs[|companies|] == c && c.companyName == f.companyName.value;
    assert forall m :: 0 <= m < |companies| ==> e.docs[m] == companies[m];
    FindIs(e.docs, f.companyName.value, |companies|);
    Bcrypt.DoubleHashMatchesNothing(f.password.value.text, hashSalt, salt.value);
  }

  /** With the password hashed once, a created company logs in with the password it was created with. */
  lemma CreatedOnceCompanyCanLogIn(companies: seq<Company>, nextId: nat, f: CompanyFields, salt: nat, emailPattern: string -> bool, secret: string, now: int)
    requires CreateOnceEffect(companies, nextId, f, Ok(salt), emailPattern).response.status == 201
    requires f.companyName.Some? && !NameTaken(companies, f.companyName.value)
    requires f.password.Some? && f.password.value.Plain?
    requires secret != ""
    ensures var after := CreateOnceEffect(companies, nextId, f, Ok(salt), emailPattern).docs;
      var r := Authenticate(after, f.companyName.value, Some(f.password.value.text), Some(secret), now);
      && r.status == 200
      && r.body.token.claims == Jwt.Claims(nextId, TokenRole, Jwt.CompanyName(f.companyName.value))
  {
    var e := CreateOnceEffect(companies, nextId, f, Ok(salt), emailPattern);
    var c := e.response.body.data.value;
    assert e.docs[|companies|] == c && c.companyName == f.companyName.value;
    assert forall m :: 0 <= m < |companies| ==> e.docs[m] == companies[m];
    FindIs(e.docs, f.companyName.value, |companies|);
    Bcrypt.CompareHash(f.password.value.text, f.password.value.text, salt);
  }

  /**
   * Names need not be unique, and only the first company with a name is ever
   * looked up: a later namesake is never found, and removing it changes no
   * login outcome under that name.
   */
  lemma NamesakeInvisible(companies: seq<Company>, i: nat, j: nat, password: Option<string>, secret: Option<string>, now: int)
    requires i < j < |companies| && companies[i].companyName == companies[j].companyName
    ensures Find(companies, companies[j].companyName).Some? && Find(companies, companies[j].companyName).value <= i
    ensures var name := companies[j].companyName;
      Authenticate(companies, name, password, secret, now) ==
      Authenticate(companies[..j] + companies[j + 1..], name, password, secret, now)
  {
    var name := companies[j].companyName;
    var rest := companies[..j] + companies[j + 1..];
    var k := Find(companies, name).value;
    assert k <= i;
    FindBeforeRemoved(companies, name, j);
    assert rest[k] == companies[k];
  }

  /** Removing a company after the first one with a name leaves that lookup unchanged. */
  lemma FindBeforeRemoved(companies: seq<Company>, name: string, j: nat)
    requires j < |companies| && Find(companies, name).Some? && Find(companies, name).value < j
    ensures Find(companies[..j] + companies[j + 1..], name) == Find(companies, name)
  {
    var rest := companies[..j] + companies[j + 1..];
    var k := Find(companies, name).value;
    assert forall m :: 0 <= m <= k ==> rest[m] == companies[m];
    FindIs(rest, name, k);
  }

  /** The first company with the name is the one `Find` returns. */
  lemma FindIs(companies: seq<Company>, name: string, k: nat)
    requires k < |companies| && companies[k].companyName == name
    requires forall m :: 0 <= m < k ==> companies[m].companyName != name
    ensures Find(companies, name) == Some(k)
  {
    var r := Find(companies, name);
    assert NameTaken(companies, name) by {
      assert companies[k].companyName == name;
    }
    assert r.value <= k;
  }

  /**
   * What every saved company satisfies: unique emails and ids, an id below
   * the next one to be given, a non-empty name, role "company", and a
   * password kept only as a bcrypt digest.
   */
  ghost predicate ValidCompanies(companies: seq<Company>, nextId: nat)
  {
    && (forall i, j :: 0 <= i < j < |companies| ==>
          companies[i].email != companies[j].email && companies[i].id != companies[j].id)
    && (forall i :: 0 <= i < |companies| ==>
          companies[i].id < nextId && companies[i].role == DefaultRole && companies[i].companyName != "" &&
          companies[i].password.Digest?)
  }

  /** The successful branch of `update`, in the terms of `UpdateEffect`, keeps the invariant. */
  lemma UpdateStep(companies: seq<Company>, nextId: nat, name: string, email: Option<string>, address: Option<Address>, phone: Option<seq<Phone>>, i: nat, c: Company)
    requires ValidCompanies(companies, nextId)
    requires Find(companies, name) == Some(i)
    requires c == companies[i].(email := Overwrite(Normalized(email), companies[i].email),
                                address := OverwriteOptional(address, companies[i].address), phone := Overwrite(phone, companies[i].phone))
    requires !exists j :: 0 <= j < |companies| && j != i && companies[j].email == c.email
    ensures ValidCompanies(companies[i := c], nextId)
    ensures UpdateEffect(companies, name, email, address, phone) == Effect(Response(200, Data(Some(c))), companies[i := c])
  {
    var r := companies[i := c];
    forall a, b | 0 <= a < b < |r|
      ensures r[a].email != r[b].email && r[a].id != r[b].id
    {
      assert r[a].id == companies[a].id && r[b].id == companies[b].id;
    }
    forall a | 0 <= a < |r|
      ensures r[a].id < nextId && r[a].role == DefaultRole && r[a].companyName != "" && r[a].password.Digest?
    {
      assert r[a].id == companies[a].id && r[a].role == companies[a].role;
      assert r[a].companyName == companies[a].companyName && r[a].password == companies[a].password;
    }
  }

  /** The successful branch of `delete`, in the terms of `DeleteEffect`, keeps the invariant. */
  lemma DeleteStep(companies: seq<Company>, nextId: nat, name: string, i: nat)
    requires ValidCompanies(companies, nextId)
    requires Find(companies, name) == Some(i)
    ensures ValidCompanies(companies[..i] + companies[i + 1..], nextId)
    ensures DeleteEffect(companies, name) == Effect(Response(200, Data(Some(companies[i]))), companies[..i] + companies[i + 1..])
  {
    RemoveKeepsValid(companies, nextId, i);
  }

  /** Removing one company keeps the invariant. */
  lemma RemoveKeepsValid(companies: seq<Company>, nextId: nat, i: nat)
    requires ValidCompanies(companies, nextId) && i < |companies|
    ensures ValidCompanies(companies[..i] + companies[i + 1..], nextId)
  {
    var r := companies[..i] + companies[i + 1..];
    forall a, b | 0 <= a < b < |r|
      ensures r[a].email != r[b].email && r[a].id != r[b].id
    {
      var a' := if a < i then a else a + 1;
      var b' := if b < i then b else b + 1;
      assert r[a] == companies[a'] && r[b] == companies[b'];
    }
    forall a | 0 <= a < |r|
      ensures r[a].id < nextId && r[a].role == DefaultRole && r[a].companyName != "" && r[a].password.Digest?
    {
      assert r[a] == companies[if a < i then a else a + 1];
    }
  }

  /** The companies collection. */
  class CompanyStore {
    var companies: seq<Company>
    /** The `_id` the next saved document receives. */
    var nextId: nat

    constructor ()
      ensures ValidCompanies(companies, nextId) && companies == [] && nextId == 0
    {
      companies, nextId := [], 0;
    }

    /** `doc.save()`: validate, run the hook on the document, insert. */
    method Save(doc: CompanyDocument, salt: Result<nat, string>, emailPattern: string -> bool) returns (r: Result<Company, SaveError>)
      requires ValidCompanies(companies, nextId)
      requires doc.password.Some? ==> doc.passwordModified
      modifies this, doc
      ensures ValidCompanies(companies, nextId)
      ensures r == CompanyModel.Save(old(companies), old(nextId), old(doc.Snapshot()), old(doc.passwordModified), salt, emailPattern)
      ensures companies == if r.Ok? then old(companies) + [r.value] else old(companies)
      ensures nextId == if r.Ok? then old(nextId) + 1 else old(nextId)
    {
      var errs := SchemaErrors(companies, doc.Snapshot(), emailPattern);
      if errs != [] {
        return Err(Invalid(errs));
      }
      var err := doc.PreSaveHook(salt);
      if err.Some? {
        return Err(HookFailed(err.value));
      }
      var c := Stored(doc.Snapshot(), nextId);
      companies := companies + [c];
      nextId := nextId + 1;
      r := Ok(c);
    }

    /** Answer a `save()` outcome. */
    method Respond(r: Result<Company, SaveError>) returns (resp: Response<Company>)
      ensures Effect(resp, if r.Ok? then companies + [r.value] else companies) == SaveEffect(companies, r)
      ensures companies == old(companies) && nextId == old(nextId)
    {
      match r
      case Ok(c) => resp := Response(201, Data(Some(c)));
      case Err(Invalid(errs)) => resp := Response(400, Rejected(errs));
      case Err(HookFailed(msg)) => resp := Response(400, Message(msg));
    }

    /** `register`. */
    method Register(f: CompanyFields, salt: Result<nat, string>, emailPattern: string -> bool) returns (resp: Response<Company>)
      requires ValidCompanies(companies, nextId)
      modifies this
      ensures ValidCompanies(companies, nextId)
      ensures Effect(resp, companies) == RegisterEffect(old(companies), old(nextId), f, salt, emailPattern)
      ensures nextId == if resp.status == 201 then old(nextId) + 1 else old(nextId)
    {
      if !RoleAccepted(f.role) {
        return Response(400, Message(InvalidRoleMessage));
      }
      var doc := new CompanyDocument(f);
      var r := Save(doc, salt, emailPattern);
      resp := Respond(r);
    }

    /** `create` (admin only), as written: hash in the controller, then again in the hook. */
    method Create(f: CompanyFields, hashSalt: nat, salt: Result<nat, string>, emailPattern: string -> bool) returns (resp: Response<Company>)
      requires ValidCompanies(companies, nextId)
      modifies this
      ensures ValidCompanies(companies, nextId)
      ensures Effect(resp, companies) == CreateEffect(old(companies), old(nextId), f, hashSalt, salt, emailPattern)
      ensures nextId == if resp.status == 201 then old(nextId) + 1 else old(nextId)
    {
      if f.password.None? {
        return Response(400, Message(HashUndefinedMessage));
      }
      var doc := new CompanyDocument(CreateFields(f, hashSalt));
      var r := Save(doc, salt, emailPattern);
      resp := Respond(r);
    }

    /** `create` with the password hashed once, by the hook. */
    method CreateOnce(f: CompanyFields, salt: Result<nat, string>, emailPattern: string -> bool) returns (resp: Response<Company>)
      requires ValidCompanies(companies, nextId)
      modifies this
      ensures ValidCompanies(companies, nextId)
      ensures Effect(resp, companies) == CreateOnceEffect(old(companies), old(nextId), f, salt, emailPattern)
      ensures nextId == if resp.status == 201 then old(nextId) + 1 else old(nextId)
    {
      var doc := new CompanyDocument(f.(role := None));
      var r := Save(doc, salt, emailPattern);
      resp := Respond(r);
    }

    /** `update`. */
    method Update(name: string, email: Option<string>, address: Option<Address>, phone: Option<seq<Phone>>) returns (resp: Response<Company>)
      requires ValidCompanies(companies, nextId)
      modifies this
      ensures ValidCompanies(companies, nextId)
      ensures Effect(resp, companies) == UpdateEffect(old(companies), name, email, address, phone)
      ensures nextId == old(nextId)
    {
      var found := Find(companies, name);
      if found.None? {
        return Response(404, Message(NotFoundMessage));
      }
      var i := found.value;
      var newEmail := Overwrite(Normalized(email), companies[i].email);
      if exists j :: 0 <= j < |companies| && j != i && companies[j].email == newEmail {
        return Response(400, Message(DuplicateKeyMessage));
      }
      var c := companies[i].(email := newEmail, address := OverwriteOptional(address, companies[i].address), phone := Overwrite(phone, companies[i].phone));
      UpdateStep(companies, nextId, name, email, address, phone, i, c);
      companies := companies[i := c];
      resp := Response(200, Data(Some(c)));
    }

    /** `delete`. */
    method Delete(name: string) returns (resp: Response<Company>)
      requires ValidCompanies(companies, nextId)
      modifies this
      ensures ValidCompanies(companies, nextId)
      ensures Effect(resp, companies) == DeleteEffect(old(companies), name)
      ensures nextId == old(nextId)
    {
      var found := Find(companies, name);
      if found.None? {
        resp := Response(404, Message(NotFoundMessage));
      } else {
        var i := found.value;
        DeleteStep(companies, nextId, name, i);
        resp := Response(200, Data(Some(companies[i])));
        companies := companies[..i] + companies[i + 1..];
      }
    }
  }
}

=== FILE: company_list.dfy ===
/**
 * The Angular company list: its paging state, the requests it issues and
 * how it takes in the responses. A request is returned to the caller; the
 * response arrives later through `ReceivePage` or `ReceiveSearch`, the
 * bodies of the two `subscribe` callbacks.
 */
module CompanyList {
  import opened Wrappers
  import CompanyModel
  import CompanyController
  import QueryString
  import JsString

  /** The page size `getCompanies` sends by default. */
  const PageSize: int := 10

  /** The two HTTP requests the component issues. */
  datatype ListRequest =
    | GetCompanies(page: int, pageSize: int)   // GET /api/company?page=..&pageSize=..
    | SearchCompanies(companyName: string)     // GET /api/company?companyName=..

  /** `Array.from({ length: n }, (_, i) => i + 1)`: the page numbers 1..n, none for n <= 0. */
  function PageNumbers(n: int): (r: seq<int>)
    ensures |r| == if n < 0 then 0 else n
    ensures forall i :: 0 <= i < |r| ==> r[i] == i + 1
    ensures forall p :: p in r <==> 1 <= p <= n
    ensures forall i, j :: 0 <= i < j < |r| ==> r[i] < r[j]
  {
    var r := seq(if n < 0 then 0 else n, i => i + 1);
    assert forall p :: 1 <= p <= n ==> p in r by {
      forall p | 1 <= p <= n
        ensures p in r
      {
        assert r[p - 1] == p;
      }
    }
    r
  }

  /**
   * The query string of the request URL, as `api.service.ts` writes it:
   * the numbers in decimal, and the search term as typed, unencoded.
   */
  function UrlQuery(req: ListRequest): string
  {
    match req
    case GetCompanies(p, size) => "page" + "=" + QueryString.Decimal(p) + "&" + "pageSize" + "=" + QueryString.Decimal(size)
    case SearchCompanies(t) => "companyName" + "=" + t
  }

  /**
   * The query the backend reads from a request. The client's `pageSize`
   * has no counterpart and is ignored.
   */
  function BackendQuery(req: ListRequest): Option<CompanyController.Query>
  {
    CompanyController.QueryOf(UrlQuery(req))
  }

  /** The keys the client writes hold none of the characters the parser treats specially. */
  lemma PlainKeys()
    ensures '=' !in "companyName" && '+' !in "companyName" && '&' !in "companyName" && '#' !in "companyName"
    ensures '=' !in "page" && '+' !in "page" && '&' !in "page" && '#' !in "page"
    ensures '=' !in "pageSize" && '+' !in "pageSize" && '&' !in "pageSize" && '#' !in "pageSize"
  {
  }

  /** How `findAll` reads the parameters of a page request. */
  lemma ReadPageParams(d1: string, d2: string)
    requires QueryString.IsInteger(d1)
    ensures CompanyController.ReadQuery([("page", d1), ("pageSize", d2)]) ==
      Some(CompanyController.Query(Some(QueryString.IntegerValue(d1)), None, None))
  {
    var ps := [("page", d1), ("pageSize", d2)];
    assert QueryString.Lookup(ps, "page") == Some(d1);
    assert QueryString.Lookup(ps, "limit").None?;
    assert QueryString.Lookup(ps, "companyName").None?;
  }

  /** How `findAll` reads a query string that is just the search parameter. */
  lemma ReadNameQuery(q: string, v: string)
    requires QueryString.Params(q) == [("companyName", v)]
    ensures CompanyController.QueryOf(q) == Some(CompanyController.Query(None, None, Some(v)))
  {
    var ps := [("companyName", v)];
    assert QueryString.Lookup(ps, "page").None?;
    assert QueryString.Lookup(ps, "limit").None?;
  }

  /** How `findAll` reads a query string that is the search parameter followed by a page. */
  lemma ReadNamePageQuery(q: string, v: string, d: string)
    requires QueryString.IsInteger(d)
    requires QueryString.Params(q) == [("companyName", v), ("page", d)]
    ensures CompanyController.QueryOf(q) == Some(CompanyController.Query(Some(QueryString.IntegerValue(d)), None, Some(v)))
  {
    var ps := [("companyName", v), ("page", d)];
    assert QueryString.Lookup(ps, "page") == Some(d);
    assert QueryString.Lookup(ps, "limit").None?;
    assert QueryString.Lookup(ps, "companyName") == Some(v);
  }

  /** The parameters of the URL of a search for `t` (see `UrlQuery`), when `t` holds no `&` or `#`. */
  lemma SearchParams(t: string)
    requires '&' !in t && '#' !in t
    ensures QueryString.Params("companyName" + "=" + t) == [("companyName", QueryString.PlusAsSpace(t))]
  {
    PlainKeys();
    QueryString.OneParamOf("companyName", t);
  }

  /** The parameters of the URL of a search for `t&page=d` (see `UrlQuery`). */
  lemma SearchPageParams(t: string, d: string)
    requires '&' !in t && '#' !in t && '&' !in d && '#' !in d
    ensures QueryString.Params("companyName" + "=" + t + "&" + "page" + "=" + d) ==
      [("companyName", QueryString.PlusAsSpace(t)), ("page", QueryString.PlusAsSpace(d))]
  {
    PlainKeys();
    QueryString.TwoParamsOf("companyName", t, "page", d);
  }

  /** The URL of a search for `t&page=d`, written out. */
  lemma SearchPageUrl(t: string, d: string)
    ensures UrlQuery(SearchCompanies(t + "&page=" + d)) == "companyName" + "=" + t + "&" + "page" + "=" + d
  {
  }

  /** How `findAll` reads the URL of a search for `t&page=d`. */
  lemma SearchPageQuery(t: string, d: string)
    requires '&' !in t && '#' !in t && '&' !in d && '#' !in d
    requires QueryString.IsInteger(d)
    ensures BackendQuery(SearchCompanies(t + "&page=" + d)) ==
      Some(CompanyController.Query(Some(QueryString.IntegerValue(d)), None, Some(QueryString.PlusAsSpace(t))))
  {
    SearchPageUrl(t, d);
    SearchPageParams(t, d);
    ReadNamePageQuery(UrlQuery(SearchCompanies(t + "&page=" + d)), QueryString.PlusAsSpace(t), d);
  }

  /** A page request reaches the backend as that page, with no limit and no search. */
  lemma PageRequestRead(p: int, size: int)
    ensures BackendQuery(GetCompanies(p, size)) == Some(CompanyController.Query(Some(p), None, None))
  {
    var d1, d2 := QueryString.Decimal(p), QueryString.Decimal(size);
    PlainKeys();
    QueryString.TwoParamsOf("page", d1, "pageSize", d2);
    QueryString.DecimalRoundTrip(p);
    ReadPageParams(d1, d2);
  }

  /**
   * A search term without `&` or `#` reaches the backend whole, as the
   * `companyName` and nothing else, with each `+` read as a space.
   */
  lemma SearchTermRead(t: string)
    requires '&' !in t && '#' !in t
    ensures BackendQuery(SearchCompanies(t)) == Some(CompanyController.Query(None, None, Some(QueryString.PlusAsSpace(t))))
  {
    SearchParams(t);
    ReadNameQuery("companyName" + "=" + t, QueryString.PlusAsSpace(t));
  }

  /** Whatever follows a `#` in the search term never reaches the backend. */
  lemma FragmentDropped(t: string, rest: string)
    requires '#' !in t
    ensures BackendQuery(SearchCompanies(t + "#" + rest)) == BackendQuery(SearchCompanies(t))
  {
    var a := UrlQuery(SearchCompanies(t));
    assert UrlQuery(SearchCompanies(t + "#" + rest)) == a + "#" + rest;
    assert '#' !in a;
    QueryString.BeforeFragmentAt(a, rest);
  }

  /**
   * An `&` in the search term starts a parameter of its own: the term
   * `t&page=n` asks for page `n` of the companies matching `t`.
   */
  lemma TermCanSetPage(t: string, n: int)
    requires '&' !in t && '#' !in t
    ensures BackendQuery(SearchCompanies(t + "&page=" + QueryString.Decimal(n))) ==
      Some(CompanyController.Query(Some(n), None, Some(QueryString.PlusAsSpace(t))))
  {
    var d := QueryString.Decimal(n);
    SearchPageQuery(t, d);
    QueryString.DecimalRoundTrip(n);
  }

  /** The search box's `a&page=3` lists page 3 of the companies matching `a`. */
  lemma AmpersandTermSetsPage()
    ensures BackendQuery(SearchCompanies("a&page=3")) == Some(CompanyController.Query(Some(3), None, Some("a")))
  {
    assert QueryString.Decimal(3) == "3";
    assert "a&page=3" == "a" + "&page=" + QueryString.Decimal(3);
    TermCanSetPage("a", 3);
  }

  class CompanyListComponent {
    var companies: seq<CompanyModel.Company>
    var currentPage: int
    var totalPages: int
    var pages: seq<int>

    /** The page buttons show exactly the pages 1..totalPages. */
    predicate Consistent()
      reads this
    {
      pages == PageNumbers(totalPages)
    }

    /**
     * The field initialisers: no companies, page 1 of 1, and no page
     * buttons — the one state in which the buttons disagree with `totalPages`.
     */
    constructor ()
      ensures companies == [] && currentPage == 1 && totalPages == 1 && pages == []
      ensures !Consistent()
    {
      companies := [];
      currentPage := 1;
      totalPages := 1;
      pages := [];
    }

    /** `loadCompanies(page)`: asks for that page with the default page size. */
    method LoadCompanies(page: int) returns (req: ListRequest)
      ensures req == GetCompanies(page, PageSize)
      ensures BackendQuery(req) == Some(CompanyController.Query(Some(page), None, None))
    {
      req := GetCompanies(page, PageSize);
      PageRequestRead(page, PageSize);
    }

    /** `ngOnInit`: loads the current page, which is page 1 on a fresh component. */
    method NgOnInit() returns (req: ListRequest)
      ensures req == GetCompanies(currentPage, PageSize)
    {
      req := LoadCompanies(currentPage);
    }

    /**
     * The `next` callback of `loadCompanies`: the companies, page count and
     * page number are taken from the response and the page buttons rebuilt.
     */
    method ReceivePage(data: seq<CompanyModel.Company>, total: int, current: int)
      modifies this
      ensures companies == data && totalPages == total && currentPage == current
      ensures pages == PageNumbers(total)
      ensures Consistent()
    {
      companies := data;
      totalPages := total;
      currentPage := current;
      var ps: seq<int> := [];
      var i := 0;
      while i < total
        invariant 0 <= i <= if total < 0 then 0 else total
        invariant |ps| == i
        invariant forall k :: 0 <= k < i ==> ps[k] == k + 1
      {
        ps := ps + [i + 1];
        i := i + 1;
      }
      assert ps == PageNumbers(total);
      pages := ps;
    }

    /**
     * `searchCompanies()`: asks for the companies matching the search term.
     * The term goes into the URL unencoded: one without `&` or `#` arrives
     * as the name, with no page or limit; an `&` can smuggle in a page, and
     * `#` cuts the term short.
     */
    method SearchCompaniesRequest(term: string) returns (req: ListRequest)
      ensures req == SearchCompanies(term)
      ensures '&' !in term && '#' !in term ==>
        BackendQuery(req) == Some(CompanyController.Query(None, None, Some(QueryString.PlusAsSpace(term))))
      ensures '&' !in term && '#' !in term && '+' !in term ==>
        BackendQuery(req) == Some(CompanyController.Query(None, None, Some(term)))
    {
      req := SearchCompanies(term);
      if '&' !in term && '#' !in term {
        SearchTermRead(term);
      }
    }

    /** The `next` callback of `searchCompanies`: the results, shown as the single page 1 of 1. */
    method ReceiveSearch(data: seq<CompanyModel.Company>)
      modifies this
      ensures companies == data && totalPages == 1 && currentPage == 1 && pages == [1]
      ensures Consistent()
    {
      companies := data;
      totalPages := 1;
      currentPage := 1;
      pages := [1];
    }

    /**
     * `goToPage(page)`: a page outside 1..totalPages is ignored and nothing
     * is requested; any other page is loaded. The state itself changes only
     * when the response arrives.
     */
    method GoToPage(page: int) returns (req: Option<ListRequest>)
      ensures req.None? <==> page < 1 || page > totalPages
      ensures req.Some? ==> req.value == GetCompanies(page, PageSize)
      ensures Consistent() ==> (req.Some? <==> page in pages)
    {
      if page < 1 || page > totalPages {
        req := None;
      } else {
        var r := LoadCompanies(page);
        req := Some(r);
      }
    }
  }

  /**
   * Whatever page size the client asks for, the backend serves pages of its
   * default limit 10: the listing the component receives for page `p` is the
   * listing of page `p` with limit 10.
   */
  lemma EffectivePageSizeIsTen(companies: seq<CompanyModel.Company>, p: int, size: int, matches: (string, string) -> bool, syntaxError: string -> Option<string>)
    requires p >= 1
    ensures BackendQuery(GetCompanies(p, size)).Some?
    ensures CompanyController.PagingOk(BackendQuery(GetCompanies(p, size)).value)
    ensures CompanyController.FindAll(companies, BackendQuery(GetCompanies(p, size)).value, matches, syntaxError) ==
      Some(CompanyController.Listing(companies, CompanyController.Query(Some(p), Some(PageSize), None), matches))
    ensures |CompanyController.Listing(companies, BackendQuery(GetCompanies(p, size)).value, matches).body.docs| <= PageSize
  {
    PageRequestRead(p, size);
  }

  /**
   * A search whose term carries no page or limit of its own is either never
   * answered, when `new RegExp` rejects the name, or answered with the first
   * page of at most 10 matches, though the component shows it as the whole
   * result: matches beyond the tenth cannot be reached, since page 1 of 1 is
   * all `goToPage` allows.
   */
  lemma SearchShowsFirstTen(companies: seq<CompanyModel.Company>, term: string, matches: (string, string) -> bool, syntaxError: string -> Option<string>)
    ensures var q := BackendQuery(SearchCompanies(term));
      q.Some? && q.value.page.None? && q.value.limit.None? ==>
        var r := CompanyController.FindAll(companies, q.value, matches, syntaxError);
        && (r.None? <==> CompanyController.PatternThrows(q.value, syntaxError))
        && (r.Some? ==>
              && r.value.body.currentPage == 1
              && |r.value.body.docs| <= PageSize
              && (|CompanyController.Filter(companies, q.value.companyName, matches)| > PageSize ==>
                    |r.value.body.docs| < |CompanyController.Filter(companies, q.value.companyName, matches)|))
  {
  }

  /** For a term without `&` or `#` the search above is for the term itself, `+` read as a space. */
  lemma PlainSearchShowsFirstTen(companies: seq<CompanyModel.Company>, term: string, matches: (string, string) -> bool, syntaxError: string -> Option<string>)
    requires '&' !in term && '#' !in term
    ensures var r := CompanyController.FindAll(companies, CompanyController.Query(None, None, Some(QueryString.PlusAsSpace(term))), matches, syntaxError);
      && BackendQuery(SearchCompanies(term)) == Some(CompanyController.Query(None, None, Some(QueryString.PlusAsSpace(term))))
      && (r.None? <==> term != "" && syntaxError(QueryString.PlusAsSpace(term)).Some?)
      && (r.Some? ==> r.value.body.currentPage == 1 && |r.value.body.docs| <= PageSize)
  {
    SearchTermRead(term);
    SearchShowsFirstTen(companies, term, matches, syntaxError);
  }
}

=== FILE: company_model.dfy ===
/**
 * The `company` mongoose model: how the fields given to `new Company({...})`
 * are cast, which documents the schema admits (the company name is required
 * but not unique, and the only role is "company"), and the `pre('save')`
 * hook that replaces a modified password by its bcrypt digest.
 */
module CompanyModel {
  import opened Wrappers
  import JsString
  import Bcrypt
  import opened Schema

  /** `enum: ['company']`. */
  const Roles: seq<string> := ["company"]
  const DefaultRole: string := "company"
  const PasswordMinLength: nat := 6
  const PasswordMaxLength: nat := 60

  /** The `address` sub-document (`_id: false`). */
  datatype Address = Address(area: Option<string>, road: Option<string>)

  /** One element of `phone` (`_id: false`); `type` in the schema. */
  datatype Phone = Phone(kind: Option<string>, number: Option<string>)

  /** A saved company document. */
  datatype Company = Company(
    id: nat,
    companyName: string,
    password: Bcrypt.Secret,
    email: string,
    address: Option<Address>,
    phone: seq<Phone>,
    role: string)

  /** The fields handed to `new Company({...})`; `create` hands over an already hashed password. */
  datatype CompanyFields = CompanyFields(
    companyName: Option<string>,
    password: Option<Bcrypt.Secret>,
    email: Option<string>,
    address: Option<Address>,
    phone: Option<seq<Phone>>,
    role: Option<string>)

  /** The paths of a document that has not been saved yet. */
  datatype Draft = Draft(
    companyName: Option<string>,
    password: Option<Bcrypt.Secret>,
    email: Option<string>,
    address: Option<Address>,
    phone: seq<Phone>,
    role: string)

  /**
   * `new Company(fields)`: only email has setters (trim, lowercase); an absent
   * phone list becomes [] and an absent role the default.
   */
  function Cast(f: CompanyFields): Draft
  {
    Draft(
      f.companyName,
      f.password,
      Normalized(f.email),
      f.address,
      if f.phone.Some? then f.phone.value else [],
      if f.role.Some? then f.role.value else DefaultRole)
  }

  predicate EmailTaken(companies: seq<Company>, email: string)
  {
    exists i :: 0 <= i < |companies| && companies[i].email == email
  }

  /** The schema's rules, stated declaratively. The company name need not be unique. */
  predicate Admissible(companies: seq<Company>, d: Draft, emailPattern: string -> bool)
  {
    && d.companyName.Some? && d.companyName.value != ""
    && d.password.Some? && PasswordMinLength <= Bcrypt.Length(d.password.value) <= PasswordMaxLength
    && d.email.Some? && d.email.value != "" && emailPattern(d.email.value) && !EmailTaken(companies, d.email.value)
    && d.role in Roles
  }

  function NameCheck(v: Option<string>): Option<Violation>
  {
    LengthCheck(v.Some?, if v.Some? then |v.value| else 0, true, None, 0)
  }

  function PasswordCheck(v: Option<Bcrypt.Secret>): Option<Violation>
  {
    var len := if v.Some? then Bcrypt.Length(v.value) else 0;
    LengthCheck(v.Some?, len, true, Some(PasswordMaxLength), PasswordMinLength)
  }

  function EmailCheck(companies: seq<Company>, v: Option<string>, emailPattern: string -> bool): Option<Violation>
  {
    var len := if v.Some? then |v.value| else 0;
    var basic := LengthCheck(v.Some?, len, true, None, 0);
    if basic.Some? then basic
    else if !emailPattern(v.value) then Some(PatternMismatch)
    else if EmailTaken(companies, v.value) then Some(NotUnique)
    else None
  }

  function RoleCheck(v: string): Option<Violation>
  {
    if v !in Roles then Some(NotInEnum) else None
  }

  /** The validation errors `save()` reports; none exactly when the draft is admissible. */
  function SchemaErrors(companies: seq<Company>, d: Draft, emailPattern: string -> bool): (errs: seq<PathError>)
    ensures errs == [] <==> Admissible(companies, d, emailPattern)
    ensures d.role !in Roles ==> PathError("role", NotInEnum) in errs
  {
    var checks := [
      ("companyName", NameCheck(d.companyName)),
      ("password", PasswordCheck(d.password)),
      ("email", EmailCheck(companies, d.email, emailPattern)),
      ("role", RoleCheck(d.role))];
    assert (forall i :: 0 <= i < |checks| ==> checks[i].1.None?) <==>
      checks[0].1.None? && checks[1].1.None? && checks[2].1.None? && checks[3].1.None?;
    assert d.role !in Roles ==> checks[3] == ("role", Some(NotInEnum));
    Collect(checks)
  }

  /** The message bcryptjs throws when asked to hash `undefined` with a generated salt. */
  const IllegalArgumentsMessage: string := "Illegal arguments: undefined, string"

  /** The `pre('save')` hook: rehash the password only when it was modified. */
  function PreSave(d: Draft, passwordModified: bool, salt: Result<nat, string>): (r: Result<Draft, string>)
    ensures !passwordModified ==> r == Ok(d)
    ensures passwordModified ==> (r.Ok? <==> salt.Ok? && d.password.Some?)
    ensures r.Ok? && passwordModified ==> r.value.password == Some(Bcrypt.Hash(d.password.value, salt.value))
    ensures r.Ok? ==> r.value.(password := d.password) == d
  {
    if !passwordModified then Ok(d)
    else if salt.Err? then Err(salt.error)
    else if d.password.None? then Err(IllegalArgumentsMessage)
    else Ok(d.(password := Some(Bcrypt.Hash(d.password.value, salt.value))))
  }

  datatype SaveError = Invalid(errors: seq<PathError>) | HookFailed(message: string)

  function Stored(d: Draft, id: nat): Company
    requires d.companyName.Some? && d.password.Some? && d.email.Some?
  {
    Company(id, d.companyName.value, d.password.value, d.email.value, d.address, d.phone, d.role)
  }

  /** `save()` of a new document: validation first, then the hook, then the insert. */
  function Save(companies: seq<Company>, id: nat, d: Draft, passwordModified: bool, salt: Result<nat, string>, emailPattern: string -> bool): (r: Result<Company, SaveError>)
    ensures r.Ok? <==> Admissible(companies, d, emailPattern) && (passwordModified ==> salt.Ok?)
    ensures !Admissible(companies, d, emailPattern) ==> r == Err(Invalid(SchemaErrors(companies, d, emailPattern)))
    ensures r.Ok? ==> r.value.id == id && !EmailTaken(companies, r.value.email) && r.value.companyName != ""
    ensures r.Ok? ==> r.value.role == DefaultRole
    ensures r.Ok? && passwordModified ==> r.value.password == Bcrypt.Hash(d.password.value, salt.value)
    ensures r.Ok? && !passwordModified ==> r.value.password == d.password.value
    ensures r.Ok? ==>
      && Some(r.value.companyName) == d.companyName && Some(r.value.email) == d.email
      && r.value.address == d.address && r.value.phone == d.phone
  {
    var errs := SchemaErrors(companies, d, emailPattern);
    if errs != [] then Err(Invalid(errs))
    else
      match PreSave(d, passwordModified, salt)
      case Err(msg) => Err(HookFailed(msg))
      case Ok(h) => Ok(Stored(h, id))
  }

  /** An unsaved company document, whose password the hook overwrites in place. */
  class CompanyDocument {
    var companyName: Option<string>
    var password: Option<Bcrypt.Secret>
    var email: Option<string>
    var address: Option<Address>
    var phone: seq<Phone>
    var role: string
    /** `this.isModified('password')`: on a new document, whether a password was set. */
    var passwordModified: bool

    function Snapshot(): Draft
      reads this
    {
      Draft(companyName, password, email, address, phone, role)
    }

    /** `new Company(fields)`. */
    constructor (f: CompanyFields)
      ensures Snapshot() == Cast(f)
      ensures passwordModified == f.password.Some?
    {
      var d := Cast(f);
      companyName, password, email, address, phone, role := d.companyName, d.password, d.email, d.address, d.phone, d.role;
      passwordModified := f.password.Some?;
    }

    /** The `pre('save')` hook, overwriting `this.password` in place. */
    method PreSaveHook(salt: Result<nat, string>) returns (err: Option<string>)
      modifies this
      ensures passwordModified == old(passwordModified)
      ensures err.None? ==> PreSave(old(Snapshot()), old(passwordModified), salt) == Ok(Snapshot())
      ensures err.Some? ==> PreSave(old(Snapshot()), old(passwordModified), salt) == Err(err.value)
      ensures err.Some? ==> Snapshot() == old(Snapshot())
    {
      if !passwordModified {
        return None;
      }
      if salt.Err? {
        return Some(salt.error);
      }
      if password.None? {
        return Some(IllegalArgumentsMessage);
      }
      password := Some(Bcrypt.Hash(password.value, salt.value));
      return None;
    }
  }
}

=== FILE: company_routes.dfy ===
/** The route table mounted at `/api/company`, in registration order. */
module CompanyRoutes {
  import opened Wrappers
  import opened Jwt
  import opened Router
  import Authorize
  import RequestValidation
  import CompanyValidator
  import Json

  const Readers: seq<string> := ["admin", "user", "company"]
  const Writers: seq<string> := ["admin", "company"]

  const Table: seq<Route> := [
    Route(POST, [Lit("register")], [Handle(Register)]),
    Route(POST, [Lit("authenticate")], [Handle(Authenticate)]),
    Route(GET, [], [Guard(Authorize.RoleList(Readers)), Handle(FindAll)]),
    Route(GET, [Param("companyName")], [Guard(Authorize.RoleList(Readers)), Handle(FindOne)]),
    Route(POST, [], [Guard(Authorize.RoleList(Writers)), Checks(CompanyValidator.Rules("create")), ValidateStage, Handle(Create)]),
    Route(PUT, [Param("companyName")], [Guard(Authorize.RoleList(Writers)), Checks(CompanyValidator.Rules("update")), ValidateStage, Handle(Update)]),
    Route(DELETE, [Param("companyName")], [Guard(Authorize.RoleList(Writers)), Handle(Delete)]),
    Route(POST, [Lit("authenticate")], [Handle(Authenticate)])
  ]

  /** Registration and login need no token: they reach their handlers with no user, whatever the header. */
  lemma PublicEndpoints(header: Option<string>, body: map<string, Json.Json>, verify: string -> Option<Claims>, isEmail: string -> bool)
    ensures Serve(Table, POST, ["register"], header, body, verify, isEmail) == Reached(Register, None, map[])
    ensures Serve(Table, POST, ["authenticate"], header, body, verify, isEmail) == Reached(Authenticate, None, map[])
  {
    DispatchTo(Table, POST, ["register"], 0);
    DispatchTo(Table, POST, ["authenticate"], 1);
  }

  /** The second registration of `/authenticate`, at the end of the file, never serves a request. */
  lemma DuplicateUnreachable(verb: Verb, path: seq<string>)
    ensures Dispatch(Table, verb, path) != Some(7)
  {
    Shadowed(Table, 1, 7, verb, path);
  }

  /** `GET /`: admin, user and company tokens list companies. */
  lemma ListCompanies(header: Option<string>, body: map<string, Json.Json>, verify: string -> Option<Claims>, isEmail: string -> bool)
    ensures Serve(Table, GET, [], header, body, verify, isEmail) == Guarded(Readers, FindAll, header, map[], verify)
  {
    DispatchTo(Table, GET, [], 2);
    GuardedRoute(Readers, FindAll, header, RequestValidation.Request(body, map[]), verify, isEmail);
  }

  /** `GET /:companyName`: admin, user and company tokens read one company. */
  lemma ReadCompany(name: string, header: Option<string>, body: map<string, Json.Json>, verify: string -> Option<Claims>, isEmail: string -> bool)
    requires name != ""
    ensures Serve(Table, GET, [name], header, body, verify, isEmail) ==
      Guarded(Readers, FindOne, header, map["companyName" := name], verify)
  {
    ServeByName(GET, 3, name, header, body, verify, isEmail);
    GuardedRoute(Readers, FindOne, header, RequestValidation.Request(body, map["companyName" := name]), verify, isEmail);
  }

  /** A request for `/<name>` is served by the first route of its verb with a `:companyName` pattern. */
  lemma ServeByName(verb: Verb, k: nat, name: string, header: Option<string>, body: map<string, Json.Json>, verify: string -> Option<Claims>, isEmail: string -> bool)
    requires name != ""
    requires 3 <= k < |Table| && Table[k].verb == verb && Table[k].pattern == [Param("companyName")]
    requires forall j :: 3 <= j < k ==> Table[j].verb != verb
    ensures Serve(Table, verb, [name], header, body, verify, isEmail) ==
      Run(Table[k].stages, header, RequestValidation.Request(body, map["companyName" := name]), verify, isEmail, None, [])
  {
    MatchParam("companyName", name);
    DispatchTo(Table, verb, [name], k);
    ServeRoute(Table, verb, [name], header, body, verify, isEmail, k, map["companyName" := name]);
  }

  /**
   * `POST /`: the admin-or-company check comes first, then the `create`
   * rules, and only a request passing both reaches `create`.
   */
  lemma CreateCompanyOrder(header: Option<string>, body: map<string, Json.Json>, verify: string -> Option<Claims>, isEmail: string -> bool)
    ensures var o := Serve(Table, POST, [], header, body, verify, isEmail);
      var d := Authorize.Check(Authorize.RoleList(Writers), header, verify);
      var errs := RequestValidation.Errors(CompanyValidator.Rules("create"), RequestValidation.Request(body, map[]), isEmail);
      && (d.Deny? ==> o == Denied(d.status, d.message))
      && (d.Pass? && errs != [] ==> o == Invalid(422, errs))
      && (d.Pass? && errs == [] ==> o == Reached(Create, Some(d.user), map[]))
  {
    DispatchTo(Table, POST, [], 4);
    var chains := CompanyValidator.Rules("create");
    assert Table[4].stages == [Guard(Authorize.RoleList(Writers)), Checks(chains), ValidateStage, Handle(Create)];
    ValidatedRoute(Writers, chains, Create, header, RequestValidation.Request(body, map[]), verify, isEmail);
  }

  /**
   * The `param('companyName')` chain of the `update` rules never fails on a
   * request the router has matched: the segment is a non-empty string.
   */
  lemma UpdateParamPasses(name: string, body: map<string, Json.Json>, isEmail: string -> bool)
    requires name != ""
    ensures RequestValidation.ChainPasses(CompanyValidator.Rules("update")[0], RequestValidation.Request(body, map["companyName" := name]), isEmail)
  {
    var req := RequestValidation.Request(body, map["companyName" := name]);
    RequestValidation.NonEmptyStringSteps(CompanyValidator.Rules("update")[0], req, isEmail);
  }

  /**
   * `PUT /:companyName`: the guard, then the `update` rules, then `update`;
   * the path names the company to change, whatever company the token
   * belongs to.
   */
  lemma UpdateCompanyOrder(name: string, header: Option<string>, body: map<string, Json.Json>, verify: string -> Option<Claims>, isEmail: string -> bool)
    requires name != ""
    ensures var o := Serve(Table, PUT, [name], header, body, verify, isEmail);
      var d := Authorize.Check(Authorize.RoleList(Writers), header, verify);
      var errs := RequestValidation.Errors(CompanyValidator.Rules("update"), RequestValidation.Request(body, map["companyName" := name]), isEmail);
      && (d.Deny? ==> o == Denied(d.status, d.message))
      && (d.Pass? && errs != [] ==> o == Invalid(422, errs))
      && (d.Pass? && errs == [] ==> o == Reached(Update, Some(d.user), map["companyName" := name]))
  {
    ServeByName(PUT, 5, name, header, body, verify, isEmail);
    var chains := CompanyValidator.Rules("update");
    assert Table[5].stages == [Guard(Authorize.RoleList(Writers)), Checks(chains), ValidateStage, Handle(Update)];
    ValidatedRoute(Writers, chains, Update, header, RequestValidation.Request(body, map["companyName" := name]), verify, isEmail);
  }

  /** `DELETE /:companyName`: any verified company token reaches `delete`, for any company name. */
  lemma DeleteAnyCompany(name: string, header: Option<string>, body: map<string, Json.Json>, verify: string -> Option<Claims>, isEmail: string -> bool)
    requires name != ""
    requires Authorize.HasHeader(header)
    requires Authorize.Verified(header.value, verify).Some? && Authorize.Verified(header.value, verify).value.role == "company"
    ensures Serve(Table, DELETE, [name], header, body, verify, isEmail) ==
      Reached(Delete, Authorize.Verified(header.value, verify), map["companyName" := name])
  {
    ServeByName(DELETE, 6, name, header, body, verify, isEmail);
    GuardedRoute(Writers, Delete, header, RequestValidation.Request(body, map["companyName" := name]), verify, isEmail);
  }

  /** The guard of the company write routes refuses a verified user token with 401 "Insufficient Privileges". */
  lemma WritersRefuseUser(header: Option<string>, verify: string -> Option<Claims>)
    requires Authorize.HasHeader(header)
    requires Authorize.Verified(header.value, verify).Some? && Authorize.Verified(header.value, verify).value.role == "user"
    ensures Authorize.Check(Authorize.RoleList(Writers), header, verify) == Authorize.Deny(401, Authorize.InsufficientMessage)
  {
    assert !Authorize.Admits(Writers, "user");
  }

  /**
   * A verified user token may read companies but not change them: `POST /`,
   * `PUT /:companyName` and `DELETE /:companyName` answer 401
   * "Insufficient Privileges" before any validation.
   */
  lemma UserTokenCannotWrite(name: string, header: Option<string>, body: map<string, Json.Json>, verify: string -> Option<Claims>, isEmail: string -> bool)
    requires name != ""
    requires Authorize.HasHeader(header)
    requires Authorize.Verified(header.value, verify).Some? && Authorize.Verified(header.value, verify).value.role == "user"
    ensures Serve(Table, POST, [], header, body, verify, isEmail) == Denied(401, Authorize.InsufficientMessage)
    ensures Serve(Table, PUT, [name], header, body, verify, isEmail) == Denied(401, Authorize.InsufficientMessage)
    ensures Serve(Table, DELETE, [name], header, body, verify, isEmail) == Denied(401, Authorize.InsufficientMessage)
  {
    WritersRefuseUser(header, verify);
    DeniedCannotCreate(header, body, verify, isEmail);
    DeniedCannotUpdate(name, header, body, verify, isEmail);
    DeniedCannotDelete(name, header, body, verify, isEmail);
  }

  /**
   * Any token the `['admin', 'company']` guard refuses for its role gets
   * 401 "Insufficient Privileges" on `POST /`, before the body is validated.
   */
  lemma DeniedCannotCreate(header: Option<string>, body: map<string, Json.Json>, verify: string -> Option<Claims>, isEmail: string -> bool)
    requires Authorize.Check(Authorize.RoleList(Writers), header, verify) == Authorize.Deny(401, Authorize.InsufficientMessage)
    ensures Serve(Table, POST, [], header, body, verify, isEmail) == Denied(401, Authorize.InsufficientMessage)
  {
    CreateCompanyOrder(header, body, verify, isEmail);
  }

  /** The same for `PUT /:companyName`: refused before validation, nothing updated. */
  lemma DeniedCannotUpdate(name: string, header: Option<string>, body: map<string, Json.Json>, verify: string -> Option<Claims>, isEmail: string -> bool)
    requires name != ""
    requires Authorize.Check(Authorize.RoleList(Writers), header, verify) == Authorize.Deny(401, Authorize.InsufficientMessage)
    ensures Serve(Table, PUT, [name], header, body, verify, isEmail) == Denied(401, Authorize.InsufficientMessage)
  {
    UpdateCompanyOrder(name, header, body, verify, isEmail);
  }

  /** The same for `DELETE /:companyName`: refused, nothing deleted. */
  lemma DeniedCannotDelete(name: string, header: Option<string>, body: map<string, Json.Json>, verify: string -> Option<Claims>, isEmail: string -> bool)
    requires name != ""
    requires Authorize.Check(Authorize.RoleList(Writers), header, verify) == Authorize.Deny(401, Authorize.InsufficientMessage)
    ensures Serve(Table, DELETE, [name], header, body, verify, isEmail) == Denied(401, Authorize.InsufficientMessage)
  {
    ServeByName(DELETE, 6, name, header, body, verify, isEmail);
    GuardedRoute(Writers, Delete, header, RequestValidation.Request(body, map["companyName" := name]), verify, isEmail);
  }
}

=== FILE: company_validator.dfy ===
/** `companyValidationRules(method)`: the request checks in front of the company create and update handlers. */
module CompanyValidator {
  import opened Wrappers
  import opened Json
  import opened RequestValidation

  const NameRequiredMessage: string := "Company name is required"
  const PasswordLengthMessage: string := "Password must be between 6 and 60 characters"
  const PasswordRequiredMessage: string := "Password is required"
  const EmailInvalidMessage: string := "Email is not valid"
  const EmailRequiredMessage: string := "Email is required"
  const AddressMessage: string := "Address must be an object"
  const PhoneMessage: string := "Phone must be an array of objects"
  const ParamRequiredMessage: string := "Company name in URL parameter is required"
  const UpdateEmailMessage: string := "Email must be valid"

  const PasswordMin: nat := 6
  const PasswordMax: nat := 60

  /** The chains of `create`. */
  const CreateName: Chain := Chain(BodyField, "companyName", false, [
    Step(IsString, DefaultMessage),
    Step(NotEmpty, NameRequiredMessage)])
  const CreatePassword: Chain := Chain(BodyField, "password", false, [
    Step(IsString, DefaultMessage),
    Step(IsLength(PasswordMin, Some(PasswordMax)), PasswordLengthMessage),
    Step(NotEmpty, PasswordRequiredMessage)])
  const CreateEmail: Chain := Chain(BodyField, "email", false, [
    Step(IsEmail, EmailInvalidMessage),
    Step(NotEmpty, EmailRequiredMessage)])
  const AddressChain: Chain := Chain(BodyField, "address", true, [Step(IsObject, AddressMessage)])
  const PhoneChain: Chain := Chain(BodyField, "phone", true, [Step(IsArray, PhoneMessage)])

  /** The chains of `update`; address and phone are checked as in `create`. */
  const UpdateName: Chain := Chain(RouteParam, "companyName", false, [
    Step(IsString, DefaultMessage),
    Step(NotEmpty, ParamRequiredMessage)])
  const UpdateEmail: Chain := Chain(BodyField, "email", true, [Step(IsEmail, UpdateEmailMessage)])
  const UpdatePassword: Chain := Chain(BodyField, "password", true, [
    Step(IsString, DefaultMessage),
    Step(IsLength(PasswordMin, Some(PasswordMax)), PasswordLengthMessage)])

  /** The rule list for a method name; any other name has none. */
  function Rules(ruleSet: string): seq<Chain>
  {
    if ruleSet == "create" then [CreateName, CreatePassword, CreateEmail, AddressChain, PhoneChain]
    else if ruleSet == "update" then [UpdateName, UpdateEmail, UpdatePassword, AddressChain, PhoneChain]
    else []
  }

  /** The optional address and phone fields are, when present, an object and an array. */
  predicate ShapesOk(req: Request)
  {
    && ("address" in req.body ==> req.body["address"].Obj?)
    && ("phone" in req.body ==> req.body["phone"].Arr?)
  }

  /** The address and phone chains pass exactly on well-shaped fields. */
  lemma ShapeChains(req: Request, isEmail: string -> bool)
    ensures ChainPasses(AddressChain, req, isEmail) && ChainPasses(PhoneChain, req, isEmail) <==> ShapesOk(req)
  {
    OptionalSingleStep(AddressChain, req, isEmail);
    OptionalSingleStep(PhoneChain, req, isEmail);
  }

  /**
   * `create` accepts exactly a non-empty string name, a string password of 6
   * to 60 characters, a non-empty valid email, and well-shaped optional
   * address and phone.
   */
  lemma CreateAccepts(req: Request, isEmail: string -> bool)
    ensures Errors(Rules("create"), req, isEmail) == [] <==>
      && NonEmptyString(Lookup(req, BodyField, "companyName"))
      && StringField(req, "password", PasswordMin, PasswordMax)
      && EmailField(req, "email", isEmail)
      && ShapesOk(req)
  {
    AllPassFive(Rules("create"), req, isEmail);
    NonEmptyStringSteps(CreateName, req, isEmail);
    StringSteps(CreatePassword, req, isEmail, PasswordMin, PasswordMax);
    EmailSteps(CreateEmail, req, isEmail);
    ShapeChains(req, isEmail);
  }

  /**
   * `update` accepts exactly a non-empty name in the route, and a body whose
   * email, password (6 to 60 characters), address and phone, when present,
   * are well formed.
   */
  lemma UpdateAccepts(req: Request, isEmail: string -> bool)
    ensures Errors(Rules("update"), req, isEmail) == [] <==>
      && NonEmptyString(Lookup(req, RouteParam, "companyName"))
      && ("email" in req.body ==> forall t :: t in Texts(Lookup(req, BodyField, "email")) ==> isEmail(t))
      && ("password" in req.body ==> StringField(req, "password", PasswordMin, PasswordMax))
      && ShapesOk(req)
  {
    AllPassFive(Rules("update"), req, isEmail);
    NonEmptyStringSteps(UpdateName, req, isEmail);
    OptionalSingleStep(UpdateEmail, req, isEmail);
    PassesEveryText(IsEmail, Lookup(req, BodyField, "email"), isEmail);
    OptionalStringSteps(UpdatePassword, req, isEmail, PasswordMin, PasswordMax);
    ShapeChains(req, isEmail);
  }

  /** Any other method name yields no rules, so every request passes. */
  lemma OtherMethodsCheckNothing(ruleSet: string, req: Request, isEmail: string -> bool)
    requires ruleSet != "create" && ruleSet != "update"
    ensures Errors(Rules(ruleSet), req, isEmail) == []
  {
  }
}

=== FILE: error_handler.dfy ===
/**
 * The application-wide Express error handler: whatever was thrown becomes a
 * JSON answer `{ error: { message, details } }` under a status, each part
 * falling back by JavaScript `||` when the thrown value lacks it.
 */
module ErrorHandler {
  import opened Wrappers
  import opened Json

  const DefaultStatus: int := 500
  const DefaultMessage: string := "Internal Server Error"

  /** The properties of the thrown value the handler reads; `None` is `undefined`. */
  datatype Thrown = Thrown(status: Option<Json>, message: Option<Json>, details: Option<Json>)

  /** The status passed to `res.status` and the JSON body passed to `res.json`. */
  datatype Answer = Answer(status: Json, body: Json)

  /** `v || fallback`. */
  function Or(v: Option<Json>, fallback: Json): (r: Json)
    ensures Truthy(v) ==> Some(r) == v
    ensures !Truthy(v) ==> r == fallback
  {
    if Truthy(v) then v.value else fallback
  }

  /** The body shape `{ error: { message: m, details: d } }`. */
  function ErrorBody(m: Json, d: Json): Json
  {
    Obj(map["error" := Obj(map["message" := m, "details" := d])])
  }

  /** Whether a body has the error shape: one `error` object holding exactly `message` and `details`. */
  predicate Shaped(body: Json)
  {
    && body.Obj? && body.fields.Keys == {"error"}
    && body.fields["error"].Obj? && body.fields["error"].fields.Keys == {"message", "details"}
  }

  function MessageOf(body: Json): Json
    requires Shaped(body)
  {
    body.fields["error"].fields["message"]
  }

  function DetailsOf(body: Json): Json
    requires Shaped(body)
  {
    body.fields["error"].fields["details"]
  }

  /**
   * `errorHandler(err, req, res, next)`: status `err.status || 500`, message
   * `err.message || 'Internal Server Error'`, details `err.details || null`.
   * Every answer has a truthy status and message and the error shape.
   */
  function Handle(err: Thrown): (r: Answer)
    ensures Truthy(err.status) ==> Some(r.status) == err.status
    ensures !Truthy(err.status) ==> r.status == Num(DefaultStatus)
    ensures Truthy(Some(r.status))
    ensures Shaped(r.body)
    ensures Truthy(err.message) ==> Some(MessageOf(r.body)) == err.message
    ensures !Truthy(err.message) ==> MessageOf(r.body) == Str(DefaultMessage)
    ensures Truthy(Some(MessageOf(r.body)))
    ensures Truthy(err.details) ==> Some(DetailsOf(r.body)) == err.details
    ensures DetailsOf(r.body) == Null <==> !Truthy(err.details)
  {
    var body := ErrorBody(Or(err.message, Str(DefaultMessage)), Or(err.details, Null));
    assert body.fields["error"].fields.Keys == {"message", "details"};
    Answer(Or(err.status, Num(DefaultStatus)), body)
  }

  /** The value the handler would have to be thrown to give this answer. */
  function Rethrown(a: Answer): Thrown
    requires Shaped(a.body)
  {
    Thrown(Some(a.status), Some(MessageOf(a.body)), Some(DetailsOf(a.body)))
  }

  /**
   * The handler's answers are its fixed points: throwing again the status,
   * message and details it answered with gives the same answer.
   */
  lemma HandleStable(err: Thrown)
    ensures Handle(Rethrown(Handle(err))) == Handle(err)
  {
    var a := Handle(err);
    var b := Handle(Rethrown(a));
    assert b.status == a.status;
    assert MessageOf(b.body) == MessageOf(a.body);
    assert DetailsOf(b.body) == DetailsOf(a.body);
  }

  /**
   * Two thrown values get the same answer exactly when they agree on the
   * status, message and details after the fallbacks.
   */
  lemma HandleDependsOnlyOnFallbacks(e1: Thrown, e2: Thrown)
    ensures Handle(e1) == Handle(e2) <==>
      && Or(e1.status, Num(DefaultStatus)) == Or(e2.status, Num(DefaultStatus))
      && Or(e1.message, Str(DefaultMessage)) == Or(e2.message, Str(DefaultMessage))
      && Or(e1.details, Null) == Or(e2.details, Null)
  {
    var a1 := Handle(e1);
    var a2 := Handle(e2);
    if a1 == a2 {
      assert MessageOf(a1.body) == MessageOf(a2.body);
      assert DetailsOf(a1.body) == DetailsOf(a2.body);
    }
  }

  /** A plain `Error` with a message and nothing else answers 500 with that message and null details. */
  lemma PlainErrorIs500(msg: string)
    requires msg != ""
    ensures var a := Handle(Thrown(None, Some(Str(msg)), None));
      a.status == Num(500) && MessageOf(a.body) == Str(msg) && DetailsOf(a.body) == Null
  {
  }
}

=== FILE: http.dfy ===
/** The JSON responses the controllers send: a status code and one of a few body shapes. */
module Http {
  import opened Wrappers
  import Jwt
  import Schema

  datatype Body<D> =
    | Message(message: string)                       // { message }
    | Failure(message: string, error: string)        // { message, error }
    | Data(data: Option<D>)                          // { data }, where data may be null
    | Page(docs: seq<D>, totalPages: int, currentPage: int)   // { data, totalPages, currentPage }
    | Authenticated(message: string, token: Jwt.Token)
    | Rejected(errors: seq<Schema.PathError>)        // { message: err.message } of a failed validation

  datatype Response<D> = Response(status: int, body: Body<D>)

  /** What a handler that writes to a collection does: its response and the collection afterwards. */
  datatype Effect<D> = Effect(response: Response<D>, docs: seq<D>)
}

=== FILE: js_string.dfy ===
/**
 * The few JavaScript string operations the backend relies on:
 * `split` on a one-character separator (used to pull the bearer token out of
 * the Authorization header) and the `trim` / `lowercase` setters that the
 * schemas apply to usernames and email addresses.
 */
module JsString {

  /** `s.split(sep)`: the maximal separator-free pieces of `s`, empty pieces included. */
  function Split(s: string, sep: char): (r: seq<string>)
    ensures |r| >= 1
    ensures forall i :: 0 <= i < |r| ==> sep !in r[i]
    ensures |r| == 1 <==> sep !in s
  {
    if s == [] then [""]
    else if s[0] == sep then [""] + Split(s[1..], sep)
    else
      var rest := Split(s[1..], sep);
      [[s[0]] + rest[0]] + rest[1..]
  }

  /** `parts.join(sep)`, the inverse of `Split`. */
  function Join(parts: seq<string>, sep: char): string
  {
    if |parts| == 0 then ""
    else if |parts| == 1 then parts[0]
    else parts[0] + [sep] + Join(parts[1..], sep)
  }

  /** Splitting and joining again gives back the original string. */
  lemma {:induction false} JoinSplit(s: string, sep: char)
    ensures Join(Split(s, sep), sep) == s
  {
    if s != [] {
      var rest := Split(s[1..], sep);
      JoinSplit(s[1..], sep);
      assert s == [s[0]] + s[1..];
      if s[0] == sep {
        JoinAfterEmpty(rest, sep);
      } else {
        JoinPrepend(s[0], rest, sep);
      }
    }
  }

  /** An empty first piece joins as a leading separator. */
  lemma JoinAfterEmpty(parts: seq<string>, sep: char)
    requires |parts| >= 1
    ensures Join([""] + parts, sep) == [sep] + Join(parts, sep)
  {
    assert ([""] + parts)[1..] == parts;
  }

  /** A character put in front of the first piece comes first in the joined string. */
  lemma JoinPrepend(c: char, parts: seq<string>, sep: char)
    requires |parts| >= 1
    ensures Join([[c] + parts[0]] + parts[1..], sep) == [c] + Join(parts, sep)
  {
    var q := [[c] + parts[0]] + parts[1..];
    if |parts| > 1 {
      assert q[1..] == parts[1..];
      assert Join(q, sep) == [c] + parts[0] + [sep] + Join(parts[1..], sep);
    }
  }

  /** A prefix free of the separator becomes the first piece. */
  lemma {:induction false} SplitAfterPrefix(p: string, sep: char, t: string)
    requires sep !in p
    ensures Split(p + [sep] + t, sep) == [p] + Split(t, sep)
  {
    var u := p + [sep] + t;
    if p == [] {
      assert u == [sep] + t;
      assert u[1..] == t;
    } else {
      assert u[0] == p[0] && u[0] != sep;
      assert u[1..] == p[1..] + [sep] + t;
      SplitAfterPrefix(p[1..], sep, t);
      var rest := Split(u[1..], sep);
      assert rest[0] == p[1..] && rest[1..] == Split(t, sep);
      assert [p[0]] + p[1..] == p;
    }
  }

  /** Joining pieces free of the separator and splitting again gives back the pieces. */
  lemma {:induction false} SplitJoin(parts: seq<string>, sep: char)
    requires |parts| >= 1
    requires forall i :: 0 <= i < |parts| ==> sep !in parts[i]
    ensures Split(Join(parts, sep), sep) == parts
  {
    if |parts| == 1 {
      var r := Split(parts[0], sep);
      assert |r| == 1;
      JoinSplit(parts[0], sep);
    } else {
      SplitJoin(parts[1..], sep);
      SplitAfterPrefix(parts[0], sep, Join(parts[1..], sep));
      assert parts == [parts[0]] + parts[1..];
    }
  }

  /** The characters `String.prototype.trim` removes (the ASCII ones). */
  predicate IsSpace(c: char)
  {
    c == ' ' || c == '\t' || c == '\n' || c == '\r' || c == 11 as char || c == 12 as char
  }

  /** No whitespace at either end. */
  predicate Trimmed(s: string)
  {
    s == [] || (!IsSpace(s[0]) && !IsSpace(s[|s| - 1]))
  }

  /** `s` without its leading whitespace. */
  function TrimStart(s: string): (r: string)
    ensures |r| <= |s|
    ensures r == [] || !IsSpace(r[0])
  {
    if s != [] && IsSpace(s[0]) then TrimStart(s[1..]) else s
  }

  /** `s` without its trailing whitespace. */
  function TrimEnd(s: string): (r: string)
    ensures |r| <= |s|
    ensures r == [] || !IsSpace(r[|r| - 1])
  {
    if s != [] && IsSpace(s[|s| - 1]) then TrimEnd(s[..|s| - 1]) else s
  }

  /** Trailing whitespace is cut from the end only: a non-empty result keeps the first character. */
  lemma {:induction false} TrimEndKeepsFirst(s: string)
    ensures TrimEnd(s) != [] ==> TrimEnd(s)[0] == s[0]
  {
    if s != [] && IsSpace(s[|s| - 1]) {
      TrimEndKeepsFirst(s[..|s| - 1]);
    }
  }

  /** Everything before `i` and from `j` on is whitespace. */
  predicate OnlySpaceOutside(s: string, i: int, j: int)
  {
    && 0 <= i <= j <= |s|
    && (forall k :: 0 <= k < i ==> IsSpace(s[k]))
    && (forall k :: j <= k < |s| ==> IsSpace(s[k]))
  }

  /** `TrimStart` cuts a prefix of whitespace only: `i` characters, all of them spaces. */
  lemma {:induction false} TrimStartCut(s: string) returns (i: nat)
    ensures i <= |s| && TrimStart(s) == s[i..]
    ensures forall k :: 0 <= k < i ==> IsSpace(s[k])
  {
    if s != [] && IsSpace(s[0]) {
      var i' := TrimStartCut(s[1..]);
      i := i' + 1;
      assert s[1..][i'..] == s[i..];
    } else {
      i := 0;
    }
  }

  /** `TrimEnd` cuts a suffix of whitespace only: everything from `j` on, all of it spaces. */
  lemma {:induction false} TrimEndCut(s: string) returns (j: nat)
    ensures j <= |s| && TrimEnd(s) == s[..j]
    ensures forall k :: j <= k < |s| ==> IsSpace(s[k])
  {
    if s != [] && IsSpace(s[|s| - 1]) {
      j := TrimEndCut(s[..|s| - 1]);
      assert s[..|s| - 1][..j] == s[..j];
    } else {
      j := |s|;
    }
  }

  /**
   * `s.trim()`: the middle `s[i..j]` of the string, with only whitespace cut
   * before `i` and after `j`, and no whitespace left at either end.
   */
  function Trim(s: string): (r: string)
    ensures Trimmed(r)
    ensures |r| <= |s|
    ensures exists i, j :: OnlySpaceOutside(s, i, j) && r == s[i..j]
  {
    var a := TrimStart(s);
    TrimEndKeepsFirst(a);
    assert exists i, j :: OnlySpaceOutside(s, i, j) && TrimEnd(a) == s[i..j] by {
      var i := TrimStartCut(s);
      var j := TrimEndCut(a);
      assert a[..j] == s[i..i + j];
      assert forall k :: i + j <= k < |s| ==> s[k] == a[k - i];
      assert OnlySpaceOutside(s, i, i + j);
    }
    TrimEnd(a)
  }

  /** Trimming a string that is already trimmed changes nothing. */
  lemma TrimOfTrimmed(s: string)
    requires Trimmed(s)
    ensures Trim(s) == s
  {
    assert TrimStart(s) == s;
    assert TrimEnd(s) == s;
  }

  /** ASCII `toLowerCase` of one character. */
  function Lower(c: char): char
  {
    if 'A' <= c <= 'Z' then (c as int + 32) as char else c
  }

  /** `s.toLowerCase()` on ASCII letters. */
  function ToLower(s: string): (r: string)
    ensures |r| == |s|
  {
    if s == [] then [] else [Lower(s[0])] + ToLower(s[1..])
  }

  /** Each character of `ToLower(s)` is the lowered character of `s`. */
  lemma {:induction false} ToLowerAt(s: string, k: nat)
    requires k < |s|
    ensures ToLower(s)[k] == Lower(s[k])
  {
    if k > 0 {
      ToLowerAt(s[1..], k - 1);
    }
  }

  /** The schema setters `trim: true, lowercase: true`, applied in that order. */
  function Normalize(s: string): string
  {
    ToLower(Trim(s))
  }

  /** Normalizing twice is normalizing once: a stored key is found by its own value. */
  lemma NormalizeIdempotent(s: string)
    ensures Normalize(Normalize(s)) == Normalize(s)
  {
    var t := Trim(s);
    LowerKeepsTrimmed(t);
    TrimOfTrimmed(ToLower(t));
    ToLowerIdempotent(t);
  }

  /** Lowering a trimmed string leaves it trimmed. */
  lemma LowerKeepsTrimmed(t: string)
    requires Trimmed(t)
    ensures Trimmed(ToLower(t))
  {
    if t != [] {
      ToLowerAt(t, 0);
      ToLowerAt(t, |t| - 1);
      LowerKeepsSpace(t[0]);
      LowerKeepsSpace(t[|t| - 1]);
    }
  }

  /** Lowering a character neither creates nor removes whitespace. */
  lemma LowerKeepsSpace(c: char)
    ensures IsSpace(Lower(c)) <==> IsSpace(c)
  {
  }

  /** Lowering twice is lowering once. */
  lemma {:induction false} ToLowerIdempotent(t: string)
    ensures ToLower(ToLower(t)) == ToLower(t)
  {
    if t != [] {
      ToLowerIdempotent(t[1..]);
      var l := ToLower(t);
      assert l[1..] == ToLower(t[1..]);
      assert l == [Lower(t[0])] + l[1..];
    }
  }
}

=== FILE: json.dfy ===
/**
 * Parsed JSON request values, and the two JavaScript conversions the
 * middleware applies to them: truthiness and string conversion as
 * express-validator performs it. Numbers are integers here.
 */
module Json {
  import opened Wrappers
  import JsString

  datatype Json =
    | Null
    | Bool(b: bool)
    | Num(n: int)
    | Str(s: string)
    | Arr(items: seq<Json>)
    | Obj(fields: map<string, Json>)

  /** JavaScript truthiness of a possibly `undefined` value. */
  predicate Truthy(v: Option<Json>)
  {
    match v
    case None => false
    case Some(Null) => false
    case Some(Bool(b)) => b
    case Some(Num(n)) => n != 0
    case Some(Str(s)) => s != ""
    case Some(_) => true
  }

  /** The decimal digits of a natural number. */
  function Digits(n: nat): (r: string)
    ensures 1 <= |r|
    ensures forall i :: 0 <= i < |r| ==> '0' <= r[i] <= '9'
  {
    var d := [(n % 10) as char + '0'];
    if n < 10 then d else Digits(n / 10) + d
  }

  /** `String(n)` for an integer. */
  function Decimal(n: int): (r: string)
    ensures r != []
    ensures forall i :: 0 < i < |r| ==> '0' <= r[i] <= '9'
  {
    if n < 0 then "-" + Digits(-n) else Digits(n)
  }

  /**
   * The string a standard validator sees: `undefined` and `null` become "",
   * objects "[object Object]", arrays their elements' strings joined by commas.
   */
  function Text(v: Option<Json>): string
  {
    match v
    case None => ""
    case Some(j) => TextOf(j)
  }

  function TextOf(j: Json): string
  {
    match j
    case Null => ""
    case Bool(b) => if b then "true" else "false"
    case Num(n) => Decimal(n)
    case Str(s) => s
    case Obj(_) => "[object Object]"
    case Arr(items) => JsString.Join(seq(|items|, i requires 0 <= i < |items| => TextOf(items[i])), ',')
  }
}

=== FILE: jwt.dfy ===
/**
 * Signed identity tokens (`jsonwebtoken`), kept symbolic. A token records its
 * claims, the key it was signed with, its issue time and its expiry; the
 * clock is an abstract number of seconds passed in by the caller.
 */
module Jwt {
  import opened Wrappers

  /** The natural-key claim: `username` in user tokens, `companyName` in company tokens. */
  datatype Subject = Username(username: string) | CompanyName(companyName: string)

  /** The claims object `{ id, role, <natural key> }` passed to `jwt.sign`. */
  datatype Claims = Claims(id: nat, role: string, subject: Subject)

  /** A signed token. */
  datatype Token = Token(claims: Claims, key: string, iat: int, exp: int)

  /** `expiresIn: '2h'`, in seconds. */
  const ExpiresIn: int := 7200

  /** The error `jsonwebtoken` throws when asked to sign without a key. */
  const MissingKeyMessage: string := "secretOrPrivateKey must have a value"

  /** `jwt.sign(claims, secret, { expiresIn: '2h' })` at time `now`. */
  function Sign(claims: Claims, secret: Option<string>, now: int): (r: Result<Token, string>)
    ensures r.Ok? <==> secret.Some? && secret.value != ""
    ensures r.Ok? ==> r.value.claims == claims && r.value.key == secret.value
    ensures r.Ok? ==> r.value.iat == now && r.value.exp - r.value.iat == ExpiresIn
    ensures r.Err? ==> r.error == MissingKeyMessage
  {
    if secret.None? || secret.value == "" then Err(MissingKeyMessage)
    else Ok(Token(claims, secret.value, now, now + ExpiresIn))
  }

  datatype VerifyError = InvalidSignature | TokenExpired

  /** `jwt.verify(token, secret)` at time `now`: the signature first, then the expiry. */
  function Verify(t: Token, secret: string, now: int): Result<Claims, VerifyError>
  {
    if secret == "" || t.key != secret then Err(InvalidSignature)
    else if now >= t.exp then Err(TokenExpired)
    else Ok(t.claims)
  }

  /**
   * A freshly signed token verifies, under the same key, to exactly the claims
   * it was signed over for two hours, and is expired from then on.
   */
  lemma SignThenVerify(claims: Claims, secret: string, issued: int, now: int)
    requires secret != ""
    requires issued <= now
    ensures Sign(claims, Some(secret), issued).Ok?
    ensures var t := Sign(claims, Some(secret), issued).value;
      Verify(t, secret, now) == if now < issued + ExpiresIn then Ok(claims) else Err(TokenExpired)
  {
  }

  /** A token is rejected under any key other than the one it was signed with. */
  lemma OtherKeyRejected(claims: Claims, secret: string, other: string, issued: int, now: int)
    requires secret != "" && other != secret
    ensures Verify(Sign(claims, Some(secret), issued).value, other, now) == Err(InvalidSignature)
  {
  }
}

=== FILE: pagination.dfy ===
/**
 * The `findAll` paging arithmetic both controllers share:
 * `.limit(limit).skip((page - 1) * limit)` over the matching documents in
 * natural order, and `totalPages: Math.ceil(count / limit)`.
 */
module Pagination {
  import opened Http

  /** The query defaults `page = 1, limit = 10`. */
  const DefaultPage: int := 1
  const DefaultLimit: int := 10

  /** `(page - 1) * limit`: how many matching documents precede the page. */
  function Skip(page: int, limit: int): nat
    requires page >= 1 && limit >= 1
  {
    (page - 1) * limit
  }

  /** The documents of one page: at most `limit` of them, taken in order after the skipped ones. */
  function PageOf<T>(docs: seq<T>, page: int, limit: int): (r: seq<T>)
    requires page >= 1 && limit >= 1
    ensures |r| <= limit
    ensures Skip(page, limit) >= |docs| ==> r == []
    ensures Skip(page, limit) < |docs| ==> |r| == if Skip(page, limit) + limit <= |docs| then limit else |docs| - Skip(page, limit)
    ensures forall i :: 0 <= i < |r| ==> Skip(page, limit) + i < |docs| && r[i] == docs[Skip(page, limit) + i]
  {
    var s := Skip(page, limit);
    if s >= |docs| then [] else docs[s..if s + limit <= |docs| then s + limit else |docs|]
  }

  /** `Math.ceil(count / limit)` on whole numbers. */
  function TotalPages(count: nat, limit: int): nat
    requires limit >= 1
  {
    (count + limit - 1) / limit
  }

  lemma MulMonotone(a: int, b: int, c: int)
    requires a <= b && c >= 0
    ensures a * c <= b * c
  {
    assert b * c - a * c == (b - a) * c;
  }

  /** `TotalPages` is the ceiling: the fewest pages of `limit` that hold `count` documents. */
  lemma TotalPagesIsCeiling(count: nat, limit: int)
    requires limit >= 1
    ensures TotalPages(count, limit) * limit >= count
    ensures count > 0 ==> (TotalPages(count, limit) - 1) * limit < count
    ensures count == 0 <==> TotalPages(count, limit) == 0
  {
    var n := count + limit - 1;
    var t := n / limit;
    var r := n % limit;
    assert n == t * limit + r && 0 <= r < limit;
    assert (t - 1) * limit == t * limit - limit;
    if count == 0 {
      assert t == 0;
    } else {
      assert t * limit >= count;
    }
  }

  /**
   * Paging covers the collection: the document at position `i` appears on
   * page `i / limit + 1`, which is within `1..TotalPages`, at offset `i % limit`.
   */
  lemma {:induction false} EveryDocumentOnAPage<T>(docs: seq<T>, limit: int, i: nat)
    requires limit >= 1 && i < |docs|
    ensures i / limit + 1 <= TotalPages(|docs|, limit)
    ensures i % limit < |PageOf(docs, i / limit + 1, limit)|
    ensures PageOf(docs, i / limit + 1, limit)[i % limit] == docs[i]
  {
    var q := i / limit;
    var m := i % limit;
    assert i == q * limit + m && 0 <= m < limit;
    assert Skip(q + 1, limit) == q * limit;
    PageWithinTotal(|docs|, limit, q);
    PageAt(docs, q + 1, limit, m);
  }

  lemma PageWithinTotal(n: nat, limit: int, q: nat)
    requires limit >= 1 && q * limit < n
    ensures q + 1 <= TotalPages(n, limit)
  {
    TotalPagesIsCeiling(n, limit);
    if q >= TotalPages(n, limit) {
      MulMonotone(TotalPages(n, limit), q, limit);
    }
  }

  lemma PageAt<T>(docs: seq<T>, page: int, limit: int, m: int)
    requires page >= 1 && limit >= 1 && 0 <= m < limit && Skip(page, limit) + m < |docs|
    ensures m < |PageOf(docs, page, limit)| && PageOf(docs, page, limit)[m] == docs[Skip(page, limit) + m]
  {
  }

  /** A page past `TotalPages` is empty. */
  lemma PastLastPageIsEmpty<T>(docs: seq<T>, page: int, limit: int)
    requires page >= 1 && limit >= 1 && page > TotalPages(|docs|, limit)
    ensures PageOf(docs, page, limit) == []
  {
    TotalPagesIsCeiling(|docs|, limit);
    MulMonotone(TotalPages(|docs|, limit), page - 1, limit);
  }

  /** A page within `1..TotalPages` starts before the end of the matches, so it is not empty. */
  lemma NonEmptyPage(count: nat, page: int, limit: int)
    requires page >= 1 && limit >= 1
    ensures page <= TotalPages(count, limit) ==> Skip(page, limit) < count
  {
    TotalPagesIsCeiling(count, limit);
    if page <= TotalPages(count, limit) {
      MulMonotone(page, TotalPages(count, limit), limit);
      assert (page - 1) * limit == page * limit - limit;
      assert (TotalPages(count, limit) - 1) * limit == TotalPages(count, limit) * limit - limit;
    }
  }

  /**
   * The `findAll` response over the matching documents: status 200, the
   * requested page of them, the page count, and the page number echoed back.
   */
  function PageResponse<D>(matching: seq<D>, page: int, limit: int): (r: Response<D>)
    requires page >= 1 && limit >= 1
    ensures r.status == 200 && r.body.Page?
    ensures r.body.currentPage == page
    ensures r.body.docs == PageOf(matching, page, limit)
    ensures r.body.totalPages == TotalPages(|matching|, limit)
    ensures |r.body.docs| <= limit
    ensures r.body.totalPages * limit >= |matching|
    ensures |matching| > 0 ==> (r.body.totalPages - 1) * limit < |matching|
    ensures page <= r.body.totalPages ==> r.body.docs != []
    ensures page > r.body.totalPages ==> r.body.docs == []
    ensures forall d :: d in r.body.docs ==> d in matching
  {
    var docs := PageOf(matching, page, limit);
    TotalPagesIsCeiling(|matching|, limit);
    NonEmptyPage(|matching|, page, limit);
    assert page > TotalPages(|matching|, limit) ==> docs == [] by {
      if page > TotalPages(|matching|, limit) {
        PastLastPageIsEmpty(matching, page, limit);
      }
    }
    assert forall d :: d in docs ==> d in matching;
    Response(200, Page(docs, TotalPages(|matching|, limit), page))
  }
}

=== FILE: query_string.dfy ===
/**
 * The query part of a request URL, between `?` and any `#`. The browser
 * never sends the fragment from `#` on. Express's default query parser
 * splits what arrives at `&`, ends each key at its first `=`, and reads
 * `+` as a space. Numbers travel as their decimal text.
 */
module QueryString {
  import opened Wrappers
  import JsString

  /** What the browser sends of a query: the text before the first `#`. */
  function BeforeFragment(s: string): (r: string)
    ensures r <= s
    ensures '#' !in r
    ensures '#' !in s ==> r == s
    ensures |r| < |s| ==> s[|r|] == '#'
  {
    if s == [] || s[0] == '#' then [] else [s[0]] + BeforeFragment(s[1..])
  }

  /** Everything from the first `#` on is cut. */
  lemma {:induction false} BeforeFragmentAt(a: string, b: string)
    requires '#' !in a
    ensures BeforeFragment(a + "#" + b) == a
  {
    if a == [] {
      assert (a + "#" + b)[0] == '#';
    } else {
      assert (a + "#" + b)[0] == a[0];
      assert (a + "#" + b)[1..] == a[1..] + "#" + b;
      BeforeFragmentAt(a[1..], b);
    }
  }

  /** A key or value as the parser decodes it: every `+` becomes a space. */
  function PlusAsSpace(s: string): (r: string)
    ensures |r| == |s|
    ensures '+' !in r
    ensures '+' !in s ==> r == s
  {
    if s == [] then [] else [if s[0] == '+' then ' ' else s[0]] + PlusAsSpace(s[1..])
  }

  /** How long the key of a parameter is: up to its first `=`, or all of it. */
  function KeyLength(field: string): (n: nat)
    ensures n <= |field|
    ensures '=' !in field[..n]
    ensures n < |field| ==> field[n] == '='
  {
    if field == [] || field[0] == '=' then 0
    else
      var m := KeyLength(field[1..]);
      assert field[..m + 1] == [field[0]] + field[1..][..m];
      m + 1
  }

  /** One parameter `key=value`; a parameter without `=` has the empty value. */
  function Param(field: string): (string, string)
  {
    var n := KeyLength(field);
    (PlusAsSpace(field[..n]), if n < |field| then PlusAsSpace(field[n + 1..]) else "")
  }

  /** The key of `k=v` is `k` when `k` holds no `=` or `+`, and everything after that `=` is the value. */
  lemma {:induction false} ParamOf(k: string, v: string)
    requires '=' !in k && '+' !in k
    ensures Param(k + "=" + v) == (k, PlusAsSpace(v))
  {
    KeyLengthOf(k, v);
    var f := k + "=" + v;
    assert f[..|k|] == k;
    assert f[|k| + 1..] == v;
  }

  lemma {:induction false} KeyLengthOf(k: string, v: string)
    requires '=' !in k
    ensures KeyLength(k + "=" + v) == |k|
  {
    if k != [] {
      assert (k + "=" + v)[0] == k[0];
      assert (k + "=" + v)[1..] == k[1..] + "=" + v;
      KeyLengthOf(k[1..], v);
    }
  }

  /** The parameters of a query string, in order. */
  function Params(query: string): (r: seq<(string, string)>)
    ensures |r| == |JsString.Split(BeforeFragment(query), '&')|
    ensures forall i :: 0 <= i < |r| ==> r[i] == Param(JsString.Split(BeforeFragment(query), '&')[i])
  {
    var fields := JsString.Split(BeforeFragment(query), '&');
    seq(|fields|, i requires 0 <= i < |fields| => Param(fields[i]))
  }

  /** A field with no `&` or `#` in it is a query of one parameter. */
  lemma OneParam(f: string)
    requires '&' !in f && '#' !in f
    ensures Params(f) == [Param(f)]
  {
    JsString.JoinSplit(f, '&');
  }

  /** A field with no `&` or `#` followed by `&` is the first parameter of the query. */
  lemma ParamsAfterField(f: string, rest: string)
    requires '&' !in f && '#' !in f && '#' !in rest
    ensures Params(f + "&" + rest) == [Param(f)] + Params(rest)
  {
    var q := f + "&" + rest;
    assert '#' !in q;
    JsString.SplitAfterPrefix(f, '&', rest);
    assert JsString.Split(q, '&') == [f] + JsString.Split(rest, '&');
  }

  /** `k=v` with no `&` or `#` in it is the one parameter `(k, v)`. */
  lemma OneParamOf(k: string, v: string)
    requires '=' !in k && '+' !in k && '&' !in k && '#' !in k && '&' !in v && '#' !in v
    ensures Params(k + "=" + v) == [(k, PlusAsSpace(v))]
  {
    var f := k + "=" + v;
    assert '&' !in f && '#' !in f;
    OneParam(f);
    ParamOf(k, v);
  }

  /** `k1=v1&k2=v2` with no further `&` or `#` is the two parameters `(k1, v1)` and `(k2, v2)`. */
  lemma TwoParamsOf(k1: string, v1: string, k2: string, v2: string)
    requires '=' !in k1 && '+' !in k1 && '&' !in k1 && '#' !in k1 && '&' !in v1 && '#' !in v1
    requires '=' !in k2 && '+' !in k2 && '&' !in k2 && '#' !in k2 && '&' !in v2 && '#' !in v2
    ensures Params(k1 + "=" + v1 + "&" + k2 + "=" + v2) == [(k1, PlusAsSpace(v1)), (k2, PlusAsSpace(v2))]
  {
    var f1, f2 := k1 + "=" + v1, k2 + "=" + v2;
    assert k1 + "=" + v1 + "&" + k2 + "=" + v2 == f1 + "&" + f2;
    assert '&' !in f1 && '#' !in f1 && '#' !in f2;
    ParamsAfterField(f1, f2);
    OneParamOf(k2, v2);
    ParamOf(k1, v1);
  }

  /** The value of the first parameter named `key`, if there is one. */
  function Lookup(params: seq<(string, string)>, key: string): (r: Option<string>)
    ensures r.None? <==> forall i :: 0 <= i < |params| ==> params[i].0 != key
    ensures r.Some? ==> (key, r.value) in params
  {
    if params == [] then None
    else if params[0].0 == key then Some(params[0].1)
    else
      var r := Lookup(params[1..], key);
      assert forall i :: 1 <= i < |params| ==> params[i] == params[1..][i - 1];
      r
  }

  predicate IsDigit(c: char)
  {
    '0' <= c <= '9'
  }

  predicate AllDigits(s: string)
  {
    forall i :: 0 <= i < |s| ==> IsDigit(s[i])
  }

  /** The decimal digits of `n`, most significant first, with no leading zero. */
  function Digits(n: nat): (r: string)
    ensures r != [] && AllDigits(r)
    ensures |r| > 1 ==> r[0] != '0'
  {
    var d := [('0' as int + n % 10) as char];
    if n < 10 then d else Digits(n / 10) + d
  }

  /** The number a string of decimal digits denotes. */
  function DigitsValue(s: string): nat
    requires AllDigits(s)
  {
    if s == [] then 0 else 10 * DigitsValue(s[..|s| - 1]) + (s[|s| - 1] as int - '0' as int)
  }

  /** Reading the digits of `n` gives `n` back. */
  lemma {:induction false} DigitsValueOfDigits(n: nat)
    ensures DigitsValue(Digits(n)) == n
  {
    if n >= 10 {
      var s := Digits(n);
      assert s[..|s| - 1] == Digits(n / 10);
      DigitsValueOfDigits(n / 10);
    }
  }

  /** `${i}` for an integer `i`. */
  function Decimal(i: int): (r: string)
    ensures '&' !in r && '#' !in r && '=' !in r && '+' !in r
  {
    if i < 0 then "-" + Digits(-i) else Digits(i)
  }

  /** An optional minus sign followed by at least one decimal digit. */
  predicate IsInteger(s: string)
  {
    if s != [] && s[0] == '-' then s[1..] != [] && AllDigits(s[1..]) else s != [] && AllDigits(s)
  }

  /** The integer such a string denotes. */
  function IntegerValue(s: string): int
    requires IsInteger(s)
  {
    if s[0] == '-' then -(DigitsValue(s[1..]) as int) else DigitsValue(s)
  }

  /** Reading `${i}` back gives `i`. */
  lemma DecimalRoundTrip(i: int)
    ensures IsInteger(Decimal(i)) && IntegerValue(Decimal(i)) == i
  {
    if i < 0 {
      assert Decimal(i)[1..] == Digits(-i);
      DigitsValueOfDigits(-i);
    } else {
      DigitsValueOfDigits(i);
    }
  }
}

=== FILE: request_validation.dfy ===
/**
 * The parts of express-validator the rule sets use: validation chains over
 * a body field or a route parameter, each a list of checks with the message
 * `withMessage` attached to it, run in order and reporting every failing
 * check; and the `validate` middleware that turns a non-empty error list
 * into a 422 response.
 */
module RequestValidation {
  import opened Wrappers
  import opened Json

  datatype Location = BodyField | RouteParam

  /** One validator of a chain. */
  datatype Check =
    | IsString                      // `isString()`: the raw value is a string
    | IsLength(min: nat, max: Option<nat>)
    | NotEmpty
    | IsEmail                       // `isEmail()`
    | IsObject                      // `isObject()`: a plain object, not null, not an array
    | IsArray                       // `isArray()`

  /** A validator and the message reported when it fails. */
  datatype Step = Step(check: Check, message: string)

  /** `body(field)` or `param(field)`, possibly `.optional()`, followed by its validators. */
  datatype Chain = Chain(location: Location, field: string, optional: bool, steps: seq<Step>)

  /** One element of `validationResult(req).array()`. */
  datatype FieldError = FieldError(location: Location, path: string, msg: string)

  /** What the chains read: the parsed JSON body and the route parameters. */
  datatype Request = Request(body: map<string, Json>, params: map<string, string>)

  /** The message of a validator without `withMessage`. */
  const DefaultMessage: string := "Invalid value"

  /** The value a chain reads, `undefined` when absent. */
  function Lookup(req: Request, location: Location, field: string): Option<Json>
  {
    match location
    case BodyField => if field in req.body then Some(req.body[field]) else None
    case RouteParam => if field in req.params then Some(Str(req.params[field])) else None
  }

  /** The strings the string-based validators test: each element of an array, otherwise the value's string. */
  function Texts(v: Option<Json>): (r: seq<string>)
    ensures !(v.Some? && v.value.Arr?) ==> r == [Text(v)]
    ensures v.Some? && v.value.Arr? ==> |r| == |v.value.items|
  {
    if v.Some? && v.value.Arr? then seq(|v.value.items|, i requires 0 <= i < |v.value.items| => TextOf(v.value.items[i]))
    else [Text(v)]
  }

  /** Whether a string-based validator accepts one string; `isEmail` stands for validator.js's address test. */
  predicate TextPasses(c: Check, t: string, isEmail: string -> bool)
  {
    match c
    case IsLength(min, max) => min <= |t| && (max.None? || |t| <= max.value)
    case NotEmpty => t != ""
    case IsEmail => isEmail(t)
    case _ => true
  }

  /** Whether a validator accepts the value. */
  predicate Passes(c: Check, v: Option<Json>, isEmail: string -> bool)
  {
    match c
    case IsString => v.Some? && v.value.Str?
    case IsObject => v.Some? && v.value.Obj?
    case IsArray => v.Some? && v.value.Arr?
    case _ =>
      if v.Some? && v.value.Arr? then forall i :: 0 <= i < |v.value.items| ==> TextPasses(c, TextOf(v.value.items[i]), isEmail)
      else TextPasses(c, Text(v), isEmail)
  }

  /** A string-based validator accepts a value exactly when it accepts every string in `Texts`. */
  lemma PassesEveryText(c: Check, v: Option<Json>, isEmail: string -> bool)
    requires c.IsLength? || c.NotEmpty? || c.IsEmail?
    ensures Passes(c, v, isEmail) <==> forall t :: t in Texts(v) ==> TextPasses(c, t, isEmail)
  {
    if v.Some? && v.value.Arr? {
      var ts := Texts(v);
      assert forall i :: 0 <= i < |ts| ==> ts[i] == TextOf(v.value.items[i]);
    }
  }

  /** The errors of a chain's validators, in order, against the value read. */
  function StepErrors(location: Location, field: string, steps: seq<Step>, v: Option<Json>, isEmail: string -> bool): (errs: seq<FieldError>)
    ensures errs == [] <==> forall i :: 0 <= i < |steps| ==> Passes(steps[i].check, v, isEmail)
    ensures |errs| <= |steps|
    ensures forall e :: e in errs ==>
      && e.location == location && e.path == field
      && exists i :: 0 <= i < |steps| && steps[i].message == e.msg && !Passes(steps[i].check, v, isEmail)
    ensures forall i :: 0 <= i < |steps| && !Passes(steps[i].check, v, isEmail) ==> FieldError(location, field, steps[i].message) in errs
  {
    if steps == [] then []
    else
      var rest := StepErrors(location, field, steps[1..], v, isEmail);
      assert forall i :: 1 <= i < |steps| ==> steps[i] == steps[1..][i - 1];
      if Passes(steps[0].check, v, isEmail) then rest
      else [FieldError(location, field, steps[0].message)] + rest
  }

  /** One chain: skipped entirely when optional and the value is `undefined`. */
  function ChainErrors(c: Chain, req: Request, isEmail: string -> bool): (errs: seq<FieldError>)
    ensures c.optional && Lookup(req, c.location, c.field).None? ==> errs == []
    ensures !(c.optional && Lookup(req, c.location, c.field).None?) ==>
      errs == StepErrors(c.location, c.field, c.steps, Lookup(req, c.location, c.field), isEmail)
  {
    var v := Lookup(req, c.location, c.field);
    if c.optional && v.None? then [] else StepErrors(c.location, c.field, c.steps, v, isEmail)
  }

  /** Whether a chain reports nothing. */
  predicate ChainPasses(c: Chain, req: Request, isEmail: string -> bool)
  {
    var v := Lookup(req, c.location, c.field);
    (c.optional && v.None?) || forall i :: 0 <= i < |c.steps| ==> Passes(c.steps[i].check, v, isEmail)
  }

  /** All chains of a rule set, their errors concatenated in order. */
  function Errors(chains: seq<Chain>, req: Request, isEmail: string -> bool): (errs: seq<FieldError>)
    ensures errs == [] <==> forall i :: 0 <= i < |chains| ==> ChainPasses(chains[i], req, isEmail)
    ensures forall i, e :: 0 <= i < |chains| && e in ChainErrors(chains[i], req, isEmail) ==> e in errs
    ensures forall e :: e in errs ==> exists i :: 0 <= i < |chains| && e in ChainErrors(chains[i], req, isEmail)
  {
    if chains == [] then []
    else
      var rest := Errors(chains[1..], req, isEmail);
      ErrorsCons(chains, req, isEmail, rest);
      ChainErrors(chains[0], req, isEmail) + rest
  }

  /** The properties of `Errors` carry over from the tail to the whole list. */
  lemma ErrorsCons(chains: seq<Chain>, req: Request, isEmail: string -> bool, rest: seq<FieldError>)
    requires chains != []
    requires rest == [] <==> forall i :: 0 <= i < |chains[1..]| ==> ChainPasses(chains[1..][i], req, isEmail)
    requires forall i, e :: 0 <= i < |chains[1..]| && e in ChainErrors(chains[1..][i], req, isEmail) ==> e in rest
    requires forall e :: e in rest ==> exists i :: 0 <= i < |chains[1..]| && e in ChainErrors(chains[1..][i], req, isEmail)
    ensures var errs := ChainErrors(chains[0], req, isEmail) + rest;
      && (errs == [] <==> forall i :: 0 <= i < |chains| ==> ChainPasses(chains[i], req, isEmail))
      && (forall i, e :: 0 <= i < |chains| && e in ChainErrors(chains[i], req, isEmail) ==> e in errs)
      && (forall e :: e in errs ==> exists i :: 0 <= i < |chains| && e in ChainErrors(chains[i], req, isEmail))
  {
    var first := ChainErrors(chains[0], req, isEmail);
    var errs := first + rest;
    assert forall i :: 1 <= i < |chains| ==> chains[i] == chains[1..][i - 1];
    assert errs == [] <==> forall i :: 0 <= i < |chains| ==> ChainPasses(chains[i], req, isEmail) by {
      ChainErrorsEmpty(chains[0], req, isEmail);
    }
    forall i, e | 0 <= i < |chains| && e in ChainErrors(chains[i], req, isEmail)
      ensures e in errs
    {
      if i > 0 {
        assert chains[i] == chains[1..][i - 1];
      }
    }
    forall e | e in errs
      ensures exists i :: 0 <= i < |chains| && e in ChainErrors(chains[i], req, isEmail)
    {
      if e !in first {
        var j :| 0 <= j < |chains[1..]| && e in ChainErrors(chains[1..][j], req, isEmail);
        assert chains[j + 1] == chains[1..][j];
      }
    }
  }

  /** A chain reports nothing exactly when it passes. */
  lemma ChainErrorsEmpty(c: Chain, req: Request, isEmail: string -> bool)
    ensures ChainErrors(c, req, isEmail) == [] <==> ChainPasses(c, req, isEmail)
  {
  }

  /** The body field is a string whose length lies in `min..max`. */
  predicate StringField(req: Request, field: string, min: nat, max: nat)
  {
    field in req.body && req.body[field].Str? && min <= |req.body[field].s| <= max
  }

  /** Every string the email checks see in the body field is a non-empty address. */
  predicate EmailField(req: Request, field: string, isEmail: string -> bool)
  {
    forall t :: t in Texts(Lookup(req, BodyField, field)) ==> t != "" && isEmail(t)
  }

  /**
   * A mandatory chain `isString().isLength({min, max}).notEmpty()` accepts
   * exactly a string whose length is between `lo` and `max`.
   */
  lemma StringSteps(c: Chain, req: Request, isEmail: string -> bool, lo: nat, max: nat)
    requires c.location == BodyField && !c.optional && |c.steps| == 3
    requires c.steps[0].check == IsString && c.steps[2].check == NotEmpty
    requires c.steps[1].check.IsLength? && c.steps[1].check.max == Some(max)
    requires lo == if c.steps[1].check.min == 0 then 1 else c.steps[1].check.min
    ensures ChainPasses(c, req, isEmail) <==> StringField(req, c.field, lo, max)
  {
    var v := Lookup(req, BodyField, c.field);
    if v.Some? && v.value.Str? {
      assert ChainPasses(c, req, isEmail) <==>
        Passes(c.steps[0].check, v, isEmail) && Passes(c.steps[1].check, v, isEmail) && Passes(c.steps[2].check, v, isEmail);
    } else {
      assert !Passes(c.steps[0].check, v, isEmail);
    }
  }

  /**
   * An optional chain `isString().isLength({min, max})` accepts an absent
   * field or a string whose length is between `min` and `max`.
   */
  lemma OptionalStringSteps(c: Chain, req: Request, isEmail: string -> bool, min: nat, max: nat)
    requires c.location == BodyField && c.optional && |c.steps| == 2
    requires c.steps[0].check == IsString && c.steps[1].check == IsLength(min, Some(max))
    ensures ChainPasses(c, req, isEmail) <==> (c.field in req.body ==> StringField(req, c.field, min, max))
  {
    var v := Lookup(req, BodyField, c.field);
    if v.Some? && v.value.Str? {
      assert ChainPasses(c, req, isEmail) <==> Passes(c.steps[0].check, v, isEmail) && Passes(c.steps[1].check, v, isEmail);
    } else if v.Some? {
      assert !Passes(c.steps[0].check, v, isEmail);
    }
  }

  /**
   * A mandatory chain `isEmail().notEmpty()` on a body field accepts
   * exactly a field whose every string is a non-empty address.
   */
  lemma EmailSteps(c: Chain, req: Request, isEmail: string -> bool)
    requires c.location == BodyField && !c.optional && |c.steps| == 2
    requires c.steps[0].check == IsEmail && c.steps[1].check == NotEmpty
    ensures ChainPasses(c, req, isEmail) <==> EmailField(req, c.field, isEmail)
  {
    var v := Lookup(req, BodyField, c.field);
    PassesEveryText(IsEmail, v, isEmail);
    PassesEveryText(NotEmpty, v, isEmail);
    assert ChainPasses(c, req, isEmail) <==> Passes(c.steps[0].check, v, isEmail) && Passes(c.steps[1].check, v, isEmail);
  }

  /** A rule set of three chains reports nothing exactly when each of the three passes. */
  lemma AllPassThree(chains: seq<Chain>, req: Request, isEmail: string -> bool)
    requires |chains| == 3
    ensures Errors(chains, req, isEmail) == [] <==>
      ChainPasses(chains[0], req, isEmail) && ChainPasses(chains[1], req, isEmail) && ChainPasses(chains[2], req, isEmail)
  {
    assert (forall i :: 0 <= i < |chains| ==> ChainPasses(chains[i], req, isEmail)) <==>
      ChainPasses(chains[0], req, isEmail) && ChainPasses(chains[1], req, isEmail) && ChainPasses(chains[2], req, isEmail);
  }

  /** A rule set of five chains reports nothing exactly when each of the five passes. */
  lemma AllPassFive(chains: seq<Chain>, req: Request, isEmail: string -> bool)
    requires |chains| == 5
    ensures Errors(chains, req, isEmail) == [] <==>
      && ChainPasses(chains[0], req, isEmail) && ChainPasses(chains[1], req, isEmail) && ChainPasses(chains[2], req, isEmail)
      && ChainPasses(chains[3], req, isEmail) && ChainPasses(chains[4], req, isEmail)
  {
    assert (forall i :: 0 <= i < |chains| ==> ChainPasses(chains[i], req, isEmail)) <==>
      && ChainPasses(chains[0], req, isEmail) && ChainPasses(chains[1], req, isEmail) && ChainPasses(chains[2], req, isEmail)
      && ChainPasses(chains[3], req, isEmail) && ChainPasses(chains[4], req, isEmail);
  }

  /** The value is a non-empty string. */
  predicate NonEmptyString(v: Option<Json>)
  {
    v.Some? && v.value.Str? && v.value.s != ""
  }

  /** A mandatory chain `isString().notEmpty()` accepts exactly a non-empty string, in the body or the route. */
  lemma NonEmptyStringSteps(c: Chain, req: Request, isEmail: string -> bool)
    requires !c.optional && |c.steps| == 2 && c.steps[0].check == IsString && c.steps[1].check == NotEmpty
    ensures ChainPasses(c, req, isEmail) <==> NonEmptyString(Lookup(req, c.location, c.field))
  {
    var v := Lookup(req, c.location, c.field);
    if v.Some? && v.value.Str? {
      assert ChainPasses(c, req, isEmail) <==> Passes(c.steps[0].check, v, isEmail) && Passes(c.steps[1].check, v, isEmail);
    } else {
      assert !Passes(c.steps[0].check, v, isEmail);
    }
  }

  /** An optional chain with the single validator `check` accepts an absent value or one `check` accepts. */
  lemma OptionalSingleStep(c: Chain, req: Request, isEmail: string -> bool)
    requires c.optional && |c.steps| == 1
    ensures ChainPasses(c, req, isEmail) <==>
      var v := Lookup(req, c.location, c.field); v.None? || Passes(c.steps[0].check, v, isEmail)
  {
  }

  /** How the `validate` middleware ends: `next()`, or a 422 with every error. */
  datatype Verdict = Proceed | Unprocessable(status: int, errors: seq<FieldError>)

  function Validate(errs: seq<FieldError>): (v: Verdict)
    ensures v == Proceed <==> errs == []
    ensures v.Unprocessable? ==> v.status == 422 && v.errors == errs
  {
    if errs == [] then Proceed else Unprocessable(422, errs)
  }
}

=== FILE: router.dfy ===
/**
 * Express routing as the two route files use it: a table of routes, each a
 * verb, a path pattern and a list of middleware stages; the first route
 * whose verb and pattern match serves the request, and its stages run in
 * order until one of them answers or the handler is reached.
 */
module Router {
  import opened Wrappers
  import opened Jwt
  import Authorize
  import opened RequestValidation
  import Json

  datatype Verb = GET | POST | PUT | DELETE

  /** A path segment of a pattern: literal text, or `:name`, which matches any non-empty segment. */
  datatype Segment = Lit(text: string) | Param(name: string)

  /** The controller function a route ends in. */
  datatype Action = Register | Authenticate | FindAll | FindOne | Create | Update | Delete

  /** One middleware of a route. */
  datatype Stage =
    | Guard(arg: Authorize.RoleArg)   // `authorize(arg)`
    | Checks(chains: seq<Chain>)     // the chains of a `...ValidationRules(method)` list
    | ValidateStage                   // `validate`
    | Handle(action: Action)          // the controller function

  datatype Route = Route(verb: Verb, pattern: seq<Segment>, stages: seq<Stage>)

  /** How a request ends. */
  datatype Outcome =
    | Denied(status: int, message: string)
    | Invalid(status: int, errors: seq<FieldError>)
    | Reached(action: Action, user: Option<Claims>, params: map<string, string>)
    | NoRoute

  /** The route parameters when the path (split into segments) matches the pattern. */
  function Match(pattern: seq<Segment>, path: seq<string>): (r: Option<map<string, string>>)
    ensures r.Some? ==> |path| == |pattern|
    ensures r.Some? ==> forall i :: 0 <= i < |pattern| && pattern[i].Lit? ==> path[i] == pattern[i].text
    ensures r.Some? ==> forall i :: 0 <= i < |pattern| && pattern[i].Param? ==> path[i] != ""
  {
    if |pattern| != |path| then None
    else if pattern == [] then Some(map[])
    else
      var rest := Match(pattern[1..], path[1..]);
      assert forall i :: 1 <= i < |pattern| ==> pattern[i] == pattern[1..][i - 1] && path[i] == path[1..][i - 1];
      if rest.None? then None
      else if pattern[0].Lit? then (if path[0] == pattern[0].text then rest else None)
      else if path[0] != "" then Some(rest.value[pattern[0].name := path[0]])
      else None
  }

  /** Whether route `r` serves a request. */
  predicate Serves(r: Route, verb: Verb, path: seq<string>)
  {
    r.verb == verb && Match(r.pattern, path).Some?
  }

  /** The index of the first route that serves the request. */
  function Dispatch(table: seq<Route>, verb: Verb, path: seq<string>): (r: Option<nat>)
    ensures r.None? <==> forall i :: 0 <= i < |table| ==> !Serves(table[i], verb, path)
    ensures r.Some? ==> r.value < |table| && Serves(table[r.value], verb, path)
    ensures r.Some? ==> forall j :: 0 <= j < r.value ==> !Serves(table[j], verb, path)
  {
    if table == [] then None
    else if Serves(table[0], verb, path) then Some(0)
    else
      match Dispatch(table[1..], verb, path)
      case None =>
        assert forall i :: 1 <= i < |table| ==> table[i] == table[1..][i - 1];
        None
      case Some(i) => Some(i + 1)
  }

  /**
   * The stages of the matched route, run in order with the request's
   * Authorization header, body and parameters. `verify` stands for
   * `jwt.verify` under the process secret and the current time.
   */
  function Run(stages: seq<Stage>, header: Option<string>, req: Request, verify: string -> Option<Claims>, isEmail: string -> bool,
               user: Option<Claims>, errs: seq<FieldError>): Outcome
    decreases |stages|
  {
    if stages == [] then NoRoute
    else
      match stages[0]
      case Guard(arg) =>
        (match Authorize.Check(arg, header, verify)
         case Deny(s, m) => Denied(s, m)
         case Pass(u) => Run(stages[1..], header, req, verify, isEmail, Some(u), errs))
      case Checks(chains) => Run(stages[1..], header, req, verify, isEmail, user, errs + Errors(chains, req, isEmail))
      case ValidateStage =>
        (match Validate(errs)
         case Unprocessable(s, e) => Invalid(s, e)
         case Proceed => Run(stages[1..], header, req, verify, isEmail, user, errs))
      case Handle(a) => Reached(a, user, req.params)
  }

  /** A request served by a table: dispatch, then run the matched route with no user and no errors yet. */
  function Serve(table: seq<Route>, verb: Verb, path: seq<string>, header: Option<string>, body: map<string, Json.Json>,
                 verify: string -> Option<Claims>, isEmail: string -> bool): (o: Outcome)
    ensures Dispatch(table, verb, path).None? <==> o == NoRoute && forall i :: 0 <= i < |table| ==> !Serves(table[i], verb, path)
  {
    match Dispatch(table, verb, path)
    case None => NoRoute
    case Some(i) =>
      var params := Match(table[i].pattern, path).value;
      Run(table[i].stages, header, Request(body, params), verify, isEmail, None, [])
  }

  /** A route with the same verb and pattern as an earlier one never serves a request. */
  lemma Shadowed(table: seq<Route>, j: nat, i: nat, verb: Verb, path: seq<string>)
    requires j < i < |table|
    requires table[j].verb == table[i].verb && table[j].pattern == table[i].pattern
    ensures Dispatch(table, verb, path) != Some(i)
  {
    assert Serves(table[j], verb, path) == Serves(table[i], verb, path);
  }

  /** A route of the single stage `Handle(a)` reaches its handler with no user, whatever the header. */
  lemma PublicRoute(a: Action, header: Option<string>, req: Request, verify: string -> Option<Claims>, isEmail: string -> bool)
    ensures Run([Handle(a)], header, req, verify, isEmail, None, []) == Reached(a, None, req.params)
  {
  }

  /**
   * A route beginning with `authorize(arg)` answers with the middleware's
   * denial whatever follows; on a pass, the rest runs with `req.user` set to
   * the verified claims.
   */
  lemma GuardFirst(arg: Authorize.RoleArg, rest: seq<Stage>, header: Option<string>, req: Request, verify: string -> Option<Claims>, isEmail: string -> bool)
    ensures var d := Authorize.Check(arg, header, verify);
      Run([Guard(arg)] + rest, header, req, verify, isEmail, None, []) ==
        if d.Deny? then Denied(d.status, d.message) else Run(rest, header, req, verify, isEmail, Some(d.user), [])
  {
    assert ([Guard(arg)] + rest)[1..] == rest;
  }

  /** A route that serves the request, with none before it that does, is the one dispatched. */
  lemma DispatchTo(table: seq<Route>, verb: Verb, path: seq<string>, k: nat)
    requires k < |table| && Serves(table[k], verb, path)
    requires forall j :: 0 <= j < k ==> !Serves(table[j], verb, path)
    ensures Dispatch(table, verb, path) == Some(k)
  {
    var d := Dispatch(table, verb, path);
    assert d.Some?;
    assert d.value <= k;
  }

  /** A single `:name` pattern matches a non-empty segment and binds it. */
  lemma MatchParam(name: string, segment: string)
    requires segment != ""
    ensures Match([Param(name)], [segment]) == Some(map[name := segment])
  {
    assert [Param(name)][1..] == [] && [segment][1..] == [];
  }

  /** A dispatched route runs its stages on the parameters its pattern binds. */
  lemma ServeRoute(table: seq<Route>, verb: Verb, path: seq<string>, header: Option<string>, body: map<string, Json.Json>,
                   verify: string -> Option<Claims>, isEmail: string -> bool, k: nat, params: map<string, string>)
    requires Dispatch(table, verb, path) == Some(k)
    requires Match(table[k].pattern, path) == Some(params)
    ensures Serve(table, verb, path, header, body, verify, isEmail) == Run(table[k].stages, header, Request(body, params), verify, isEmail, None, [])
  {
  }

  /** The outcome of the stages `authorize(allowed)` and the handler `a`. */
  function Guarded(allowed: seq<string>, a: Action, header: Option<string>, params: map<string, string>, verify: string -> Option<Claims>): (o: Outcome)
    ensures o.Reached? <==> Authorize.Check(Authorize.RoleList(allowed), header, verify).Pass?
    ensures o.Reached? ==>
      && o.action == a && o.params == params
      && o.user == Some(Authorize.Check(Authorize.RoleList(allowed), header, verify).user)
  {
    match Authorize.Check(Authorize.RoleList(allowed), header, verify)
    case Deny(s, m) => Denied(s, m)
    case Pass(u) => Reached(a, Some(u), params)
  }

  /** A guarded route with no validation runs as `Guarded` says. */
  lemma GuardedRoute(allowed: seq<string>, a: Action, header: Option<string>, req: Request, verify: string -> Option<Claims>, isEmail: string -> bool)
    ensures Run([Guard(Authorize.RoleList(allowed)), Handle(a)], header, req, verify, isEmail, None, []) ==
      Guarded(allowed, a, header, req.params, verify)
  {
    assert [Guard(Authorize.RoleList(allowed)), Handle(a)][1..] == [Handle(a)];
  }

  /**
   * A guarded route with validation: the guard's denial first; then a 422
   * with every rule error; only then the handler, with the verified user.
   */
  lemma ValidatedRoute(allowed: seq<string>, chains: seq<Chain>, a: Action, header: Option<string>, req: Request, verify: string -> Option<Claims>, isEmail: string -> bool)
    ensures var o := Run([Guard(Authorize.RoleList(allowed)), Checks(chains), ValidateStage, Handle(a)], header, req, verify, isEmail, None, []);
      var d := Authorize.Check(Authorize.RoleList(allowed), header, verify);
      var errs := Errors(chains, req, isEmail);
      && (d.Deny? ==> o == Denied(d.status, d.message))
      && (d.Pass? && errs != [] ==> o == Invalid(422, errs))
      && (d.Pass? && errs == [] ==> o == Reached(a, Some(d.user), req.params))
  {
    var stages := [Guard(Authorize.RoleList(allowed)), Checks(chains), ValidateStage, Handle(a)];
    var d := Authorize.Check(Authorize.RoleList(allowed), header, verify);
    var errs := Errors(chains, req, isEmail);
    if d.Pass? {
      var u := Some(d.user);
      assert stages[1..][1..] == [ValidateStage, Handle(a)];
      assert stages[1..][1..][1..] == [Handle(a)];
      assert [] + errs == errs;
      assert Run(stages, header, req, verify, isEmail, None, []) == Run(stages[1..], header, req, verify, isEmail, u, []);
      assert Run(stages[1..], header, req, verify, isEmail, u, []) == Run([ValidateStage, Handle(a)], header, req, verify, isEmail, u, errs);
    }
  }
}

=== FILE: schema.dfy ===
/**
 * What mongoose reports when a document fails validation on `save()`:
 * one error per path, the first validator of that path that rejects.
 */
module Schema {
  import opened Wrappers
  import JsString

  /** The validator that rejected a path. */
  datatype Violation =
    | Required        // `required: true` and the value is missing or ""
    | MaxLength(max: nat)
    | MinLength(min: nat)
    | NotInEnum
    | PatternMismatch // the `match` regular expression
    | NotUnique       // `unique: true`, enforced by mongoose-unique-validator

  datatype PathError = PathError(path: string, violation: Violation)

  /**
   * The built-in String validators of a path, in declaration order
   * (required, maxLength, minLength) over a value of the given length;
   * a missing value only fails `required`.
   */
  function LengthCheck(present: bool, len: nat, required: bool, maxLen: Option<nat>, minLen: nat): (v: Option<Violation>)
    ensures v.None? <==>
      if present then (!required || len > 0) && (maxLen.None? || len <= maxLen.value) && minLen <= len
      else !required
  {
    if !present then (if required then Some(Required) else None)
    else if required && len == 0 then Some(Required)
    else if maxLen.Some? && len > maxLen.value then Some(MaxLength(maxLen.value))
    else if len < minLen then Some(MinLength(minLen))
    else None
  }

  /** The error list of a whole document: every path with a violation, in schema order. */
  function Collect(checks: seq<(string, Option<Violation>)>): (errs: seq<PathError>)
    ensures errs == [] <==> forall i :: 0 <= i < |checks| ==> checks[i].1.None?
    ensures forall e :: e in errs ==> exists i :: 0 <= i < |checks| && checks[i] == (e.path, Some(e.violation))
    ensures forall i :: 0 <= i < |checks| && checks[i].1.Some? ==> PathError(checks[i].0, checks[i].1.value) in errs
  {
    if checks == [] then []
    else
      var rest := Collect(checks[1..]);
      assert forall e :: e in rest ==> exists i :: 1 <= i < |checks| && checks[i] == (e.path, Some(e.violation)) by {
        forall e | e in rest ensures exists i :: 1 <= i < |checks| && checks[i] == (e.path, Some(e.violation)) {
          var j :| 0 <= j < |checks[1..]| && checks[1..][j] == (e.path, Some(e.violation));
          assert checks[j + 1] == checks[1..][j];
        }
      }
      assert forall i :: 1 <= i < |checks| ==> checks[i] == checks[1..][i - 1];
      match checks[0].1
      case None => rest
      case Some(v) => [PathError(checks[0].0, v)] + rest
  }

  /** The `trim` and `lowercase` setters of a path, applied to a present value. */
  function Normalized(v: Option<string>): (r: Option<string>)
    ensures r.Some? <==> v.Some?
    ensures r.Some? ==> r.value == JsString.Normalize(v.value) && JsString.Trimmed(r.value)
  {
    match v
    case None => None
    case Some(s) =>
      JsString.LowerKeepsTrimmed(JsString.Trim(s));
      Some(JsString.Normalize(s))
  }

  /** An update leaves a path whose value is absent as stored; a present value replaces it. */
  function Overwrite<T>(given: Option<T>, stored: T): (r: T)
    ensures given.Some? ==> r == given.value
    ensures given.None? ==> r == stored
  {
    if given.Some? then given.value else stored
  }

  /** The same for an optional path. */
  function OverwriteOptional<T>(given: Option<T>, stored: Option<T>): (r: Option<T>)
    ensures given.Some? ==> r == given
    ensures given.None? ==> r == stored
  {
    if given.Some? then given else stored
  }
}

=== FILE: user_controller.dfy ===
/**
 * The handlers behind `/api/users`. `register`, `create`, `update` and
 * `delete` change the users collection and are methods of `UserStore`;
 * `authenticate`, `findAll` and `findOne` only read it and are functions of
 * its contents. Each method is tied to a function giving its response and
 * the collection afterwards.
 */
module UserController {
  import opened Wrappers
  import JsString
  import Bcrypt
  import Jwt
  import opened Http
  import opened UserModel
  import opened Schema
  import Pagination

  const InvalidRoleMessage: string := "Invalid role"
  const UnknownUserMessage: string := "Authentication failed. User not found."
  const WrongPasswordMessage: string := "Authentication failed. Wrong password."
  const AuthErrorMessage: string := "An error occurred during authentication"
  const MissingSecretMessage: string := "JWT_SECRET is not defined in environment variables"
  const AuthenticatedMessage: string := "Authentication successful"
  /** What bcryptjs throws for `bcrypt.compare(undefined, hash)`. */
  const CompareUndefinedMessage: string := "Illegal arguments: undefined, string"
  const NotFoundMessage: string := "User not found"
  /**
   * Stands for the message of the E11000 error MongoDB's unique index raises
   * on an update: only its start is fixed; the collection, index and key
   * that follow are not modelled.
   */
  const DuplicateKeyMessage: string := "E11000 duplicate key error"

  /** `['user', 'admin'].includes(role)`: an absent role is rejected too. */
  predicate RoleAccepted(role: Option<string>)
  {
    role.Some? && role.value in Roles
  }

  /**
   * `User.findOne({ username })`: the first user, in natural order, whose
   * username equals the lookup key after the schema's setters.
   */
  function Find(users: seq<User>, username: string): (r: Option<nat>)
    ensures r.None? <==> !UsernameTaken(users, JsString.Normalize(username))
    ensures r.Some? ==> r.value < |users| && users[r.value].username == JsString.Normalize(username)
    ensures r.Some? ==> forall j :: 0 <= j < r.value ==> users[j].username != JsString.Normalize(username)
  {
    FindKey(users, JsString.Normalize(username))
  }

  /** The index of the first user whose stored username is `key`. */
  function FindKey(users: seq<User>, key: string): (r: Option<nat>)
    ensures r.None? <==> !UsernameTaken(users, key)
    ensures r.Some? ==> r.value < |users| && users[r.value].username == key
    ensures r.Some? ==> forall j :: 0 <= j < r.value ==> users[j].username != key
  {
    if users == [] then None
    else if users[0].username == key then Some(0)
    else
      var rest := FindKey(users[1..], key);
      assert forall j :: 1 <= j < |users| ==> users[j] == users[1..][j - 1];
      if rest.None? then None else Some(rest.value + 1)
  }

  /** `register` (and `create`): reject a role outside `{user, admin}`, otherwise build the document and save it. */
  function RegisterEffect(users: seq<User>, nextId: nat, f: UserFields, salt: Result<nat, string>, emailPattern: string -> bool): (e: Effect<User>)
    ensures !RoleAccepted(f.role) ==> e == Effect(Response(400, Message(InvalidRoleMessage)), users)
    ensures e.response.status in {201, 400}
    ensures e.response.status == 201 <==> RoleAccepted(f.role) && Admissible(users, Cast(f), emailPattern) && salt.Ok?
    ensures e.response.status == 201 ==>
      && e.response.body == Data(Some(Save(users, nextId, Cast(f), true, salt, emailPattern).value))
      && e.docs == users + [e.response.body.data.value]
    ensures e.response.status == 400 ==> e.docs == users
    ensures RoleAccepted(f.role) && !Admissible(users, Cast(f), emailPattern) ==>
      e.response == Response(400, Rejected(SchemaErrors(users, Cast(f), emailPattern)))
  {
    if !RoleAccepted(f.role) then Effect(Response(400, Message(InvalidRoleMessage)), users)
    else
      match Save(users, nextId, Cast(f), f.password.Some?, salt, emailPattern)
      case Ok(u) => Effect(Response(201, Data(Some(u))), users + [u])
      case Err(Invalid(errs)) => Effect(Response(400, Rejected(errs)), users)
      case Err(HookFailed(msg)) => Effect(Response(400, Message(msg)), users)
  }

  /**
   * `authenticate`: an unknown username and a wrong password are both 401,
   * with different messages. A body without a password makes
   * `bcrypt.compare` throw, and the catch answers 500; so does a missing
   * signing secret, which is noticed only once the password has matched.
   * The token carries the stored id, role and username.
   */
  function Authenticate(users: seq<User>, username: string, password: Option<string>, secret: Option<string>, now: int): (r: Response<User>)
    ensures r.status in {200, 401, 500}
    ensures r == Response(401, Message(UnknownUserMessage)) <==> Find(users, username).None?
    ensures r == Response(401, Message(WrongPasswordMessage)) <==>
      Find(users, username).Some? && password.Some? && !Bcrypt.Compare(password.value, users[Find(users, username).value].password)
    ensures Find(users, username).Some? && password.None? ==>
      r == Response(500, Failure(AuthErrorMessage, CompareUndefinedMessage))
    ensures
      && Find(users, username).Some? && password.Some?
      && Bcrypt.Compare(password.value, users[Find(users, username).value].password)
      && (secret.None? || secret.value == "")
      ==>
      r == Response(500, Failure(AuthErrorMessage, MissingSecretMessage))
    ensures r.status == 200 <==>
      && Find(users, username).Some? && password.Some?
      && Bcrypt.Compare(password.value, users[Find(users, username).value].password)
      && secret.Some? && secret.value != ""
    ensures r.status == 200 ==>
      && r.body.Authenticated? && r.body.message == AuthenticatedMessage
      && var u := users[Find(users, username).value];
         && r.body.token.claims == Jwt.Claims(u.id, u.role, Jwt.Username(u.username))
         && r.body.token.key == secret.value
         && r.body.token.iat == now
         && r.body.token.exp == now + Jwt.ExpiresIn
  {
    match Find(users, username)
    case None => Response(401, Message(UnknownUserMessage))
    case Some(i) =>
      var u := users[i];
      if password.None? then Response(500, Failure(AuthErrorMessage, CompareUndefinedMessage))
      else if !Bcrypt.Compare(password.value, u.password) then Response(401, Message(WrongPasswordMessage))
      else if secret.None? || secret.value == "" then Response(500, Failure(AuthErrorMessage, MissingSecretMessage))
      else
        var token := Jwt.Sign(Jwt.Claims(u.id, u.role, Jwt.Username(u.username)), secret, now).value;
        Response(200, Authenticated(AuthenticatedMessage, token))
  }

  /** The query string of `GET /api/users`. */
  datatype Query = Query(page: Option<int>, limit: Option<int>, role: Option<string>)

  /** `role ? { role } : {}`: an absent or empty role does not filter. */
  function Filter(users: seq<User>, role: Option<string>): (r: seq<User>)
    ensures |r| <= |users|
    ensures forall u :: u in r <==> u in users && (role.None? || role.value == "" || u.role == role.value)
  {
    if users == [] then []
    else
      var rest := Filter(users[1..], role);
      assert forall u :: u in users <==> u == users[0] || u in users[1..];
      if role.None? || role.value == "" || users[0].role == role.value then [users[0]] + rest else rest
  }

  /** One user is kept exactly when it has the role, or when no role is asked for. */
  lemma FilterOne(u: User, role: Option<string>)
    ensures Filter([u], role) == if role.None? || role.value == "" || u.role == role.value then [u] else []
  {
    assert [u][1..] == [];
  }

  /** `find` keeps collection order: filtering a concatenation filters each part in turn. */
  lemma {:induction false} FilterAppend(a: seq<User>, b: seq<User>, role: Option<string>)
    ensures Filter(a + b, role) == Filter(a, role) + Filter(b, role)
  {
    if a == [] {
      assert a + b == b;
    } else {
      assert (a + b)[0] == a[0];
      assert (a + b)[1..] == a[1..] + b;
      FilterAppend(a[1..], b, role);
    }
  }

  /** Both query numbers, when given, are positive. */
  predicate PagingOk(q: Query)
  {
    (q.page.None? || q.page.value >= 1) && (q.limit.None? || q.limit.value >= 1)
  }

  /** `findAll`: one page of the users with the requested role, the page count, and the page asked for. */
  function FindAll(users: seq<User>, q: Query): (r: Response<User>)
    requires PagingOk(q)
    ensures r == Pagination.PageResponse(Filter(users, q.role),
      if q.page.Some? then q.page.value else Pagination.DefaultPage,
      if q.limit.Some? then q.limit.value else Pagination.DefaultLimit)
    ensures
      var limit := if q.limit.Some? then q.limit.value else Pagination.DefaultLimit;
      && r.body.docs == Pagination.PageOf(Filter(users, q.role), if q.page.Some? then q.page.value else Pagination.DefaultPage, limit)
      && r.body.totalPages == Pagination.TotalPages(|Filter(users, q.role)|, limit)
    ensures forall u :: u in r.body.docs ==> u in users
    ensures q.role.Some? && q.role.value != "" ==> forall u :: u in r.body.docs ==> u.role == q.role.value
  {
    var page := if q.page.Some? then q.page.value else Pagination.DefaultPage;
    var limit := if q.limit.Some? then q.limit.value else Pagination.DefaultLimit;
    Pagination.PageResponse(Filter(users, q.role), page, limit)
  }

  /**
   * No user with the role is out of reach: the `i`-th of them, in collection
   * order, is entry `i % limit` of page `i / limit + 1`, and that page is
   * within the page count the response reports.
   */
  lemma EveryUserListed(users: seq<User>, role: Option<string>, limit: int, i: nat)
    requires limit >= 1 && i < |Filter(users, role)|
    ensures var r := FindAll(users, Query(Some(i / limit + 1), Some(limit), role));
      && i / limit + 1 <= r.body.totalPages
      && i % limit < |r.body.docs|
      && r.body.docs[i % limit] == Filter(users, role)[i]
  {
    Pagination.EveryDocumentOnAPage(Filter(users, role), limit, i);
  }

  /** Without `page` and `limit` the query means page 1 of 10. */
  lemma FindAllDefaults(users: seq<User>, role: Option<string>)
    ensures FindAll(users, Query(None, None, role)) == FindAll(users, Query(Some(1), Some(10), role))
  {
  }

  /** `findOne`: always 200; `data` is null when no user has that username. */
  function FindOne(users: seq<User>, username: string): (r: Response<User>)
    ensures r.status == 200
    ensures r.body == Data(None) <==> !UsernameTaken(users, JsString.Normalize(username))
    ensures r.body.Data? && r.body.data.Some? ==> r.body.data.value in users && r.body.data.value.username == JsString.Normalize(username)
  {
    match Find(users, username)
    case None => Response(200, Data(None))
    case Some(i) => Response(200, Data(Some(users[i])))
  }

  /**
   * `update`: `findOneAndUpdate` on name, surname and email only, returning
   * the updated document; 404 when no user has that username. The update
   * runs no schema validators, but the unique index on email still refuses
   * an address another user holds.
   */
  function UpdateEffect(users: seq<User>, username: string, name: Option<string>, surname: Option<string>, email: Option<string>): (e: Effect<User>)
    ensures e.response.status in {200, 400, 404}
    ensures Find(users, username).None? <==> e == Effect(Response(404, Message(NotFoundMessage)), users)
    ensures e.response.status != 200 ==> e.docs == users
    ensures e.response.status == 400 <==>
      && Find(users, username).Some?
      && exists j :: 0 <= j < |users| && j != Find(users, username).value &&
           users[j].email == Overwrite(Normalized(email), users[Find(users, username).value].email)
    ensures e.response.status == 400 ==> e.response.body == Message(DuplicateKeyMessage)
    ensures e.response.status == 200 ==>
      var i := Find(users, username).value;
      && |e.docs| == |users|
      && e.response.body == Data(Some(e.docs[i]))
      && (forall j :: 0 <= j < |users| && j != i ==> e.docs[j] == users[j])
      && e.docs[i].id == users[i].id && e.docs[i].username == users[i].username
      && e.docs[i].password == users[i].password && e.docs[i].role == users[i].role
      && e.docs[i].name == OverwriteOptional(name, users[i].name)
      && e.docs[i].surname == OverwriteOptional(surname, users[i].surname)
      && e.docs[i].email == Overwrite(Normalized(email), users[i].email)
  {
    match Find(users, username)
    case None => Effect(Response(404, Message(NotFoundMessage)), users)
    case Some(i) =>
      var newEmail := Overwrite(Normalized(email), users[i].email);
      if exists j :: 0 <= j < |users| && j != i && users[j].email == newEmail then
        Effect(Response(400, Message(DuplicateKeyMessage)), users)
      else
        var u := users[i].(name := OverwriteOptional(name, users[i].name), surname := OverwriteOptional(surname, users[i].surname), email := newEmail);
        Effect(Response(200, Data(Some(u))), users[i := u])
  }

  /** `delete`: `findOneAndDelete` removes the user with that username and returns it; 404 when there is none. */
  function DeleteEffect(users: seq<User>, username: string): (e: Effect<User>)
    ensures Find(users, username).None? <==> e == Effect(Response(404, Message(NotFoundMessage)), users)
    ensures e.response.status in {200, 404}
    ensures e.response.status == 200 ==>
      var i := Find(users, username).value;
      e.response.body == Data(Some(users[i])) && e.docs == users[..i] + users[i + 1..]
  {
    match Find(users, username)
    case None => Effect(Response(404, Message(NotFoundMessage)), users)
    case Some(i) => Effect(Response(200, Data(Some(users[i]))), users[..i] + users[i + 1..])
  }

  /**
   * A user who registered can log in with the same username and password:
   * the token names the stored (normalized) username and the role chosen at
   * registration.
   */
  lemma RegisterThenAuthenticate(users: seq<User>, nextId: nat, f: UserFields, salt: nat, emailPattern: string -> bool, secret: string, now: int)
    requires RegisterEffect(users, nextId, f, Ok(salt), emailPattern).response.status == 201
    requires secret != ""
    ensures f.username.Some? && f.password.Some? && f.role.Some?
    ensures var after := RegisterEffect(users, nextId, f, Ok(salt), emailPattern).docs;
      var r := Authenticate(after, f.username.value, f.password, Some(secret), now);
      && r.status == 200
      && r.body.token.claims == Jwt.Claims(nextId, f.role.value, Jwt.Username(JsString.Normalize(f.username.value)))
  {
    var e := RegisterEffect(users, nextId, f, Ok(salt), emailPattern);
    var u := e.response.body.data.value;
    assert u == Save(users, nextId, Cast(f), true, Ok(salt), emailPattern).value;
    assert u.username == JsString.Normalize(f.username.value) && u.role == f.role.value;
    FindAppended(users, u, f.username.value);
    Bcrypt.CompareHash(f.password.value, f.password.value, salt);
  }

  /** A second registration under a taken username is refused with a uniqueness error on `username`. */
  lemma DuplicateUsernameRejected(users: seq<User>, nextId: nat, f: UserFields, salt: Result<nat, string>, emailPattern: string -> bool)
    requires RoleAccepted(f.role) && f.username.Some?
    requires 0 < |JsString.Normalize(f.username.value)| <= UsernameMaxLength
    requires UsernameTaken(users, JsString.Normalize(f.username.value))
    ensures var e := RegisterEffect(users, nextId, f, salt, emailPattern);
      && e.response.status == 400 && e.docs == users
      && e.response.body.Rejected? && Schema.PathError("username", Schema.NotUnique) in e.response.body.errors
  {
    var d := Cast(f);
    assert UsernameCheck(users, d.username) == Some(Schema.NotUnique);
  }

  /**
   * An unknown username and a wrong password give the same status but
   * different messages, so a caller can tell which usernames exist.
   */
  lemma LoginFailuresDistinguishable(users: seq<User>, unknown: string, known: string, wrong: string, secret: Option<string>, now: int)
    requires Find(users, unknown).None?
    requires Find(users, known).Some? && !Bcrypt.Compare(wrong, users[Find(users, known).value].password)
    ensures Authenticate(users, unknown, Some(wrong), secret, now).status == Authenticate(users, known, Some(wrong), secret, now).status == 401
    ensures Authenticate(users, unknown, Some(wrong), secret, now).body != Authenticate(users, known, Some(wrong), secret, now).body
  {
  }

  /** Users whose usernames are pairwise distinct. */
  predicate UniqueUsernames(users: seq<User>)
  {
    forall i, j :: 0 <= i < j < |users| ==> users[i].username != users[j].username
  }

  /** After a successful delete no user has that username any more, and the others keep their order. */
  lemma {:induction false} DeleteRemovesUser(users: seq<User>, username: string)
    requires UniqueUsernames(users)
    requires DeleteEffect(users, username).response.status == 200
    ensures !UsernameTaken(DeleteEffect(users, username).docs, JsString.Normalize(username))
    ensures |DeleteEffect(users, username).docs| == |users| - 1
  {
    var i := Find(users, username).value;
    var after := DeleteEffect(users, username).docs;
    assert forall k :: 0 <= k < |after| ==> after[k] == if k < i then users[k] else users[k + 1];
  }

  /**
   * What every saved user satisfies: unique usernames, emails and ids, an id
   * below the next one to be given, a role from the enum, a username of 1 to
   * 20 characters, and a password kept only as a bcrypt digest.
   */
  ghost predicate ValidUsers(users: seq<User>, nextId: nat)
  {
    && (forall i, j :: 0 <= i < j < |users| ==>
          users[i].username != users[j].username && users[i].email != users[j].email && users[i].id != users[j].id)
    && (forall i :: 0 <= i < |users| ==>
          users[i].id < nextId && users[i].role in Roles && 0 < |users[i].username| <= UsernameMaxLength &&
          users[i].password.Digest?)
  }

  /** Replacing a user by one with the same id, username, role and password and an email nobody else holds keeps the invariant. */
  lemma ReplaceKeepsValid(users: seq<User>, nextId: nat, i: nat, u: User)
    requires ValidUsers(users, nextId) && i < |users|
    requires u.id == users[i].id && u.username == users[i].username && u.role == users[i].role && u.password == users[i].password
    requires forall j :: 0 <= j < |users| && j != i ==> users[j].email != u.email
    ensures ValidUsers(users[i := u], nextId)
  {
    var r := users[i := u];
    forall a, b | 0 <= a < b < |r|
      ensures r[a].username != r[b].username && r[a].email != r[b].email && r[a].id != r[b].id
    {
      assert r[a].username == users[a].username && r[a].id == users[a].id;
      assert r[b].username == users[b].username && r[b].id == users[b].id;
    }
    forall a | 0 <= a < |r|
      ensures r[a].id < nextId && r[a].role in Roles && 0 < |r[a].username| <= UsernameMaxLength && r[a].password.Digest?
    {
      assert r[a].id == users[a].id && r[a].role == users[a].role && r[a].username == users[a].username && r[a].password == users[a].password;
    }
  }

  /** Removing one user keeps the invariant. */
  lemma RemoveKeepsValid(users: seq<User>, nextId: nat, i: nat)
    requires ValidUsers(users, nextId) && i < |users|
    ensures ValidUsers(users[..i] + users[i + 1..], nextId)
  {
    var r := users[..i] + users[i + 1..];
    forall a, b | 0 <= a < b < |r|
      ensures r[a].username != r[b].username && r[a].email != r[b].email && r[a].id != r[b].id
    {
      var a' := if a < i then a else a + 1;
      var b' := if b < i then b else b + 1;
      assert r[a] == users[a'] && r[b] == users[b'];
    }
    forall a | 0 <= a < |r|
      ensures r[a].id < nextId && r[a].role in Roles && 0 < |r[a].username| <= UsernameMaxLength && r[a].password.Digest?
    {
      assert r[a] == users[if a < i then a else a + 1];
    }
  }

  /** The successful branch of `update`, in the terms of `UpdateEffect`, keeps the invariant. */
  lemma UpdateStep(users: seq<User>, nextId: nat, username: string, name: Option<string>, surname: Option<string>, email: Option<string>, i: nat, u: User)
    requires ValidUsers(users, nextId)
    requires Find(users, username) == Some(i)
    requires u == users[i].(name := OverwriteOptional(name, users[i].name), surname := OverwriteOptional(surname, users[i].surname),
                            email := Overwrite(Normalized(email), users[i].email))
    requires !exists j :: 0 <= j < |users| && j != i && users[j].email == u.email
    ensures ValidUsers(users[i := u], nextId)
    ensures UpdateEffect(users, username, name, surname, email) == Effect(Response(200, Data(Some(u))), users[i := u])
  {
    ReplaceKeepsValid(users, nextId, i, u);
  }

  /** The successful branch of `delete`, in the terms of `DeleteEffect`, keeps the invariant. */
  lemma DeleteStep(users: seq<User>, nextId: nat, username: string, i: nat)
    requires ValidUsers(users, nextId)
    requires Find(users, username) == Some(i)
    ensures ValidUsers(users[..i] + users[i + 1..], nextId)
    ensures DeleteEffect(users, username) == Effect(Response(200, Data(Some(users[i]))), users[..i] + users[i + 1..])
  {
    RemoveKeepsValid(users, nextId, i);
  }

  /** A user appended under a username nobody holds is the one `Find` returns for it. */
  lemma {:induction false} FindAppended(users: seq<User>, u: User, username: string)
    requires u.username == JsString.Normalize(username) && !UsernameTaken(users, u.username)
    ensures Find(users + [u], username) == Some(|users|)
  {
    FindKeyAppended(users, u, u.username);
  }

  lemma {:induction false} FindKeyAppended(users: seq<User>, u: User, key: string)
    requires u.username == key && !UsernameTaken(users, key)
    ensures FindKey(users + [u], key) == Some(|users|)
  {
    if users != [] {
      assert users[0].username != key;
      assert !UsernameTaken(users[1..], key) by {
        forall k | 0 <= k < |users[1..]|
          ensures users[1..][k].username != key
        {
          assert users[1..][k] == users[k + 1];
        }
      }
      FindKeyAppended(users[1..], u, key);
      assert (users + [u])[1..] == users[1..] + [u];
    }
  }

  /** The users collection. */
  class UserStore {
    var users: seq<User>
    /** The `_id` the next saved document receives. */
    var nextId: nat

    constructor ()
      ensures ValidUsers(users, nextId) && users == [] && nextId == 0
    {
      users, nextId := [], 0;
    }

    /** `doc.save()`: validate, run the hook on the document, insert. */
    method Save(doc: UserDocument, salt: Result<nat, string>, emailPattern: string -> bool) returns (r: Result<User, SaveError>)
      requires ValidUsers(users, nextId)
      requires doc.password.Some? ==> doc.passwordModified
      modifies this, doc
      ensures ValidUsers(users, nextId)
      ensures r == UserModel.Save(old(users), old(nextId), old(doc.Snapshot()), old(doc.passwordModified), salt, emailPattern)
      ensures users == if r.Ok? then old(users) + [r.value] else old(users)
      ensures nextId == if r.Ok? then old(nextId) + 1 else old(nextId)
    {
      var errs := SchemaErrors(users, doc.Snapshot(), emailPattern);
      if errs != [] {
        return Err(Invalid(errs));
      }
      var err := doc.PreSaveHook(salt);
      if err.Some? {
        return Err(HookFailed(err.value));
      }
      var u := Stored(doc.Snapshot(), nextId);
      users := users + [u];
      nextId := nextId + 1;
      r := Ok(u);
    }

    /** `register`. */
    method Register(f: UserFields, salt: Result<nat, string>, emailPattern: string -> bool) returns (resp: Response<User>)
      requires ValidUsers(users, nextId)
      modifies this
      ensures ValidUsers(users, nextId)
      ensures Effect(resp, users) == RegisterEffect(old(users), old(nextId), f, salt, emailPattern)
      ensures nextId == if resp.status == 201 then old(nextId) + 1 else old(nextId)
    {
      if !RoleAccepted(f.role) {
        return Response(400, Message(InvalidRoleMessage));
      }
      var doc := new UserDocument(f);
      var r := Save(doc, salt, emailPattern);
      match r
      case Ok(u) => resp := Response(201, Data(Some(u)));
      case Err(Invalid(errs)) => resp := Response(400, Rejected(errs));
      case Err(HookFailed(msg)) => resp := Response(400, Message(msg));
    }

    /** `create` (admin only): the same steps as `register`. */
    method Create(f: UserFields, salt: Result<nat, string>, emailPattern: string -> bool) returns (resp: Response<User>)
      requires ValidUsers(users, nextId)
      modifies this
      ensures ValidUsers(users, nextId)
      ensures Effect(resp, users) == RegisterEffect(old(users), old(nextId), f, salt, emailPattern)
      ensures nextId == if resp.status == 201 then old(nextId) + 1 else old(nextId)
    {
      resp := Register(f, salt, emailPattern);
    }

    /** `update`. */
    method Update(username: string, name: Option<string>, surname: Option<string>, email: Option<string>) returns (resp: Response<User>)
      requires ValidUsers(users, nextId)
      modifies this
      ensures ValidUsers(users, nextId)
      ensures Effect(resp, users) == UpdateEffect(old(users), username, name, surname, email)
      ensures nextId == old(nextId)
    {
      var found := Find(users, username);
      if found.None? {
        return Response(404, Message(NotFoundMessage));
      }
      var i := found.value;
      var newEmail := Overwrite(Normalized(email), users[i].email);
      if exists j :: 0 <= j < |users| && j != i && users[j].email == newEmail {
        return Response(400, Message(DuplicateKeyMessage));
      }
      var u := users[i].(name := OverwriteOptional(name, users[i].name), surname := OverwriteOptional(surname, users[i].surname), email := newEmail);
      UpdateStep(users, nextId, username, name, surname, email, i, u);
      users := users[i := u];
      resp := Response(200, Data(Some(u)));
    }

    /** `delete`. */
    method Delete(username: string) returns (resp: Response<User>)
      requires ValidUsers(users, nextId)
      modifies this
      ensures ValidUsers(users, nextId)
      ensures Effect(resp, users) == DeleteEffect(old(users), username)
      ensures nextId == old(nextId)
    {
      var found := Find(users, username);
      if found.None? {
        resp := Response(404, Message(NotFoundMessage));
      } else {
        var i := found.value;
        DeleteStep(users, nextId, username, i);
        resp := Response(200, Data(Some(users[i])));
        users := users[..i] + users[i + 1..];
      }
    }
  }
}

=== FILE: user_model.dfy ===
/**
 * The `User` mongoose model: how the fields given to `new User({...})` are
 * cast, which documents the schema admits, and the `pre('save')` hook that
 * replaces a modified password by its bcrypt digest.
 */
module UserModel {
  import opened Wrappers
  import JsString
  import Bcrypt
  import opened Schema

  /** `enum: ['user', 'admin']`. */
  const Roles: seq<string> := ["user", "admin"]
  const DefaultRole: string := "user"
  const UsernameMaxLength: nat := 20
  const PasswordMinLength: nat := 6
  const PasswordMaxLength: nat := 60

  /** A saved user document. */
  datatype User = User(
    id: nat,
    username: string,
    password: Bcrypt.Secret,
    name: Option<string>,
    surname: Option<string>,
    email: string,
    role: string)

  /** The request fields handed to `new User({ username, password, name, surname, email, role })`. */
  datatype UserFields = UserFields(
    username: Option<string>,
    password: Option<string>,
    name: Option<string>,
    surname: Option<string>,
    email: Option<string>,
    role: Option<string>)

  /** The paths of a document that has not been saved yet; `role` always holds a value, given or default. */
  datatype Draft = Draft(
    username: Option<string>,
    password: Option<Bcrypt.Secret>,
    name: Option<string>,
    surname: Option<string>,
    email: Option<string>,
    role: string)

  /** `new User(fields)`: setters run on username and email, and an absent role takes the default. */
  function Cast(f: UserFields): Draft
  {
    Draft(
      Normalized(f.username),
      match f.password case None => None case Some(p) => Some(Bcrypt.Plain(p)),
      f.name,
      f.surname,
      Normalized(f.email),
      if f.role.Some? then f.role.value else DefaultRole)
  }

  predicate UsernameTaken(users: seq<User>, username: string)
  {
    exists i :: 0 <= i < |users| && users[i].username == username
  }

  predicate EmailTaken(users: seq<User>, email: string)
  {
    exists i :: 0 <= i < |users| && users[i].email == email
  }

  /** The schema's rules, stated declaratively: what a draft must satisfy to be saved next to `users`. */
  predicate Admissible(users: seq<User>, d: Draft, emailPattern: string -> bool)
  {
    && d.username.Some? && 0 < |d.username.value| <= UsernameMaxLength && !UsernameTaken(users, d.username.value)
    && d.password.Some? && PasswordMinLength <= Bcrypt.Length(d.password.value) <= PasswordMaxLength
    && d.email.Some? && d.email.value != "" && emailPattern(d.email.value) && !EmailTaken(users, d.email.value)
    && d.role in Roles
  }

  function UsernameCheck(users: seq<User>, v: Option<string>): Option<Violation>
  {
    var len := if v.Some? then |v.value| else 0;
    var basic := LengthCheck(v.Some?, len, true, Some(UsernameMaxLength), 0);
    if basic.Some? then basic
    else if UsernameTaken(users, v.value) then Some(NotUnique)
    else None
  }

  function PasswordCheck(v: Option<Bcrypt.Secret>): Option<Violation>
  {
    var len := if v.Some? then Bcrypt.Length(v.value) else 0;
    LengthCheck(v.Some?, len, true, Some(PasswordMaxLength), PasswordMinLength)
  }

  function EmailCheck(users: seq<User>, v: Option<string>, emailPattern: string -> bool): Option<Violation>
  {
    var len := if v.Some? then |v.value| else 0;
    var basic := LengthCheck(v.Some?, len, true, None, 0);
    if basic.Some? then basic
    else if !emailPattern(v.value) then Some(PatternMismatch)
    else if EmailTaken(users, v.value) then Some(NotUnique)
    else None
  }

  function RoleCheck(v: string): Option<Violation>
  {
    if v !in Roles then Some(NotInEnum) else None
  }

  /** The validation errors `save()` reports; none exactly when the draft is admissible. */
  function SchemaErrors(users: seq<User>, d: Draft, emailPattern: string -> bool): (errs: seq<PathError>)
    ensures errs == [] <==> Admissible(users, d, emailPattern)
    ensures forall e :: e in errs ==> e.path in {"username", "password", "email", "role"}
  {
    var checks := [
      ("username", UsernameCheck(users, d.username)),
      ("password", PasswordCheck(d.password)),
      ("email", EmailCheck(users, d.email, emailPattern)),
      ("role", RoleCheck(d.role))];
    assert forall i :: 0 <= i < |checks| ==> checks[i].0 in {"username", "password", "email", "role"};
    assert (forall i :: 0 <= i < |checks| ==> checks[i].1.None?) <==>
      checks[0].1.None? && checks[1].1.None? && checks[2].1.None? && checks[3].1.None?;
    Collect(checks)
  }

  /** The message bcryptjs throws when asked to hash `undefined`. */
  const IllegalArgumentsMessage: string := "Illegal arguments: undefined, string"

  /**
   * The `pre('save')` hook. An unmodified password is left alone; a modified
   * one is replaced by its digest under a fresh salt. `salt` is the outcome of
   * `bcrypt.genSalt(10)`; any failure becomes the save's error.
   */
  function PreSave(d: Draft, passwordModified: bool, salt: Result<nat, string>): (r: Result<Draft, string>)
    ensures !passwordModified ==> r == Ok(d)
    ensures passwordModified ==> (r.Ok? <==> salt.Ok? && d.password.Some?)
    ensures r.Ok? && passwordModified ==> r.value.password == Some(Bcrypt.Hash(d.password.value, salt.value))
    ensures r.Ok? ==> r.value.(password := d.password) == d
  {
    if !passwordModified then Ok(d)
    else if salt.Err? then Err(salt.error)
    else if d.password.None? then Err(IllegalArgumentsMessage)
    else Ok(d.(password := Some(Bcrypt.Hash(d.password.value, salt.value))))
  }

  /** Why `save()` failed: validation, or an error passed to the hook's `next(err)`. */
  datatype SaveError = Invalid(errors: seq<PathError>) | HookFailed(message: string)

  /** The document `save()` writes for an admissible draft after the hook ran. */
  function Stored(d: Draft, id: nat): User
    requires d.username.Some? && d.password.Some? && d.email.Some?
  {
    User(id, d.username.value, d.password.value, d.name, d.surname, d.email.value, d.role)
  }

  /**
   * `save()` of a new document next to `users`: validation (including the
   * unique-validator plugin) runs first, then the hook, then the insert.
   */
  function Save(users: seq<User>, id: nat, d: Draft, passwordModified: bool, salt: Result<nat, string>, emailPattern: string -> bool): (r: Result<User, SaveError>)
    ensures r.Ok? <==> Admissible(users, d, emailPattern) && (passwordModified ==> salt.Ok?)
    ensures !Admissible(users, d, emailPattern) ==> r == Err(Invalid(SchemaErrors(users, d, emailPattern)))
    ensures r.Ok? ==> r.value.id == id && !UsernameTaken(users, r.value.username) && !EmailTaken(users, r.value.email)
    ensures r.Ok? ==> r.value.role in Roles && 0 < |r.value.username| <= UsernameMaxLength
    ensures r.Ok? && passwordModified ==> r.value.password == Bcrypt.Hash(d.password.value, salt.value)
    ensures r.Ok? && !passwordModified ==> r.value.password == d.password.value
    ensures r.Ok? ==>
      && Some(r.value.username) == d.username && Some(r.value.email) == d.email && r.value.role == d.role
      && r.value.name == d.name && r.value.surname == d.surname
  {
    var errs := SchemaErrors(users, d, emailPattern);
    if errs != [] then Err(Invalid(errs))
    else
      match PreSave(d, passwordModified, salt)
      case Err(msg) => Err(HookFailed(msg))
      case Ok(h) => Ok(Stored(h, id))
  }

  /** A registered password is stored only as a digest that verifies against it. */
  lemma SavedPasswordVerifies(users: seq<User>, id: nat, f: UserFields, salt: nat, emailPattern: string -> bool)
    requires Save(users, id, Cast(f), f.password.Some?, Ok(salt), emailPattern).Ok?
    ensures var u := Save(users, id, Cast(f), f.password.Some?, Ok(salt), emailPattern).value;
      u.password.Digest? && u.password != Bcrypt.Plain(f.password.value) && Bcrypt.Compare(f.password.value, u.password)
  {
  }

  /**
   * An unsaved document: the paths mongoose holds, which the hook updates in place.
   */
  class UserDocument {
    var username: Option<string>
    var password: Option<Bcrypt.Secret>
    var name: Option<string>
    var surname: Option<string>
    var email: Option<string>
    var role: string
    /** `this.isModified('password')`: on a new document, whether a password was set. */
    var passwordModified: bool

    /** The document's paths as a value. */
    function Snapshot(): Draft
      reads this
    {
      Draft(username, password, name, surname, email, role)
    }

    /** `new User(fields)`. */
    constructor (f: UserFields)
      ensures Snapshot() == Cast(f)
      ensures passwordModified == f.password.Some?
    {
      var d := Cast(f);
      username, password, name, surname, email, role := d.username, d.password, d.name, d.surname, d.email, d.role;
      passwordModified := f.password.Some?;
    }

    /** The `pre('save')` hook, overwriting `this.password` in place. */
    method PreSaveHook(salt: Result<nat, string>) returns (err: Option<string>)
      modifies this
      ensures passwordModified == old(passwordModified)
      ensures err.None? ==> PreSave(old(Snapshot()), old(passwordModified), salt) == Ok(Snapshot())
      ensures err.Some? ==> PreSave(old(Snapshot()), old(passwordModified), salt) == Err(err.value)
      ensures err.Some? ==> Snapshot() == old(Snapshot())
    {
      if !passwordModified {
        return None;
      }
      if salt.Err? {
        return Some(salt.error);
      }
      if password.None? {
        return Some(IllegalArgumentsMessage);
      }
      password := Some(Bcrypt.Hash(password.value, salt.value));
      return None;
    }
  }
}

=== FILE: user_routes.dfy ===
/** The route table mounted at `/api/users`, in registration order. */
module UserRoutes {
  import opened Wrappers
  import opened Jwt
  import opened Router
  import Authorize
  import RequestValidation
  import UserValidator
  import Json

  const Readers: seq<string> := ["admin", "user", "company"]
  const Writers: seq<string> := ["admin", "user"]

  const Table: seq<Route> := [
    Route(POST, [Lit("register")], [Handle(Register)]),
    Route(POST, [Lit("authenticate")], [Handle(Authenticate)]),
    Route(POST, [Lit("register")], [Handle(Register)]),
    Route(POST, [Lit("authenticate")], [Handle(Authenticate)]),
    Route(GET, [], [Guard(Authorize.RoleList(Writers)), Handle(FindAll)]),
    Route(GET, [Param("username")], [Guard(Authorize.RoleList(Readers)), Handle(FindOne)]),
    Route(POST, [], [Guard(Authorize.RoleList(["admin"])), Checks(UserValidator.Rules("createUser")), ValidateStage, Handle(Create)]),
    Route(PUT, [Param("username")], [Guard(Authorize.RoleList(Writers)), Checks(UserValidator.Rules("updateUser")), ValidateStage, Handle(Update)]),
    Route(DELETE, [Param("username")], [Guard(Authorize.RoleList(Writers)), Handle(Delete)])
  ]

  /** Registration and login need no token: they reach their handlers with no user, whatever the header. */
  lemma PublicEndpoints(header: Option<string>, body: map<string, Json.Json>, verify: string -> Option<Claims>, isEmail: string -> bool)
    ensures Serve(Table, POST, ["register"], header, body, verify, isEmail) == Reached(Register, None, map[])
    ensures Serve(Table, POST, ["authenticate"], header, body, verify, isEmail) == Reached(Authenticate, None, map[])
  {
    DispatchTo(Table, POST, ["register"], 0);
    DispatchTo(Table, POST, ["authenticate"], 1);
  }

  /** The second registrations of `/register` and `/authenticate` never serve a request. */
  lemma DuplicatesUnreachable(verb: Verb, path: seq<string>)
    ensures Dispatch(Table, verb, path) != Some(2)
    ensures Dispatch(Table, verb, path) != Some(3)
  {
    Shadowed(Table, 0, 2, verb, path);
    Shadowed(Table, 1, 3, verb, path);
  }

  /** `GET /`: only admin and user tokens list users. */
  lemma ListUsers(header: Option<string>, body: map<string, Json.Json>, verify: string -> Option<Claims>, isEmail: string -> bool)
    ensures Serve(Table, GET, [], header, body, verify, isEmail) == Guarded(Writers, FindAll, header, map[], verify)
  {
    DispatchTo(Table, GET, [], 4);
    GuardedRoute(Writers, FindAll, header, RequestValidation.Request(body, map[]), verify, isEmail);
  }

  /** A verified company token is refused on `GET /` with 401 "Insufficient Privileges". */
  lemma CompanyTokenCannotListUsers(header: Option<string>, body: map<string, Json.Json>, verify: string -> Option<Claims>, isEmail: string -> bool)
    requires Authorize.HasHeader(header)
    requires Authorize.Verified(header.value, verify).Some? && Authorize.Verified(header.value, verify).value.role == "company"
    ensures Serve(Table, GET, [], header, body, verify, isEmail) == Denied(401, Authorize.InsufficientMessage)
  {
    ListUsers(header, body, verify, isEmail);
  }

  /** `GET /:username`: admin, user and company tokens may read one user. */
  lemma ReadUser(username: string, header: Option<string>, body: map<string, Json.Json>, verify: string -> Option<Claims>, isEmail: string -> bool)
    requires username != ""
    ensures Serve(Table, GET, [username], header, body, verify, isEmail) ==
      Guarded(Readers, FindOne, header, map["username" := username], verify)
  {
    ServeByName(GET, 5, username, header, body, verify, isEmail);
    GuardedRoute(Readers, FindOne, header, RequestValidation.Request(body, map["username" := username]), verify, isEmail);
  }

  /**
   * `POST /`: the admin check comes first, then the `createUser` rules, and
   * only a request passing both reaches `create`.
   */
  lemma CreateUserOrder(header: Option<string>, body: map<string, Json.Json>, verify: string -> Option<Claims>, isEmail: string -> bool)
    ensures var o := Serve(Table, POST, [], header, body, verify, isEmail);
      var d := Authorize.Check(Authorize.RoleList(["admin"]), header, verify);
      var errs := RequestValidation.Errors(UserValidator.Rules("createUser"), RequestValidation.Request(body, map[]), isEmail);
      && (d.Deny? ==> o == Denied(d.status, d.message))
      && (d.Pass? && errs != [] ==> o == Invalid(422, errs))
      && (d.Pass? && errs == [] ==> o == Reached(Create, Some(d.user), map[]))
  {
    DispatchTo(Table, POST, [], 6);
    ValidatedRoute(["admin"], UserValidator.Rules("createUser"), Create, header, RequestValidation.Request(body, map[]), verify, isEmail);
  }

  /**
   * `PUT /:username`: the admin-or-user check, then the `updateUser` rules,
   * then `update`.
   */
  lemma UpdateUserOrder(username: string, header: Option<string>, body: map<string, Json.Json>, verify: string -> Option<Claims>, isEmail: string -> bool)
    requires username != ""
    ensures var o := Serve(Table, PUT, [username], header, body, verify, isEmail);
      var d := Authorize.Check(Authorize.RoleList(Writers), header, verify);
      var errs := RequestValidation.Errors(UserValidator.Rules("updateUser"), RequestValidation.Request(body, map["username" := username]), isEmail);
      && (d.Deny? ==> o == Denied(d.status, d.message))
      && (d.Pass? && errs != [] ==> o == Invalid(422, errs))
      && (d.Pass? && errs == [] ==> o == Reached(Update, Some(d.user), map["username" := username]))
  {
    ServeByName(PUT, 7, username, header, body, verify, isEmail);
    var chains := UserValidator.Rules("updateUser");
    assert Table[7].stages == [Guard(Authorize.RoleList(Writers)), Checks(chains), ValidateStage, Handle(Update)];
    ValidatedRoute(Writers, chains, Update, header, RequestValidation.Request(body, map["username" := username]), verify, isEmail);
  }

  /** The guard of the user write routes passes a verified user token with its claims. */
  lemma WritersAdmitUser(header: Option<string>, verify: string -> Option<Claims>)
    requires Authorize.HasHeader(header)
    requires Authorize.Verified(header.value, verify).Some? && Authorize.Verified(header.value, verify).value.role == "user"
    ensures Authorize.Check(Authorize.RoleList(Writers), header, verify) == Authorize.Pass(Authorize.Verified(header.value, verify).value)
  {
    assert Authorize.Admits(Writers, "user");
  }

  /**
   * `PUT /:username`: any verified user token whose update body passes the
   * rules reaches `update`, for any username — nothing ties the path to the
   * token's own username.
   */
  lemma UpdateAnyUser(username: string, header: Option<string>, body: map<string, Json.Json>, verify: string -> Option<Claims>, isEmail: string -> bool)
    requires username != ""
    requires Authorize.HasHeader(header)
    requires Authorize.Verified(header.value, verify).Some? && Authorize.Verified(header.value, verify).value.role == "user"
    requires RequestValidation.Errors(UserValidator.Rules("updateUser"), RequestValidation.Request(body, map["username" := username]), isEmail) == []
    ensures Serve(Table, PUT, [username], header, body, verify, isEmail) ==
      Reached(Update, Authorize.Verified(header.value, verify), map["username" := username])
  {
    WritersAdmitUser(header, verify);
    UpdateUserOrder(username, header, body, verify, isEmail);
  }

  /** A request for `/<username>` is served by the first route of its verb with a `:username` pattern. */
  lemma ServeByName(verb: Verb, k: nat, username: string, header: Option<string>, body: map<string, Json.Json>, verify: string -> Option<Claims>, isEmail: string -> bool)
    requires username != ""
    requires 5 <= k < |Table| && Table[k].verb == verb && Table[k].pattern == [Param("username")]
    requires forall j :: 5 <= j < k ==> Table[j].verb != verb
    ensures Serve(Table, verb, [username], header, body, verify, isEmail) ==
      Run(Table[k].stages, header, RequestValidation.Request(body, map["username" := username]), verify, isEmail, None, [])
  {
    MatchParam("username", username);
    DispatchTo(Table, verb, [username], k);
    ServeRoute(Table, verb, [username], header, body, verify, isEmail, k, map["username" := username]);
  }

  /** `DELETE /:username`: admin and user tokens reach `delete`. */
  lemma DeleteUserRoute(username: string, header: Option<string>, body: map<string, Json.Json>, verify: string -> Option<Claims>, isEmail: string -> bool)
    requires username != ""
    ensures Serve(Table, DELETE, [username], header, body, verify, isEmail) ==
      Guarded(Writers, Delete, header, map["username" := username], verify)
  {
    ServeByName(DELETE, 8, username, header, body, verify, isEmail);
    assert Table[8].stages == [Guard(Authorize.RoleList(Writers)), Handle(Delete)];
    GuardedRoute(Writers, Delete, header, RequestValidation.Request(body, map["username" := username]), verify, isEmail);
  }

  /** `DELETE /:username`: likewise any verified user token reaches `delete` for any username. */
  lemma DeleteAnyUser(username: string, header: Option<string>, body: map<string, Json.Json>, verify: string -> Option<Claims>, isEmail: string -> bool)
    requires username != ""
    requires Authorize.HasHeader(header)
    requires Authorize.Verified(header.value, verify).Some? && Authorize.Verified(header.value, verify).value.role == "user"
    ensures Serve(Table, DELETE, [username], header, body, verify, isEmail) ==
      Reached(Delete, Authorize.Verified(header.value, verify), map["username" := username])
  {
    WritersAdmitUser(header, verify);
    DeleteUserRoute(username, header, body, verify, isEmail);
  }
}

=== FILE: user_validator.dfy ===
/** `userValidationRules(method)`: the request checks in front of the user create and update handlers. */
module UserValidator {
  import opened Wrappers
  import opened Json
  import opened RequestValidation
  import Bcrypt
  import UserModel

  const UsernameLengthMessage: string := "Username must be a string with a maximum length of 20 characters"
  const UsernameRequiredMessage: string := "Username is required"
  const PasswordLengthMessage: string := "Password must be between 6 and 20 characters"
  const PasswordRequiredMessage: string := "Password is required"
  const EmailInvalidMessage: string := "Email is not valid"
  const EmailRequiredMessage: string := "Email is required"

  const UsernameMax: nat := 20
  const PasswordMin: nat := 6
  const PasswordMax: nat := 20

  /** The chains of `createUser`. */
  const CreateUsername: Chain := Chain(BodyField, "username", false, [
    Step(IsString, DefaultMessage),
    Step(IsLength(0, Some(UsernameMax)), UsernameLengthMessage),
    Step(NotEmpty, UsernameRequiredMessage)])
  const CreatePassword: Chain := Chain(BodyField, "password", false, [
    Step(IsString, DefaultMessage),
    Step(IsLength(PasswordMin, Some(PasswordMax)), PasswordLengthMessage),
    Step(NotEmpty, PasswordRequiredMessage)])
  const CreateEmail: Chain := Chain(BodyField, "email", false, [
    Step(IsEmail, EmailInvalidMessage),
    Step(NotEmpty, EmailRequiredMessage)])

  /** The chains of `updateUser`. */
  const UpdateUsername: Chain := Chain(BodyField, "username", true, [
    Step(IsString, DefaultMessage),
    Step(IsLength(0, Some(UsernameMax)), UsernameLengthMessage)])
  const UpdatePassword: Chain := Chain(BodyField, "password", true, [
    Step(IsString, DefaultMessage),
    Step(IsLength(PasswordMin, Some(PasswordMax)), PasswordLengthMessage)])
  const UpdateEmail: Chain := Chain(BodyField, "email", true, [Step(IsEmail, EmailInvalidMessage)])
  const UpdateName: Chain := Chain(BodyField, "name", true, [Step(IsString, DefaultMessage)])
  const UpdateSurname: Chain := Chain(BodyField, "surname", true, [Step(IsString, DefaultMessage)])

  /** The rule list for a method name; any other name has none. */
  function Rules(ruleSet: string): seq<Chain>
  {
    if ruleSet == "createUser" then [CreateUsername, CreatePassword, CreateEmail]
    else if ruleSet == "updateUser" then [UpdateUsername, UpdatePassword, UpdateEmail, UpdateName, UpdateSurname]
    else []
  }

  /**
   * `createUser` accepts exactly a string username of 1 to 20 characters, a
   * string password of 6 to 20, and a non-empty valid email.
   */
  lemma CreateUserAccepts(req: Request, isEmail: string -> bool)
    ensures Errors(Rules("createUser"), req, isEmail) == [] <==>
      && StringField(req, "username", 1, UsernameMax)
      && StringField(req, "password", PasswordMin, PasswordMax)
      && EmailField(req, "email", isEmail)
  {
    AllPassThree(Rules("createUser"), req, isEmail);
    StringSteps(CreateUsername, req, isEmail, 1, UsernameMax);
    StringSteps(CreatePassword, req, isEmail, PasswordMin, PasswordMax);
    EmailSteps(CreateEmail, req, isEmail);
  }

  /**
   * `updateUser` accepts a body in which every field it names is either
   * absent or within the create bounds (a username may be empty here), and
   * name and surname, when present, are strings.
   */
  lemma UpdateUserAccepts(req: Request, isEmail: string -> bool)
    ensures Errors(Rules("updateUser"), req, isEmail) == [] <==>
      && ("username" in req.body ==> StringField(req, "username", 0, UsernameMax))
      && ("password" in req.body ==> StringField(req, "password", PasswordMin, PasswordMax))
      && ("email" in req.body ==> forall t :: t in Texts(Lookup(req, BodyField, "email")) ==> isEmail(t))
      && ("name" in req.body ==> req.body["name"].Str?)
      && ("surname" in req.body ==> req.body["surname"].Str?)
  {
    AllPassFive(Rules("updateUser"), req, isEmail);
    OptionalStringSteps(UpdateUsername, req, isEmail, 0, UsernameMax);
    OptionalStringSteps(UpdatePassword, req, isEmail, PasswordMin, PasswordMax);
    OptionalSingleStep(UpdateEmail, req, isEmail);
    PassesEveryText(IsEmail, Lookup(req, BodyField, "email"), isEmail);
    OptionalSingleStep(UpdateName, req, isEmail);
    OptionalSingleStep(UpdateSurname, req, isEmail);
  }

  /** Any other method name yields no rules, so every request passes. */
  lemma OtherMethodsCheckNothing(ruleSet: string, req: Request, isEmail: string -> bool)
    requires ruleSet != "createUser" && ruleSet != "updateUser"
    ensures Errors(Rules(ruleSet), req, isEmail) == []
  {
  }

  /**
   * A missing username is reported twice, with the default message of
   * `isString` and with "Username is required", but not by the length check.
   */
  lemma MissingUsernameMessages(req: Request, isEmail: string -> bool)
    requires "username" !in req.body
    ensures var errs := Errors(Rules("createUser"), req, isEmail);
      && FieldError(BodyField, "username", DefaultMessage) in errs
      && FieldError(BodyField, "username", UsernameRequiredMessage) in errs
      && FieldError(BodyField, "username", UsernameLengthMessage) !in errs
  {
    var chains := Rules("createUser");
    var errs := Errors(chains, req, isEmail);
    assert chains[0] == CreateUsername;
    MissingUsernameChain(req, isEmail);
    forall e | e in errs
      ensures e != FieldError(BodyField, "username", UsernameLengthMessage)
    {
      var i :| 0 <= i < |chains| && e in ChainErrors(chains[i], req, isEmail);
      if i > 0 {
        assert chains[i].field != "username";
      }
    }
  }

  /** The username chain alone, on a missing username: `isString` and `notEmpty` fail, `isLength` passes. */
  lemma MissingUsernameChain(req: Request, isEmail: string -> bool)
    requires "username" !in req.body
    ensures var first := ChainErrors(CreateUsername, req, isEmail);
      && FieldError(BodyField, "username", DefaultMessage) in first
      && FieldError(BodyField, "username", UsernameRequiredMessage) in first
      && FieldError(BodyField, "username", UsernameLengthMessage) !in first
  {
    var steps := CreateUsername.steps;
    var v := Lookup(req, BodyField, "username");
    assert v == None;
    assert !Passes(steps[0].check, v, isEmail);
    assert !Passes(steps[2].check, v, isEmail) by {
      assert !TextPasses(NotEmpty, "", isEmail);
    }
    assert Passes(steps[1].check, v, isEmail);
    var first := StepErrors(BodyField, "username", steps, v, isEmail);
    assert ChainErrors(CreateUsername, req, isEmail) == first;
    forall e | e in first
      ensures e.msg != UsernameLengthMessage
    {
      var i :| 0 <= i < |steps| && steps[i].message == e.msg && !Passes(steps[i].check, v, isEmail);
      assert i != 1;
    }
  }

  /** A password `createUser` accepts also meets the schema's 6..60 rule. */
  lemma ValidatedPasswordMeetsSchema(req: Request, isEmail: string -> bool)
    requires Errors(Rules("createUser"), req, isEmail) == []
    ensures "password" in req.body && req.body["password"].Str?
    ensures UserModel.PasswordCheck(Some(Bcrypt.Plain(req.body["password"].s))) == None
  {
    CreateUserAccepts(req, isEmail);
  }

  /**
   * The validator is stricter than the schema: a 21-character password is
   * refused by `createUser` but meets the schema, which `register` (with no
   * validator) relies on alone.
   */
  lemma ValidatorStricterThanSchema(req: Request, isEmail: string -> bool)
    requires "password" in req.body && req.body["password"].Str? && |req.body["password"].s| == PasswordMax + 1
    ensures Errors(Rules("createUser"), req, isEmail) != []
    ensures UserModel.PasswordCheck(Some(Bcrypt.Plain(req.body["password"].s))) == None
  {
    CreateUserAccepts(req, isEmail);
  }
}

=== FILE: wrappers.dfy ===
/** Absent-or-present values and success-or-failure results, used across the model. */
module Wrappers {

  /** `undefined` (or `null`) versus a present value. */
  datatype Option<+T> = None | Some(value: T)

  /** A computation that either yields a value or fails with an error. */
  datatype Result<+T, +E> = Ok(value: T) | Err(error: E)
}
